=== FILE: README.md ===
# dompetku bookkeeping model

A Dafny model of the bookkeeping logic of *dompetku*, a personal-finance web
app written in TypeScript with React. Most of the app is UI. This model
covers the computations its hook, pages, sidebar, chart and sign-in context
perform over lists of records:

- **The transaction hook** (`Ledger`): the monthly statistics, the
  per-category expense breakdown, the category join and the add, update
  and delete list edits.
- **The dashboard** (`Dashboard`): the weekly trend of the current month,
  the six-month comparison, the upcoming bills, the budget progress panel
  and the shortened lists.
- **The transactions page** (`TransactionsPage`): search, type and category
  filters, totals of the shown list, category pills, tag parsing and the
  submit handler.
- **The budgets, goals and subscriptions pages** (`Budgets`, `Goals`,
  `Subscriptions`): their totals, card flags and handlers.
- **Settings** (`Settings`): the per-user key, the storage keys, the CSV
  export and clearing the data.
- **Smaller pieces**:
  - the sidebar's route highlighting (`Sidebar`);
  - the budget bar chart's row mapping (`Charts`);
  - the sign-in state machine (`Auth`);
  - the shared helpers (`Utils`, `Calendar`, `Text`, `Seqs`).

Representation choices:
- Amounts are exact `real`s. `Math.round(x)` is `(x + 0.5).Floor`.
- Dates are decoded local calendar dates `Date(year, month0, day)`.
- Instants are whole milliseconds. `Math.ceil(ms / 86400000)` is
  `-((-ms) / 86400000)` on integers.
- The app's outside inputs are parameters of the operations that use them:
  - the current time: `now`, `nowMs`;
  - `parseFloat`: `parse`;
  - decoding a stored date: `decode`, `instant`;
  - the number and date texts: `showAmount`, `showDate`;
  - `crypto.randomUUID()`: `freshId`;
  - the answers of confirmation dialogs, as booleans.
- Storage appears only where the logic reads it:
  - the stored session record in `Auth`;
  - a key-to-text map in `Settings.ClearData` and `Settings.ClearAllData`.
- The pages receive their lists from the transaction hook joined with their
  category (`src/hooks/useTransactions.ts:163`). The model keeps plain
  transactions and looks the category up by id where the page reads the
  joined one (`TransactionsPage.CategoryNameOf`).

Module layout follows the source: one module per source file of the core,
plus shared modules for strings, sequences, calendar arithmetic and types.

## Model

| member | source | states |
|---|---|---|
| Utils.Round | src/lib/utils.ts:58 | `Math.round`: the result lies within half a unit below (inclusive) or above (exclusive) of `x`, so halves round up |
| Utils.CalculatePercentage | src/lib/utils.ts:56-59 | a zero total gives 0; otherwise the result is `value / total * 100` rounded half-up |
| Utils.PercentageOfWhole | src/lib/utils.ts:56-59 | the whole of a non-zero total is 100 and zero of any total is 0 |
| Utils.PercentageReaches | src/lib/utils.ts:58 | with a positive total, the percentage reaches `k` exactly when `200 * value >= (2k - 1) * total` |
| Utils.PercentageReachesNegative | src/lib/utils.ts:58 | with a negative total the comparison turns round: the percentage reaches `k` exactly when `200 * value <= (2k - 1) * total` |
| Utils.PercentageThreshold | src/lib/utils.ts:58 | for any non-zero total, the threshold at `k` in the direction the total's sign gives |
| Utils.FloorSteps | src/lib/utils.ts:39-42 | the nested floor divisions (seconds, minutes, hours, days) equal one floor division of the millisecond count |
| Utils.FormatRelativeTime | src/lib/utils.ts:35-48 | a day or more gives "<days> hari lalu", an hour up to a day "<h> jam lalu", a minute up to an hour "<m> menit lalu", anything under a minute (future instants too) "Baru saja" |
| Calendar.DaysInMonth | src/app/dashboard/page.tsx:89 | a month has 28 to 31 days; February has 29 exactly in Gregorian leap years; the other 31-day months are the usual seven |
| Calendar.YearLength | src/app/dashboard/page.tsx:89 | the twelve month lengths add up to 365, or 366 in a leap year |
| Calendar.ShiftMonth | src/app/dashboard/page.tsx:135-137 | the shifted month lies in 0..11 and is the same absolute month as `month + delta`, the overflow carried into the year |
| Calendar.PrevMonthIsShift | src/hooks/useTransactions.ts:100-101 | the explicit wrap (January to December of the previous year) is the month shifted back by one |
| Calendar.MonthIndexUnique | src/app/dashboard/page.tsx:135-137 | two normalised months naming the same absolute month are equal |
| Calendar.CeilDays | src/app/dashboard/goals/page.tsx:169 | `Math.ceil(ms / 86400000)`: the least whole number of days covering the milliseconds |
| Calendar.DaysUntil | src/app/dashboard/subscriptions/page.tsx:167-171 | the days from now until the target instant, rounded up |
| Calendar.CeilDaysUnique | src/app/dashboard/goals/page.tsx:169 | the rounded-up day count is the only integer meeting the ceiling bounds |
| Text.ToLower | src/app/dashboard/transactions/page.tsx:85 | `toLowerCase` keeps the length, turns each upper-case ASCII letter into its lower-case partner (code point plus 32), keeps every other character, and so keeps whitespace positions and leaves no upper-case letter |
| Text.Trim | src/app/dashboard/transactions/page.tsx:146 | `trim`: the result is a piece of the input with only whitespace cut off either side, and has no whitespace at either end |
| Text.TrimTrimmed | src/app/dashboard/transactions/page.tsx:146 | a string with no whitespace at either end is its own trim |
| Text.TrimAfterSpace | src/app/dashboard/transactions/page.tsx:129 | trimming a trimmed string behind one space gives the string back |
| Text.Split | src/app/dashboard/transactions/page.tsx:146 | `split(",")` always gives at least one piece, and no piece holds the separator |
| Text.SplitJoin | src/app/dashboard/transactions/page.tsx:146 | joining separator-free pieces with the separator and splitting again gives the pieces back |
| Text.JoinSplit | src/app/dashboard/transactions/page.tsx:146 | splitting and joining again with the same separator gives the string back |
| Text.SplitAppend | src/app/dashboard/settings/page.tsx:115 | splitting at a separator splits the two sides independently |
| Text.JoinNoChar | src/app/dashboard/settings/page.tsx:115 | pieces and separator free of a character join into a string free of it |
| Text.SplitSeveral | src/app/dashboard/settings/page.tsx:115 | a string splits into two or more pieces exactly when it holds the separator |
| Text.ContainsAt | src/app/dashboard/transactions/page.tsx:85 | `includes` holds exactly when the needle occurs at some offset |
| Text.ContainsEmpty | src/app/dashboard/transactions/page.tsx:85 | every string includes the empty string |
| Text.ShowNat | src/lib/utils.ts:44 | the rendering of a number is a non-empty run of decimal digits without a leading zero |
| Text.ShowNatValue | src/lib/utils.ts:44 | reading the decimal rendering back gives the number |
| Seqs.Filter | src/hooks/useTransactions.ts:59 | `filter` keeps exactly the elements passing the test, in order |
| Seqs.FilterFilter | src/app/dashboard/subscriptions/page.tsx:84-89 | filtering twice is one filter by both tests, in order |
| Seqs.FilterAfterMap | src/app/dashboard/page.tsx:165-178 | filtering the images of a filtered list is one filter on the originals followed by the map, in order |
| Seqs.CountDisjoint | src/app/dashboard/budgets/page.tsx:66-67 | counts under two exclusive tests add up to the count under either |
| Seqs.SortBy | src/hooks/useTransactions.ts:159 | sorting gives a permutation of the input in non-decreasing key order |
| Seqs.TakeSortedSmallest | src/app/dashboard/page.tsx:179-180 | after sorting, nothing cut off by `slice(0, n)` has a smaller key than what is kept |
| Seqs.SumByMapWhere | src/app/dashboard/goals/page.tsx:147-153 | rewriting the matching elements so each value grows by `d` grows the sum by `d` times their number |
| Ledger.FlowWhereDisjoint | src/app/dashboard/page.tsx:101-115 | the totals under two exclusive selections add up to the totals under either |
| Ledger.FlowWhereAppend | src/app/dashboard/page.tsx:101-115 | the totals of two stretches of the ledger add up |
| Ledger.FlowWhereNonNegative | src/app/dashboard/page.tsx:109-113 | with no negative amounts, no selection has negative totals |
| Ledger.FlowWhereAgree | src/app/dashboard/page.tsx:103-108 | selections agreeing on every transaction give the same totals |
| Ledger.MonthFlowIsFilteredSum | src/hooks/useTransactions.ts:86-97 | filtering by month, then by type, then summing gives the one-pass month totals the charts use |
| Ledger.BalanceIsIncomeMinusExpense | src/hooks/useTransactions.ts:112-114 | the running balance is total income minus total expense |
| Ledger.BalanceByMonth | src/hooks/useTransactions.ts:112-114 | the balance of the ledger is the balance of any one month plus the balance of all other months |
| Ledger.ComputeStats | src/hooks/useTransactions.ts:81-126 | monthly income and expense are the month's totals; last month's expense is the expense of the month before, across a year boundary; the total balance is income minus expense over all dates; expense change is 0 without last-month expense, else the rounded percentage change; budget remaining is the month's balance; an empty ledger gives all zeros |
| Ledger.StatsExample | src/hooks/useTransactions.ts:81-126 | a salary and an expense in March 2024 give the expected six figures |
| Ledger.CategoryById | src/hooks/useTransactions.ts:65-70 | `find`: absent exactly when no category has the id; otherwise the first category with that id |
| Ledger.TransactionsWithCategory | src/hooks/useTransactions.ts:73-78 | every transaction in order, joined with a category exactly when one with its id exists |
| Ledger.CategoryBreakdown | src/hooks/useTransactions.ts:129-160 | one slice per resolvable category of the month's expenses, each holding that category's expense sum and its name and colour, ordered by non-increasing value; the values add up to the resolvable expenses |
| Ledger.BreakdownCoversExpense | src/hooks/useTransactions.ts:134-157 | the slices plus the expenses with an unknown category make up the month's expense figure |
| Ledger.ResolvedSplit | src/hooks/useTransactions.ts:146-156 | resolvable plus unresolvable amounts make up the total |
| Ledger.MonthExpensesSum | src/hooks/useTransactions.ts:134-141 | the combined expense-and-month filter sums to the month's expense total |
| Ledger.AddTransaction | src/hooks/useTransactions.ts:32-44 | exactly one new record, with the fresh id, the creation time and the draft's fields, goes in front; the old list follows unchanged |
| Ledger.UpdateTransaction | src/hooks/useTransactions.ts:47-54 | the length is kept; records with the id take the draft's fields and keep id and creation time; all others are unchanged |
| Ledger.DeleteTransaction | src/hooks/useTransactions.ts:57-62 | exactly the records with the id go, the rest keep their order and every copy of them survives (as many as the records without the id); an absent id changes nothing |
| Ledger.DeleteIdempotent | src/hooks/useTransactions.ts:59 | deleting the same id twice is deleting it once |
| Ledger.DeleteJustAdded | src/hooks/useTransactions.ts:32-44 | deleting the id of a record just added gives what deleting that id gave before the add |
| Dashboard.Tally | src/app/dashboard/page.tsx:98-115 | the `forEach` loop's income and expense are the totals of the selected transactions |
| Dashboard.BucketsPartition | src/app/dashboard/page.tsx:103-108 | the weekly buckets are pairwise disjoint, cover exactly the days 1 up to the month's last, and miss the last day |
| Dashboard.Buckets | src/app/dashboard/page.tsx:95-123 | one point per pair of adjacent bounds, labelled "<start> <abbr>", holding the totals of the days in the bucket |
| Dashboard.WeeklyTrend | src/app/dashboard/page.tsx:85-126 | four points with start days 1, 7, 14, 21 and the month's abbreviation; the buckets plus the month's last day make up the month's totals, so with no negative amounts the chart never exceeds them |
| Dashboard.TrendFlowIs | src/app/dashboard/page.tsx:95-123 | the sum of the chart points is the sum of the four bucket selections |
| Dashboard.WholeMonth | src/app/dashboard/page.tsx:103-108 | with valid days, the days 1 through the last are the whole month |
| Dashboard.TrendCoversMonth | src/app/dashboard/page.tsx:93-115 | the four buckets as written and the last day together make up the month's totals |
| Dashboard.JoinDays | src/app/dashboard/page.tsx:106-107 | two adjacent day ranges add up to their union |
| Dashboard.LastDayMissed | src/app/dashboard/page.tsx:93 | an expense on 31 January 2024 is in no bucket, though it is the month's whole expense |
| Dashboard.ClosedWeeklyTrend | src/app/dashboard/page.tsx:93 | with the last bucket closed at the month's end, the four points add up to exactly the month's totals |
| Dashboard.ClosedTrendCoversMonth | src/app/dashboard/page.tsx:93-115 | the four closed buckets make up the month's totals |
| Dashboard.SixMonthSeries | src/app/dashboard/page.tsx:129-161 | six points, oldest first; point k is the month k - 5 months from now, borrowing across years, with its abbreviation and totals; the last point and the one before agree with the statistics' monthly and last-month figures |
| Dashboard.EligibleBills | src/app/dashboard/page.tsx:165-178 | one bill per active subscription due in 0 to 14 days, as many as there are such subscriptions, in the subscriptions' order; every bill is due in 0 to 14 days |
| Dashboard.BillsOfEligible | src/app/dashboard/page.tsx:165-177 | the bills of the eligible subscriptions are due in 0 to 14 days, each comes from an active subscription, and every active subscription due in that window has its bill among them |
| Dashboard.NearestThree | src/app/dashboard/page.tsx:179-180 | at most three bills, a sub-multiset of the input (no bill shown more often than it occurs), ascending by days due; none left out is due sooner than one kept |
| Dashboard.UpcomingBills | src/app/dashboard/page.tsx:164-181 | at most three eligible bills, a sub-multiset of the eligible ones, all due in 0 to 14 days, nearest first, and no eligible bill left out is due sooner than one shown |
| Dashboard.ProgressOf | src/app/dashboard/page.tsx:393-406 | a limit that is not positive gives 0 %; otherwise percentage and over flag match the budgets page's card, and the warning flag also covers the over case; the bar is the percentage capped at 100, never above the percentage |
| Dashboard.BudgetPanel | src/app/dashboard/page.tsx:392-395 | the first four budgets, each with its progress |
| Dashboard.RecentTransactions | src/app/dashboard/page.tsx:192 | the first five transactions, or all if fewer |
| Dashboard.RecentAfterAdd | src/app/dashboard/page.tsx:192 | after an add, the new record leads the recent list and the previous recent ones follow, minus the oldest |
| Dashboard.TopCategories | src/app/dashboard/page.tsx:297 | the first four slices of the breakdown; no slice left out is larger than one shown |
| TransactionsPage.FilterTransactions | src/app/dashboard/transactions/page.tsx:83-90 | exactly the records that have a description containing the query (ignoring case), match the type filter, and whose category name matches the pill unless the pill is "Semua"; in ledger order, every copy of them, as many as pass the filters |
| TransactionsPage.CategoryPillExample | src/app/dashboard/transactions/page.tsx:87 | a food expense shows under "Makanan" and "Semua" and not under "Transportasi" |
| TransactionsPage.EmptyQueryShowsDescribed | src/app/dashboard/transactions/page.tsx:85 | with no query and no other filter, exactly the records with a description are shown |
| TransactionsPage.Totals | src/app/dashboard/transactions/page.tsx:93-99 | income and expense are the sums per type of the shown records, and the balance is their running balance |
| TransactionsPage.OneTypeTotals | src/app/dashboard/transactions/page.tsx:86-99 | with one type selected, the other type's total is zero and the balance is plus or minus the selected total |
| TransactionsPage.CategoryPills | src/app/dashboard/transactions/page.tsx:102 | "Semua" then the category names in order, at most eight pills |
| TransactionsPage.ParseTags | src/app/dashboard/transactions/page.tsx:146 | every parsed tag is non-empty, has no whitespace at either end and no comma |
| TransactionsPage.ParseTagsJoin | src/app/dashboard/transactions/page.tsx:129-146 | well-formed tags joined with ", " for the edit modal parse back to the same tags |
| TransactionsPage.ParseTagsIdempotent | src/app/dashboard/transactions/page.tsx:146 | parsing what the edit modal shows gives the same tags again |
| TransactionsPage.JoinSpaced | src/app/dashboard/transactions/page.tsx:129 | joining with ", " is joining the tags with a space in front with "," |
| TransactionsPage.SubmitTransaction | src/app/dashboard/transactions/page.tsx:134-166 | nothing changes while amount, description or category is empty; with an editing id the records with it take the form's fields and keep id and creation time; otherwise the new record goes in front; every new or changed record has well-formed tags |
| TransactionsPage.ResubmitUnchanged | src/app/dashboard/transactions/page.tsx:122-160 | opening a record with a unique id for editing and saving without change leaves the ledger as it was |
| Budgets.Leftover | src/app/dashboard/budgets/page.tsx:64-65 | total budget minus total spent is the sum of every budget's headroom |
| Budgets.CountsDisjoint | src/app/dashboard/budgets/page.tsx:66-67 | no budget is both over and near its limit, so the two counts add up to the flagged budgets and never exceed the number of budgets |
| Budgets.FlaggedFromEightyPercent | src/app/dashboard/budgets/page.tsx:66-67 | with a non-negative limit, a budget is counted in one of the two exactly when 80 % of its limit is spent |
| Budgets.CardOf | src/app/dashboard/budgets/page.tsx:206-254 | the card's percentage is the rounded share; with a positive limit over exactly from 99.5 % on and warning exactly from 79.5 % below that, with a negative limit the same thresholds turned round, never both; remaining is the headroom floored at 0; the bar is the percentage capped at 100 |
| Budgets.CardOverVersusSummary | src/app/dashboard/budgets/page.tsx:66 | every budget the summary counts over is over on its card, and the card alone says over exactly between 99.5 % and 100 % |
| Budgets.CardOverButNotCounted | src/app/dashboard/budgets/page.tsx:207-209 | 995 spent of 1000 shows 100 % and over on the card while the summary counts no budget over |
| Budgets.AddBudget | src/app/dashboard/budgets/page.tsx:101-110 | one budget is appended with the fresh id, the form's fields, nothing spent and colour "#10b981"; total spent is kept and total budget grows by the new limit |
| Budgets.EditBudget | src/app/dashboard/budgets/page.tsx:93-99 | only name, limit and icon of the budgets with the id change; id, spent and colour are kept; total spent is unchanged |
| Budgets.DeleteBudget | src/app/dashboard/budgets/page.tsx:117-121 | after confirmation exactly the budgets with the id go, the rest keep their order and every copy of them survives; without it nothing changes |
| Budgets.SubmitBudget | src/app/dashboard/budgets/page.tsx:89-114 | nothing happens while name or limit is empty; otherwise the edited budget is rewritten, or the list grows exactly as `AddBudget` states: the old budgets kept, the form's name, limit and icon stored with the fresh id and nothing spent |
| Goals.OverallProgressAsWritten | src/app/dashboard/goals/page.tsx:234 | the progress card as written shows no number exactly when the target total is zero, and otherwise the saved total as a rounded percentage of the target total |
| Goals.ZeroTargetsSumToZero | src/app/dashboard/goals/page.tsx:73 | goals whose targets are all zero, and so no goals at all, give a zero target total |
| Goals.NoGoalsShowNoProgress | src/app/dashboard/goals/page.tsx:234 | with no goals, or only zero targets, the card as written shows no percentage while the guarded computation gives 0 |
| Goals.OverallProgress | src/lib/utils.ts:56-59 | the progress card through the guarded percentage: 0 for a zero target total, otherwise exactly the number the page shows, and between 0 and 100 while the saved total lies between 0 and a positive target total |
| Goals.DaysRemaining | src/app/dashboard/goals/page.tsx:166-170 | the days to the deadline, rounded up |
| Goals.CardOf | src/app/dashboard/goals/page.tsx:257-333 | completed exactly from 99.5 % on; urgent with 1 to 30 days left and overdue with a past deadline, only when not completed and never both; the bar is the percentage capped at 100; the add-funds button shows exactly when not completed |
| Goals.CardCompletedVersusSummary | src/app/dashboard/goals/page.tsx:75 | every goal counted completed shows completed, and the card alone says completed exactly between 99.5 % and 100 % |
| Goals.CompletedButNotCounted | src/app/dashboard/goals/page.tsx:258-259 | 995 saved of 1000 shows "Tercapai!" and hides add-funds while the completed count stays 0 |
| Goals.AddGoal | src/app/dashboard/goals/page.tsx:127-136 | one goal is appended with the fresh id, the form's fields and nothing saved; total saved is kept and total target grows by the new target |
| Goals.EditGoal | src/app/dashboard/goals/page.tsx:111-124 | only name, target, deadline, icon and colour of the goals with the id change; id and saved amount are kept; total saved is unchanged |
| Goals.AddFunds | src/app/dashboard/goals/page.tsx:144-156 | nothing happens without an amount or a selected goal; otherwise only the selected goal's saved amount rises, by exactly the amount, and the saved total rises by that much per goal with the id |
| Goals.DepositKeepsCompleted | src/app/dashboard/goals/page.tsx:145-153 | depositing a non-negative amount never lowers the completed count |
| Goals.DeleteGoal | src/app/dashboard/goals/page.tsx:160-164 | after confirmation exactly the goals with the id go, the rest keep their order and every copy of them survives; without it nothing changes |
| Goals.SubmitGoal | src/app/dashboard/goals/page.tsx:107-140 | nothing happens while name, target or deadline is empty; otherwise the edited goal is rewritten, or the list grows exactly as `AddGoal` states: the old goals kept, the form's fields stored with the fresh id and nothing saved |
| Subscriptions.MonthlyTotalSplit | src/app/dashboard/subscriptions/page.tsx:77-80 | the monthly total is the active monthly amounts plus a twelfth of the active yearly amounts; inactive ones add nothing |
| Subscriptions.YearlyTotalSplit | src/app/dashboard/subscriptions/page.tsx:81 | the yearly total is twelve times the active monthly amounts plus the active yearly amounts |
| Subscriptions.DaysUntilBilling | src/app/dashboard/subscriptions/page.tsx:167-171 | the days to the next billing, rounded up |
| Subscriptions.UpcomingPayments | src/app/dashboard/subscriptions/page.tsx:84-89 | exactly the active subscriptions billed in 0 to 7 days, in list order, as many as there are such subscriptions |
| Subscriptions.FlagsOf | src/app/dashboard/subscriptions/page.tsx:262-264 | urgent with 0 to 3 days, past with a negative count, never both; past exactly when the billing lies a whole day or more behind |
| Subscriptions.ToggleActive | src/app/dashboard/subscriptions/page.tsx:161-165 | subscriptions with the id flip their active flag and nothing else; all others are unchanged |
| Subscriptions.ToggleTwice | src/app/dashboard/subscriptions/page.tsx:161-165 | toggling the same id twice restores the list |
| Subscriptions.AddSubscription | src/app/dashboard/subscriptions/page.tsx:137-148 | one subscription is appended, active, with the fresh id and the form's fields |
| Subscriptions.EditSubscription | src/app/dashboard/subscriptions/page.tsx:121-135 | the subscriptions with the id take the form's fields and keep id and active flag; all others are unchanged |
| Subscriptions.DeleteSubscription | src/app/dashboard/subscriptions/page.tsx:155-159 | after confirmation exactly the subscriptions with the id go, the rest keep their order and every copy of them survives; without it nothing changes |
| Subscriptions.SubmitSubscription | src/app/dashboard/subscriptions/page.tsx:117-152 | nothing happens while name, amount or date is empty; otherwise the edited subscription is rewritten, or the list grows exactly as `AddSubscription` states: the old subscriptions kept, the form's fields stored active with the fresh id |
| Auth.Init | src/context/AuthContext.tsx:20-22 | the provider starts signed out and loading |
| Auth.Restore | src/context/AuthContext.tsx:24-39 | loading ends; the user is signed in when already so or when the stored record holds the valid email; an unparseable record is removed and anything else kept; sign-in and user stay consistent |
| Auth.Login | src/context/AuthContext.tsx:41-49 | succeeds exactly for the hard-coded pair, then signs in with the email and stores it; a failure changes nothing |
| Auth.Logout | src/context/AuthContext.tsx:51-55 | signed out, no user, no stored record |
| Auth.LogoutIdempotent | src/context/AuthContext.tsx:51-55 | signing out twice is signing out once |
| Auth.Reload | src/context/AuthContext.tsx:20-39 | a fresh provider over the stored record ends consistent and not loading |
| Auth.LoginSurvivesReload | src/context/AuthContext.tsx:26-45 | after a successful sign-in a reload signs the same user in again |
| Auth.LogoutSurvivesReload | src/context/AuthContext.tsx:26-54 | after signing out a reload stays signed out |
| Auth.RestoreFromStorage | src/context/AuthContext.tsx:24-39 | from a fresh start the effect signs in exactly when the stored record holds the valid email, and leaves no record exactly when there was none or it did not parse |
| Settings.CollapseSpaces | src/app/dashboard/settings/page.tsx:52 | every whitespace run becomes one dash: no whitespace is left and the result is no longer than the input |
| Settings.CollapseKeepsChars | src/app/dashboard/settings/page.tsx:52 | every character of the result is a dash or a character of the input |
| Settings.CollapsePrefix | src/app/dashboard/settings/page.tsx:52 | a whitespace-free prefix passes through unchanged, in front of the collapsed rest |
| Settings.CollapseNoSpace | src/app/dashboard/settings/page.tsx:52 | whitespace-free input is unchanged |
| Settings.CollapseRun | src/app/dashboard/settings/page.tsx:52 | a whitespace run of any length after a whitespace-free stretch becomes a single dash |
| Settings.Slug | src/app/dashboard/settings/page.tsx:52 | the slug has no whitespace and no upper-case letter and is no longer than the name; a name without whitespace is only lower-cased |
| Settings.SlugIdempotent | src/app/dashboard/settings/page.tsx:52 | the slug of a slug is itself |
| Settings.UserKey | src/app/dashboard/settings/page.tsx:52 | "guest" for an absent or empty name, the slug of the name otherwise; never whitespace |
| Settings.StorageKey | src/app/dashboard/settings/page.tsx:62 | the key starts with "dompetku-" and ends with "-" and the user key |
| Settings.StorageKeyInjective | src/app/dashboard/settings/page.tsx:83-86 | two keys are equal exactly when entity and user are |
| Settings.ClearedKeys | src/app/dashboard/settings/page.tsx:138-143 | the removed keys are exactly the user's six entity keys |
| Settings.ClearData | src/app/dashboard/settings/page.tsx:135-147 | only with both dialogs accepted are the user's six suffixed keys removed; every other key keeps its text, including the bare keys four collections are written under |
| Settings.WrittenKey | src/hooks/useTransactions.ts:26-29 | the key a collection is written under: bare `dompetku-<entity>` for transactions, categories, budgets and goals (also budgets/page.tsx:56, goals/page.tsx:60), the user-suffixed key exactly for subscriptions and the profile (subscriptions/page.tsx:64, settings/page.tsx:62) |
| Settings.ClearLeavesBareCollections | src/app/dashboard/settings/page.tsx:138-143 | as written, clearing keeps the transactions, categories, budgets and goals collections with their text |
| Settings.WrittenKeys | src/app/dashboard/settings/page.tsx:136-137 | the keys of all six collections as they are written, one per entity |
| Settings.ClearAllData | src/app/dashboard/settings/page.tsx:136-137 | after both confirmations no collection remains under the key it is written under; every other key keeps its text; without them nothing changes |
| Settings.ClearAllDataCoversClearData | src/app/dashboard/settings/page.tsx:138-143 | the corrected clear removes every written key and, for subscriptions and the profile, the same key the page removes |
| Settings.ClearKeepsOtherUsers | src/app/dashboard/settings/page.tsx:138-143 | clearing one user's data keeps every key of another user |
| Settings.HeaderColumns | src/app/dashboard/settings/page.tsx:107 | the header line's fields are Date, Description, Type, Amount, Category |
| Settings.Csv | src/app/dashboard/settings/page.tsx:106-115 | the file starts with the header line |
| Settings.CsvLines | src/app/dashboard/settings/page.tsx:108-115 | the file's lines are the header, then one row per transaction in list order, when no field holds a line break |
| Settings.RowSplit | src/app/dashboard/settings/page.tsx:115 | a row splits into the date, the description's pieces, then type, amount and category |
| Settings.RowFieldCount | src/app/dashboard/settings/page.tsx:115 | a row has exactly five fields when the description holds no comma, and more than five when it does |
| Sidebar.DashboardExact | src/components/layout/sidebar.tsx:131-133 | the Dashboard item is active only on "/dashboard" itself |
| Sidebar.RoutesDoNotNest | src/components/layout/sidebar.tsx:25-51 | the navigation routes are distinct and, apart from the dashboard home, none is a prefix of another |
| Sidebar.AtMostOneActive | src/components/layout/sidebar.tsx:131-133 | whatever the path, at most one navigation item is active |
| Sidebar.SettingsExclusive | src/components/layout/sidebar.tsx:158 | on the settings route only the settings link is active |
| Sidebar.PrefixWithoutBoundary | src/components/layout/sidebar.tsx:133 | "/dashboard/goalsX" activates the Target item |
| Charts.RowOf | src/components/charts/index.tsx:194-199 | name and spent are copied; remaining is the headroom floored at 0, so spent plus remaining is the larger of spent and limit; the percentage is the rounded share |
| Charts.ChartData | src/components/charts/index.tsx:194-199 | one row per budget in the same order, each as `RowOf` describes |
| Charts.RowAgreesWithCard | src/components/charts/index.tsx:197-198 | a chart row shows the same percentage and remaining amount as the budgets page's card |

## Left out

- Rendering, icons, modals, theming, chart components and their tick
  formatters are UI.
- Persistence is not modelled beyond `Auth`'s stored record and the key map
  of `Settings.ClearData`. This covers `useLocalStorage`, JSON
  parsing/serialising, the JSON export, the file download, `setTimeout`
  delays and `location.reload`. Pages read and write the collections they
  are handed.
- Which key each collection lives under is stated by `Settings.WrittenKey`,
  but reading and writing storage is not modelled. Transactions and
  categories (useTransactions.ts:26, 29), budgets (budgets/page.tsx:56) and
  goals (goals/page.tsx:60) are written under bare `dompetku-<entity>` keys;
  only subscriptions (subscriptions/page.tsx:64) and the profile
  (settings/page.tsx:62) carry the user key. So in the app, clearing the data
  leaves transactions, budgets, goals and categories in place (a finding
  below); the CSV export reads `dompetku-transactions-<userKey>`, which
  nothing writes, so the file holds only the header; and the dashboard reads
  bare `"dompetku-subscriptions"` (page.tsx:77), never the subscriptions
  page's collection. `Settings.Csv` models the export of the list it is
  handed, and the dashboard takes the budgets and subscriptions as given.
- Date parsing and time zones are parameters (`decode`, `instant`).
  `new Date("YYYY-MM-DD")` reads UTC while `getMonth()` reads local time,
  so which local date a stored string lands on is not modelled.
- Day numbers outside a month's range cannot come out of a real `Date`.
  Contracts that depend on this assume it under `Dashboard.DaysValid`.
- IEEE-754 behaviour (`NaN` from `parseFloat`, `Infinity` from division by
  zero, rounding error) is replaced by exact arithmetic.
- `Intl` formatting (`formatCurrency`, `formatDate`, month names) and
  `toISOString` are left out. `amount.toString()` and the date text are the
  parameters `showAmount` and `showDate`.
- Unicode case folding and the Unicode whitespace set are left out. Only
  ASCII letters are lowered, and only ASCII whitespace (space, tab,
  line-feed, vertical tab, form-feed, carriage return) is whitespace.
- `cn` is a styling helper.
- `crypto.randomUUID()` and the clock are parameters.
- The signed-in user carries only an email. `user?.name` on the settings
  page is therefore always absent, and the key is always "guest";
  `Settings.UserKey` models the expression for any name.
- Ledger.CategoryBreakdown: does not fix the order of slices of equal
  value. The source's order there depends on JavaScript object key order.
- Budgets.CardOf: requires a non-zero limit, because the page divides by it
  unguarded and a zero limit gives NaN or an infinity in floating point. A
  negative limit is admitted and its turned-round thresholds are stated.
- Goals.CardOf: requires a non-zero target, because the page divides by it
  unguarded. A negative target is admitted and its turned-round threshold
  is stated.
- Charts.RowOf: requires a non-zero limit, because the chart mapping divides
  by it unguarded.
- Charts.ChartData: requires every limit to be non-zero, for the same reason
  as `Charts.RowOf`.
- Ledger.UpdateTransaction: the ledger record leaves out `user_id`,
  `receipt_url`, `location`, `mood` and `is_recurring`. The app writes only
  "local", null, null, null and false into them, so no state the app itself
  reaches differs there; the update's overwrite of the last four with
  those constants is not modelled.
- TransactionsPage.ResubmitUnchanged: holds for records the app itself
  writes. A record loaded from storage with a receipt, location, mood or
  recurring flag set would lose them on an unchanged save, because the
  page's update writes null and false over them; the model has no such fields.
- Settings.Csv: states only the header prefix. The line structure is
  stated by Settings.CsvLines, under the condition that no field holds a
  line break.
- Ledger.ComputeStats: states last month's expense through the general
  month arithmetic only for a month index in 0..11, which every `Date`
  gives.
- Calendar.MonthAbbrev: states only that abbreviations have three letters.
  The table itself is the constant `MonthNames`.
- Set sizes are not stated: the count of keys `Settings.ClearedKeys`
  removes is not proved to be six. Settings.StorageKeyInjective gives the
  distinctness instead.

## Findings

| source | as written | input that shows it | evidently intended | confidence | as-written member | corrected member |
|---|---|---|---|---|---|---|
| src/app/dashboard/page.tsx:93 | the bucket bounds are `[1, 7, 14, 21, daysInMonth]` with an exclusive upper bound, so the month's last day is in no weekly bucket | an expense of 50 dated 31 January 2024: all four buckets show 0 while the month's expense is 50 | the last bucket runs through the month's last day, so the four weekly points add up to the month | high (not executed) | Dashboard.WeeklyTrend, Dashboard.LastDayMissed | Dashboard.ClosedWeeklyTrend, Dashboard.ClosedTrendCoversMonth |
| src/app/dashboard/goals/page.tsx:234 | the Progress card divides the saved total by the target total unguarded | no goals at all: `0 / 0` is NaN and the card reads "NaN%" | the result of the app's shared `calculatePercentage` (src/lib/utils.ts:56-59), which returns 0 for a zero total and which the goals page does not use | high (not executed) | Goals.OverallProgressAsWritten, Goals.NoGoalsShowNoProgress | Goals.OverallProgress |
| src/app/dashboard/settings/page.tsx:138-142 | clearing removes `dompetku-<entity>-<userKey>` for every collection, but transactions, categories, budgets and goals are written under bare `dompetku-<entity>` keys | a store holding `dompetku-transactions` and `dompetku-budgets`: after both confirmations both keys keep their text | every collection goes, as the second dialog says ("Semua transaksi, anggaran, dan data lainnya akan hilang") | high (not executed) | Settings.ClearData, Settings.ClearLeavesBareCollections | Settings.ClearAllData, Settings.ClearAllDataCoversClearData |

=== FILE: auth.dfy ===
/** The sign-in context: a state machine over the authentication flags and
    the stored session record. The stored record is what reading the
    session key gives back: missing, the empty string, text that does not
    parse as a JSON value with fields, or a parsed value whose `email`
    field may be absent. */
module Auth {
  import opened Wrappers

  /** The one account the app accepts. */
  const ValidEmail: string := "fajri@gmail.com"
  const ValidPassword: string := "bijikuda12"

  /** The stored session record. `Blank` is the empty string, which reads
      as false and is skipped; `Malformed` is text whose parse throws or
      whose parsed value has no fields to read (`null`). */
  datatype Blob = Blank | Malformed | Json(email: Option<string>)

  datatype AuthState = AuthState(
    isAuthenticated: bool,
    user: Option<string>,
    isLoading: bool,
    stored: Option<Blob>)

  /** Signed in exactly when a user is present, and the user is the valid account. */
  predicate Consistent(st: AuthState) {
    (st.isAuthenticated <==> st.user.Some?) && (st.user.Some? ==> st.user.value == ValidEmail)
  }

  /** The provider's first render: signed out and loading, with whatever is stored. */
  function Init(stored: Option<Blob>): (st: AuthState)
    ensures Consistent(st) && st.isLoading && !st.isAuthenticated && st.stored == stored
  {
    AuthState(false, None, true, stored)
  }

  /** The mount effect: a stored record holding the valid email signs the
      user in, a record that does not parse is removed, anything else is
      left as it is; loading ends in every case. */
  function Restore(st: AuthState): (r: AuthState)
    requires Consistent(st)
    ensures Consistent(r) && !r.isLoading
    ensures r.isAuthenticated <==> st.isAuthenticated || st.stored == Some(Json(Some(ValidEmail)))
    ensures r.stored == if st.stored == Some(Malformed) then None else st.stored
  {
    match st.stored
    case None => st.(isLoading := false)
    case Some(Blank) => st.(isLoading := false)
    case Some(Malformed) => st.(stored := None, isLoading := false)
    case Some(Json(email)) =>
      if email == Some(ValidEmail) then st.(isAuthenticated := true, user := Some(ValidEmail), isLoading := false)
      else st.(isLoading := false)
  }

  /** `login`: succeeds exactly for the valid pair, and then signs in and
      stores the email; a failed attempt changes nothing. */
  function Login(st: AuthState, email: string, password: string): (r: (bool, AuthState))
    requires Consistent(st)
    ensures r.0 <==> email == ValidEmail && password == ValidPassword
    ensures r.0 ==> r.1 == st.(isAuthenticated := true, user := Some(email), stored := Some(Json(Some(email))))
    ensures !r.0 ==> r.1 == st
    ensures Consistent(r.1)
  {
    if email == ValidEmail && password == ValidPassword then
      (true, st.(isAuthenticated := true, user := Some(email), stored := Some(Json(Some(email)))))
    else (false, st)
  }

  /** `logout`: signed out, no user, no stored record. */
  function Logout(st: AuthState): (r: AuthState)
    ensures !r.isAuthenticated && r.user.None? && r.stored.None?
    ensures r.isLoading == st.isLoading
    ensures Consistent(r)
  {
    st.(isAuthenticated := false, user := None, stored := None)
  }

  /** Signing out twice is signing out once. */
  lemma LogoutIdempotent(st: AuthState)
    ensures Logout(Logout(st)) == Logout(st)
  {
  }

  /** A page reload: a fresh provider over what is stored, then the effect. */
  function Reload(st: AuthState): (r: AuthState)
    ensures Consistent(r) && !r.isLoading
  {
    Restore(Init(st.stored))
  }

  /** A successful sign-in survives a reload. */
  lemma LoginSurvivesReload(st: AuthState, email: string, password: string)
    requires Consistent(st)
    requires Login(st, email, password).0
    ensures Reload(Login(st, email, password).1).isAuthenticated
    ensures Reload(Login(st, email, password).1).user == Some(email)
  {
  }

  /** After signing out, a reload stays signed out. */
  lemma LogoutSurvivesReload(st: AuthState)
    ensures !Reload(Logout(st)).isAuthenticated && Reload(Logout(st)).user.None?
  {
  }

  /** From a fresh start, the effect signs in exactly when the stored record
      holds the valid email. */
  lemma RestoreFromStorage(stored: Option<Blob>)
    ensures Restore(Init(stored)).isAuthenticated <==> stored == Some(Json(Some(ValidEmail)))
    ensures Restore(Init(stored)).stored.None? <==> stored.None? || stored == Some(Malformed)
  {
  }
}

=== FILE: budgets.dfy ===
/** The budgets page: spending limits, their totals, the over-budget and
    warning classification, what each budget card shows, and the
    add, edit and delete handlers. `parse` stands for `parseFloat` and
    `freshId` for the value `crypto.randomUUID()` returns. */
module Budgets {
  import opened Wrappers
  import opened Seqs
  import opened Utils
  import opened Forms

  /** The page's own budget record. */
  datatype Budget = Budget(id: string, name: string, limit: real, spent: real, icon: string, color: string)

  /** The colour every new budget is given. */
  const NewBudgetColor: string := "#10b981"

  function Limit(b: Budget): real { b.limit }
  function Spent(b: Budget): real { b.spent }
  function Headroom(b: Budget): real { b.limit - b.spent }

  /** `totalBudget`. */
  function TotalBudget(bs: seq<Budget>): real { SumBy(bs, Limit) }

  /** `totalSpent`. */
  function TotalSpent(bs: seq<Budget>): real { SumBy(bs, Spent) }

  /** The "Sisa" card, total budget minus total spent: the sum of every
      budget's own headroom. */
  function Leftover(bs: seq<Budget>): (r: real)
    ensures r == SumBy(bs, Headroom)
  {
    SumByDifference(bs, Limit, Spent, Headroom);
    TotalBudget(bs) - TotalSpent(bs)
  }

  // ---------------------------------------------------------------------
  // Summary classification

  predicate IsOverBudget(b: Budget) {
    b.spent >= b.limit
  }

  predicate IsNearLimit(b: Budget) {
    b.spent >= b.limit * 0.8 && b.spent < b.limit
  }

  predicate IsFlagged(b: Budget) {
    IsOverBudget(b) || IsNearLimit(b)
  }

  /** `overBudgetCount`. */
  function OverBudgetCount(bs: seq<Budget>): nat { Count(bs, IsOverBudget) }

  /** `warningCount`. */
  function WarningCount(bs: seq<Budget>): nat { Count(bs, IsNearLimit) }

  /** No budget is both over and near its limit, so the two counts add up to
      the number of flagged budgets and never exceed the number of budgets. */
  lemma CountsDisjoint(bs: seq<Budget>)
    ensures OverBudgetCount(bs) + WarningCount(bs) == Count(bs, IsFlagged)
    ensures OverBudgetCount(bs) + WarningCount(bs) <= |bs|
  {
    CountDisjoint(bs, IsOverBudget, IsNearLimit, IsFlagged);
  }

  /** With a non-negative limit, a budget is flagged exactly when 80 % of
      the limit is spent. */
  lemma FlaggedFromEightyPercent(b: Budget)
    requires b.limit >= 0.0
    ensures IsFlagged(b) <==> b.spent >= b.limit * 0.8
  {
  }

  // ---------------------------------------------------------------------
  // Budget cards

  /** What one budget card shows: the rounded percentage, the over and
      warning flags derived from it, the remaining amount and the bar value. */
  datatype BudgetCard = BudgetCard(percentage: int, isOver: bool, isWarning: bool, remaining: real, bar: int)

  /** The card of a budget. The source divides by the limit unguarded, so
      the limit must not be zero; a negative limit turns the thresholds round. */
  function CardOf(b: Budget): (c: BudgetCard)
    requires b.limit != 0.0
    ensures c.percentage == CalculatePercentage(b.spent, b.limit)
    ensures b.limit > 0.0 ==> (c.isOver <==> 200.0 * b.spent >= 199.0 * b.limit)
    ensures b.limit > 0.0 ==> (c.isWarning <==> 159.0 * b.limit <= 200.0 * b.spent < 199.0 * b.limit)
    ensures b.limit < 0.0 ==> (c.isOver <==> 200.0 * b.spent <= 199.0 * b.limit)
    ensures b.limit < 0.0 ==> (c.isWarning <==> 199.0 * b.limit < 200.0 * b.spent <= 159.0 * b.limit)
    ensures !(c.isOver && c.isWarning)
    ensures c.remaining >= 0.0 && c.remaining >= b.limit - b.spent
    ensures c.remaining == 0.0 || c.remaining == b.limit - b.spent
    ensures c.bar <= 100 && c.bar <= c.percentage
    ensures c.bar == 100 || c.bar == c.percentage
  {
    var p := Round(b.spent / b.limit * 100.0);
    PercentageThreshold(b.spent, b.limit, 100);
    PercentageThreshold(b.spent, b.limit, 80);
    var isOver := p >= 100;
    BudgetCard(
      p,
      isOver,
      p >= 80 && !isOver,
      if 0.0 >= b.limit - b.spent then 0.0 else b.limit - b.spent,
      if p <= 100 then p else 100)
  }

  /** The card rounds before it compares and the summary does not: every
      budget counted over is over on its card, but the card also says over
      from 99.5 % of the limit on. */
  lemma CardOverVersusSummary(b: Budget)
    requires b.limit > 0.0
    ensures IsOverBudget(b) ==> CardOf(b).isOver
    ensures (CardOf(b).isOver && !IsOverBudget(b)) <==> 199.0 * b.limit <= 200.0 * b.spent < 200.0 * b.limit
  {
  }

  /** A concrete disagreement: 995 spent of 1000 shows 100 % and "over" on the
      card, while the summary counts no budget over. */
  lemma CardOverButNotCounted()
    ensures
      var b := Budget("b", "Makan", 1000.0, 995.0, "utensils", NewBudgetColor);
      CardOf(b).percentage == 100 && CardOf(b).isOver && OverBudgetCount([b]) == 0
  {
    var b := Budget("b", "Makan", 1000.0, 995.0, "utensils", NewBudgetColor);
    RoundUnique(b.spent / b.limit * 100.0, 100);
  }

  // ---------------------------------------------------------------------
  // Handlers

  /** The modal's input fields. */
  datatype BudgetForm = BudgetForm(name: string, limit: string, icon: string)

  /** A new budget goes at the end, with nothing spent and the default colour. */
  function AddBudget(bs: seq<Budget>, form: BudgetForm, parse: string -> real, freshId: string): (r: seq<Budget>)
    ensures |r| == |bs| + 1 && r[..|bs|] == bs
    ensures r[|bs|].id == freshId && r[|bs|].spent == 0.0 && r[|bs|].color == NewBudgetColor
    ensures r[|bs|].name == form.name && r[|bs|].limit == parse(form.limit) && r[|bs|].icon == form.icon
    ensures TotalSpent(r) == TotalSpent(bs)
    ensures TotalBudget(r) == TotalBudget(bs) + parse(form.limit)
  {
    var nb := Budget(freshId, form.name, parse(form.limit), 0.0, form.icon, NewBudgetColor);
    SumByAppend(bs, [nb], Spent);
    SumByAppend(bs, [nb], Limit);
    bs + [nb]
  }

  /** An edit rewrites name, limit and icon of the budgets with the id; the
      id, the amount spent and the colour stay, and other budgets are untouched. */
  function EditBudget(bs: seq<Budget>, id: string, form: BudgetForm, parse: string -> real): (r: seq<Budget>)
    ensures |r| == |bs|
    ensures forall i :: 0 <= i < |bs| ==>
      r[i].id == bs[i].id && r[i].spent == bs[i].spent && r[i].color == bs[i].color
    ensures forall i :: 0 <= i < |bs| && bs[i].id != id ==> r[i] == bs[i]
    ensures forall i :: 0 <= i < |bs| && bs[i].id == id ==>
      r[i].name == form.name && r[i].limit == parse(form.limit) && r[i].icon == form.icon
    ensures TotalSpent(r) == TotalSpent(bs)
  {
    var matches := (b: Budget) => b.id == id;
    var rewrite := (b: Budget) => b.(name := form.name, limit := parse(form.limit), icon := form.icon);
    SumByMapWhere(bs, matches, rewrite, Spent, 0.0);
    MapWhere(bs, matches, rewrite)
  }

  /** `handleDelete`: after confirmation exactly the budgets with the id go,
      the rest keep their order; without it nothing changes. */
  function DeleteBudget(bs: seq<Budget>, id: string, confirmed: bool): (r: seq<Budget>)
    ensures confirmed ==> forall b :: b in r <==> b in bs && b.id != id
    ensures IsSubsequence(r, bs)
    ensures confirmed ==> |r| == Count(bs, (b: Budget) => b.id != id)
    ensures !confirmed ==> r == bs
  {
    if confirmed then
      CountIsFilterLength(bs, (b: Budget) => b.id != id);
      Filter(bs, (b: Budget) => b.id != id)
    else
      SubsequenceRefl(bs);
      bs
  }

  /** `handleSubmit`: nothing happens while the name or the limit is empty;
      otherwise the budget being edited is rewritten, or a new one is added. */
  function SubmitBudget(bs: seq<Budget>, editingId: Option<string>, form: BudgetForm,
                        parse: string -> real, freshId: string): (r: seq<Budget>)
    ensures !Filled(form.name) || !Filled(form.limit) ==> r == bs
    ensures Filled(form.name) && Filled(form.limit) && HoldsId(editingId) ==>
      r == EditBudget(bs, editingId.value, form, parse)
    ensures Filled(form.name) && Filled(form.limit) && !HoldsId(editingId) ==>
      r == AddBudget(bs, form, parse, freshId)
      && |r| == |bs| + 1 && r[|bs|].id == freshId && r[|bs|].spent == 0.0
  {
    if !Filled(form.name) || !Filled(form.limit) then bs
    else if HoldsId(editingId) then EditBudget(bs, editingId.value, form, parse)
    else AddBudget(bs, form, parse, freshId)
  }
}

=== FILE: calendar.dfy ===
/** Calendar arithmetic the pages perform with JavaScript `Date` objects:
    month lengths, month arithmetic with year borrow, the month-name table
    and whole-day distances between instants. */
module Calendar {

  /** A local calendar date as `getFullYear()`, `getMonth()` and `getDate()`
      report it: the month is zero-based (0 = January). */
  datatype Date = Date(year: int, month: int, day: int)

  predicate ValidMonth(month: int) {
    0 <= month < 12
  }

  /** Milliseconds in a day, `1000 * 60 * 60 * 24`. */
  const MsPerDay: int := 86400000

  /** Gregorian leap-year rule. */
  predicate IsLeapYear(year: int) {
    (year % 4 == 0 && year % 100 != 0) || year % 400 == 0
  }

  /** `new Date(year, month + 1, 0).getDate()`: the number of the last day of `month`. */
  function DaysInMonth(year: int, month: int): (n: int)
    requires ValidMonth(month)
    ensures 28 <= n <= 31
    ensures month == 1 ==> (n == 29 <==> IsLeapYear(year))
    ensures month != 1 ==> (n == 31 <==> month in {0, 2, 4, 6, 7, 9, 11})
  {
    if month == 1 then (if IsLeapYear(year) then 29 else 28)
    else if month in {3, 5, 8, 10} then 30
    else 31
  }

  /** Days in months `from` .. 11 of `year`. */
  function DaysFrom(year: int, from: int): int
    requires 0 <= from <= 12
    decreases 12 - from
  {
    if from == 12 then 0 else DaysInMonth(year, from) + DaysFrom(year, from + 1)
  }

  /** The twelve month lengths add up to the length of the Gregorian year. */
  lemma YearLength(year: int)
    ensures DaysFrom(year, 0) == if IsLeapYear(year) then 366 else 365
  {
  }

  /** `new Date(year, month + delta, 1)` read back through `getFullYear()` and
      `getMonth()`: the month index is normalised into 0..11 and the
      overflow is carried into the year. */
  function ShiftMonth(year: int, month: int, delta: int): (r: (int, int))
    ensures ValidMonth(r.1)
    ensures 12 * r.0 + r.1 == 12 * year + month + delta
  {
    (year + (month + delta) / 12, (month + delta) % 12)
  }

  /** The month preceding (`year`, `month`), as the ledger statistics compute it
      with an explicit wrap from January to December of the previous year. */
  function PrevMonth(year: int, month: int): (int, int)
  {
    if month == 0 then (year - 1, 11) else (year, month - 1)
  }

  /** The explicit wrap agrees with the general month arithmetic. */
  lemma PrevMonthIsShift(year: int, month: int)
    requires ValidMonth(month)
    ensures PrevMonth(year, month) == ShiftMonth(year, month, -1)
    ensures ValidMonth(PrevMonth(year, month).1)
  {
    var s := ShiftMonth(year, month, -1);
    if month == 0 {
      assert 12 * s.0 + s.1 == 12 * (year - 1) + 11;
    } else {
      assert 12 * s.0 + s.1 == 12 * year + month - 1;
    }
  }

  /** Two month normalisations that land on the same absolute month agree. */
  lemma MonthIndexUnique(a: (int, int), b: (int, int))
    requires ValidMonth(a.1) && ValidMonth(b.1)
    requires 12 * a.0 + a.1 == 12 * b.0 + b.1
    ensures a == b
  {
  }

  /** The fixed, localised month abbreviations used for chart labels. */
  const MonthNames: seq<string> :=
    ["Jan", "Feb", "Mar", "Apr", "Mei", "Jun", "Jul", "Agu", "Sep", "Okt", "Nov", "Des"]

  function MonthAbbrev(month: int): (r: string)
    requires ValidMonth(month)
    ensures |r| == 3
  {
    MonthNames[month]
  }

  /** `Math.ceil(ms / 86400000)` for an integer millisecond count. */
  function CeilDays(ms: int): (d: int)
    ensures (d - 1) * MsPerDay < ms <= d * MsPerDay
  {
    -((-ms) / MsPerDay)
  }

  /** Whole days from `nowMs` until `targetMs`, rounded up, as the goal,
      subscription and dashboard pages compute it. */
  function DaysUntil(targetMs: int, nowMs: int): (d: int)
    ensures (d - 1) * MsPerDay < targetMs - nowMs <= d * MsPerDay
  {
    CeilDays(targetMs - nowMs)
  }

  /** The rounded-up day count is the only integer satisfying the ceiling bounds. */
  lemma CeilDaysUnique(ms: int, d: int)
    requires (d - 1) * MsPerDay < ms <= d * MsPerDay
    ensures CeilDays(ms) == d
  {
  }
}

=== FILE: charts.dfy ===
/** The row mapping of the budget bar chart: each budget's name and amount
    spent, the headroom left, and the rounded percentage used. */
module Charts {
  import opened Seqs
  import opened Utils
  import Budgets

  datatype BudgetData = BudgetData(name: string, spent: real, limit: real)

  datatype ChartRow = ChartRow(name: string, spent: real, remaining: real, percentage: int)

  /** No limit is zero: the mapping divides by it unguarded. */
  predicate NonZeroLimits(data: seq<BudgetData>) {
    forall i :: 0 <= i < |data| ==> data[i].limit != 0.0
  }

  function RowOf(item: BudgetData): (r: ChartRow)
    requires item.limit != 0.0
    ensures r.name == item.name && r.spent == item.spent
    ensures r.remaining >= 0.0 && r.remaining >= item.limit - item.spent
    ensures r.spent + r.remaining == if item.spent >= item.limit then item.spent else item.limit
    ensures r.percentage == CalculatePercentage(item.spent, item.limit)
  {
    ChartRow(item.name, item.spent,
             if 0.0 >= item.limit - item.spent then 0.0 else item.limit - item.spent,
             Round(item.spent / item.limit * 100.0))
  }

  /** `chartData`: one row per budget, in the same order. */
  function ChartData(data: seq<BudgetData>): (r: seq<ChartRow>)
    requires NonZeroLimits(data)
    ensures |r| == |data|
    ensures forall i :: 0 <= i < |r| ==> r[i].name == data[i].name && r[i].spent == data[i].spent
    ensures forall i :: 0 <= i < |r| ==> r[i].remaining >= 0.0
    ensures forall i :: 0 <= i < |r| ==>
      r[i].spent + r[i].remaining == if data[i].spent >= data[i].limit then data[i].spent else data[i].limit
    ensures forall i :: 0 <= i < |r| ==> r[i].percentage == CalculatePercentage(data[i].spent, data[i].limit)
  {
    seq(|data|, i requires 0 <= i < |data| && NonZeroLimits(data) => RowOf(data[i]))
  }

  /** The chart data of a budget record. */
  function DataOf(b: Budgets.Budget): BudgetData {
    BudgetData(b.name, b.spent, b.limit)
  }

  /** A chart row shows the same percentage and remaining amount as the
      budget's card on the budgets page. */
  lemma RowAgreesWithCard(b: Budgets.Budget)
    requires b.limit != 0.0
    ensures RowOf(DataOf(b)).percentage == Budgets.CardOf(b).percentage
    ensures RowOf(DataOf(b)).remaining == Budgets.CardOf(b).remaining
  {
  }
}

=== FILE: dashboard.dfy ===
/** The dashboard page: the weekly trend of the current month, the six-month
    comparison, the upcoming bills, the budget progress panel and the
    shortened lists. `now` is the current local date, `nowMs` the current
    instant; `instant` decodes a stored date string into milliseconds. */
module Dashboard {
  import opened Wrappers
  import opened Seqs
  import opened Text
  import opened Calendar
  import opened Types
  import opened Utils
  import opened Ledger
  import Budgets
  import Subscriptions

  /** The `forEach` tally both chart loops run: walking the ledger from the
      front, every selected transaction adds to income when it is income and
      to expense otherwise. */
  method Tally(txs: seq<Transaction>, p: Transaction -> bool) returns (income: real, expense: real)
    ensures Flow(income, expense) == FlowWhere(txs, p)
  {
    income, expense := 0.0, 0.0;
    var j := 0;
    while j < |txs|
      invariant 0 <= j <= |txs|
      invariant Flow(income, expense) == FlowWhere(txs[..j], p)
    {
      var tx := txs[j];
      FlowWhereSnoc(txs[..j], tx, p);
      assert txs[..j + 1] == txs[..j] + [tx];
      if p(tx) {
        if tx.kind == Income {
          income := income + tx.amount;
        } else {
          expense := expense + tx.amount;
        }
      }
      j := j + 1;
    }
    assert txs[..j] == txs;
  }

  // ---------------------------------------------------------------------
  // Weekly trend

  /** `weeks`: bucket `i` holds the days from `weeks[i]` up to, but not
      including, `weeks[i + 1]`. The last bound is the month's length, so
      the month's last day falls in no bucket. */
  function WeekBounds(daysInMonth: int): seq<int> {
    [1, 7, 14, 21, daysInMonth]
  }

  /** The same bounds with the last bucket running through the month's last day. */
  function ClosedWeekBounds(daysInMonth: int): seq<int> {
    [1, 7, 14, 21, daysInMonth + 1]
  }

  /** The transactions of (`year`, `month`) dated from day `lo` up to, not including, day `hi`. */
  function DaysOf(year: int, month: int, lo: int, hi: int): Transaction -> bool {
    (tx: Transaction) => InMonth(tx, year, month) && lo <= tx.date.day < hi
  }

  /** Day `d` falls in bucket `i` of a month with `daysInMonth` days. */
  predicate InBucket(daysInMonth: int, i: int, d: int) {
    0 <= i < 4 && WeekBounds(daysInMonth)[i] <= d < WeekBounds(daysInMonth)[i + 1]
  }

  /** The buckets do not overlap, they cover the days before the last one,
      and the last day of the month falls in none of them. */
  lemma BucketsPartition(daysInMonth: int, d: int)
    requires 28 <= daysInMonth <= 31
    ensures forall i, j :: 0 <= i < j < 4 ==> !(InBucket(daysInMonth, i, d) && InBucket(daysInMonth, j, d))
    ensures (exists i :: InBucket(daysInMonth, i, d)) <==> 1 <= d < daysInMonth
    ensures forall i :: !InBucket(daysInMonth, i, daysInMonth)
  {
    if 1 <= d < 7 {
      assert InBucket(daysInMonth, 0, d);
    } else if 7 <= d < 14 {
      assert InBucket(daysInMonth, 1, d);
    } else if 14 <= d < 21 {
      assert InBucket(daysInMonth, 2, d);
    } else if 21 <= d < daysInMonth {
      assert InBucket(daysInMonth, 3, d);
    }
  }

  /** One point of the weekly chart. */
  datatype TrendPoint = TrendPoint(date: string, income: real, expense: real)

  /** The bucket totals in chart order. */
  function TrendFlow(r: seq<TrendPoint>): Flow
    requires |r| == 4
  {
    Flow(r[0].income, r[0].expense).Plus(Flow(r[1].income, r[1].expense))
      .Plus(Flow(r[2].income, r[2].expense)).Plus(Flow(r[3].income, r[3].expense))
  }

  /** Every transaction of the month carries a day that exists in that month. */
  predicate DaysValid(txs: seq<Transaction>, year: int, month: int)
    requires ValidMonth(month)
  {
    forall tx :: tx in txs && InMonth(tx, year, month) ==> 1 <= tx.date.day <= DaysInMonth(year, month)
  }

  /** The bucket loop of `trendData`: one point per pair of adjacent bounds,
      labelled with the bucket's first day and the month's abbreviation. */
  method Buckets(txs: seq<Transaction>, now: Date, weeks: seq<int>) returns (r: seq<TrendPoint>)
    requires ValidMonth(now.month) && |weeks| == 5
    requires forall i :: 0 <= i < 5 ==> weeks[i] >= 0
    ensures |r| == 4
    ensures forall i :: 0 <= i < 4 ==>
      r[i].date == ShowNat(weeks[i]) + " " + MonthAbbrev(now.month)
      && Flow(r[i].income, r[i].expense) == FlowWhere(txs, DaysOf(now.year, now.month, weeks[i], weeks[i + 1]))
  {
    r := [];
    var i := 0;
    while i < |weeks| - 1
      invariant 0 <= i <= 4
      invariant |r| == i
      invariant forall k :: 0 <= k < i ==>
        r[k].date == ShowNat(weeks[k]) + " " + MonthAbbrev(now.month)
        && Flow(r[k].income, r[k].expense) == FlowWhere(txs, DaysOf(now.year, now.month, weeks[k], weeks[k + 1]))
    {
      var startDay := weeks[i];
      var endDay := weeks[i + 1];
      var income, expense := Tally(txs, DaysOf(now.year, now.month, startDay, endDay));
      r := r + [TrendPoint(ShowNat(startDay) + " " + MonthAbbrev(now.month), income, expense)];
      i := i + 1;
    }
  }

  /** `trendData` as written: four weekly points for the current month. The
      buckets together with the last day make up the month, so with no
      negative amounts the chart shows at most the month's totals. */
  method WeeklyTrend(txs: seq<Transaction>, now: Date) returns (r: seq<TrendPoint>)
    requires ValidMonth(now.month)
    ensures |r| == 4
    ensures forall i :: 0 <= i < 4 ==>
      var w := WeekBounds(DaysInMonth(now.year, now.month));
      r[i].date == ShowNat(w[i]) + " " + MonthAbbrev(now.month)
      && Flow(r[i].income, r[i].expense) == FlowWhere(txs, DaysOf(now.year, now.month, w[i], w[i + 1]))
    ensures DaysValid(txs, now.year, now.month) ==>
      var dim := DaysInMonth(now.year, now.month);
      TrendFlow(r).Plus(FlowWhere(txs, DaysOf(now.year, now.month, dim, dim + 1)))
        == MonthFlow(txs, now.year, now.month)
    ensures DaysValid(txs, now.year, now.month) && NonNegative(txs) ==>
      TrendFlow(r).income <= MonthFlow(txs, now.year, now.month).income
      && TrendFlow(r).expense <= MonthFlow(txs, now.year, now.month).expense
  {
    var dim := DaysInMonth(now.year, now.month);
    r := Buckets(txs, now, WeekBounds(dim));
    TrendFlowIs(txs, now, r, WeekBounds(dim));
    if DaysValid(txs, now.year, now.month) {
      TrendCoversMonth(txs, now.year, now.month);
      var gap := FlowWhere(txs, DaysOf(now.year, now.month, dim, dim + 1));
      assert TrendFlow(r).Plus(gap) == MonthFlow(txs, now.year, now.month);
      if NonNegative(txs) {
        FlowWhereNonNegative(txs, DaysOf(now.year, now.month, dim, dim + 1));
      }
    }
  }

  /** The weekly trend with the last bucket closed at the month's end: the
      four points add up to exactly the month's totals. */
  method ClosedWeeklyTrend(txs: seq<Transaction>, now: Date) returns (r: seq<TrendPoint>)
    requires ValidMonth(now.month)
    ensures |r| == 4
    ensures forall i :: 0 <= i < 4 ==>
      var w := ClosedWeekBounds(DaysInMonth(now.year, now.month));
      r[i].date == ShowNat(w[i]) + " " + MonthAbbrev(now.month)
      && Flow(r[i].income, r[i].expense) == FlowWhere(txs, DaysOf(now.year, now.month, w[i], w[i + 1]))
    ensures DaysValid(txs, now.year, now.month) ==> TrendFlow(r) == MonthFlow(txs, now.year, now.month)
  {
    var dim := DaysInMonth(now.year, now.month);
    r := Buckets(txs, now, ClosedWeekBounds(dim));
    TrendFlowIs(txs, now, r, ClosedWeekBounds(dim));
    if DaysValid(txs, now.year, now.month) {
      ClosedTrendCoversMonth(txs, now.year, now.month);
    }
  }

  /** The chart total of bucket points is the sum of the bucket selections. */
  lemma TrendFlowIs(txs: seq<Transaction>, now: Date, r: seq<TrendPoint>, w: seq<int>)
    requires |r| == 4 && |w| == 5
    requires forall i :: 0 <= i < 4 ==>
      Flow(r[i].income, r[i].expense) == FlowWhere(txs, DaysOf(now.year, now.month, w[i], w[i + 1]))
    ensures TrendFlow(r) ==
      FlowWhere(txs, DaysOf(now.year, now.month, w[0], w[1]))
        .Plus(FlowWhere(txs, DaysOf(now.year, now.month, w[1], w[2])))
        .Plus(FlowWhere(txs, DaysOf(now.year, now.month, w[2], w[3])))
        .Plus(FlowWhere(txs, DaysOf(now.year, now.month, w[3], w[4])))
  {
    assert Flow(r[0].income, r[0].expense) == FlowWhere(txs, DaysOf(now.year, now.month, w[0], w[1]));
    assert Flow(r[1].income, r[1].expense) == FlowWhere(txs, DaysOf(now.year, now.month, w[1], w[2]));
    assert Flow(r[2].income, r[2].expense) == FlowWhere(txs, DaysOf(now.year, now.month, w[2], w[3]));
    assert Flow(r[3].income, r[3].expense) == FlowWhere(txs, DaysOf(now.year, now.month, w[3], w[4]));
  }

  /** The transactions of the month agree with the days from 1 through its last. */
  lemma WholeMonth(txs: seq<Transaction>, year: int, month: int)
    requires ValidMonth(month)
    requires DaysValid(txs, year, month)
    ensures FlowWhere(txs, DaysOf(year, month, 1, DaysInMonth(year, month) + 1)) == MonthFlow(txs, year, month)
  {
    var dim := DaysInMonth(year, month);
    assert forall tx :: tx in txs ==> DaysOf(year, month, 1, dim + 1)(tx) == InMonthOf(year, month)(tx) by {
      forall tx | tx in txs
        ensures DaysOf(year, month, 1, dim + 1)(tx) == InMonthOf(year, month)(tx)
      {
        if InMonth(tx, year, month) {
          assert 1 <= tx.date.day <= dim;
        }
      }
    }
    FlowWhereAgree(txs, DaysOf(year, month, 1, dim + 1), InMonthOf(year, month));
  }

  /** The four buckets as written and the last day together make up the month. */
  lemma TrendCoversMonth(txs: seq<Transaction>, year: int, month: int)
    requires ValidMonth(month)
    requires DaysValid(txs, year, month)
    ensures
      var dim := DaysInMonth(year, month);
      FlowWhere(txs, DaysOf(year, month, 1, 7))
        .Plus(FlowWhere(txs, DaysOf(year, month, 7, 14)))
        .Plus(FlowWhere(txs, DaysOf(year, month, 14, 21)))
        .Plus(FlowWhere(txs, DaysOf(year, month, 21, dim)))
        .Plus(FlowWhere(txs, DaysOf(year, month, dim, dim + 1)))
      == MonthFlow(txs, year, month)
  {
    var dim := DaysInMonth(year, month);
    JoinDays(txs, year, month, 1, 7, 14);
    JoinDays(txs, year, month, 1, 14, 21);
    JoinDays(txs, year, month, 1, 21, dim);
    JoinDays(txs, year, month, 1, dim, dim + 1);
    WholeMonth(txs, year, month);
  }

  /** The four closed buckets make up the month. */
  lemma ClosedTrendCoversMonth(txs: seq<Transaction>, year: int, month: int)
    requires ValidMonth(month)
    requires DaysValid(txs, year, month)
    ensures
      var dim := DaysInMonth(year, month);
      FlowWhere(txs, DaysOf(year, month, 1, 7))
        .Plus(FlowWhere(txs, DaysOf(year, month, 7, 14)))
        .Plus(FlowWhere(txs, DaysOf(year, month, 14, 21)))
        .Plus(FlowWhere(txs, DaysOf(year, month, 21, dim + 1)))
      == MonthFlow(txs, year, month)
  {
    var dim := DaysInMonth(year, month);
    JoinDays(txs, year, month, 1, 7, 14);
    JoinDays(txs, year, month, 1, 14, 21);
    JoinDays(txs, year, month, 1, 21, dim + 1);
    WholeMonth(txs, year, month);
  }

  /** Two adjacent day ranges add up to their union. */
  lemma JoinDays(txs: seq<Transaction>, year: int, month: int, lo: int, mid: int, hi: int)
    requires lo <= mid <= hi
    ensures FlowWhere(txs, DaysOf(year, month, lo, mid)).Plus(FlowWhere(txs, DaysOf(year, month, mid, hi)))
      == FlowWhere(txs, DaysOf(year, month, lo, hi))
  {
    FlowWhereDisjoint(txs, DaysOf(year, month, lo, mid), DaysOf(year, month, mid, hi), DaysOf(year, month, lo, hi));
  }

  /** A concrete gap: an expense of 50 on 31 January 2024 is in none of the
      four buckets as written, though it is the month's whole expense. */
  lemma LastDayMissed()
    ensures
      var tx := Transaction("t", "c", 50.0, Expense, Date(2024, 0, 31), None, [], 0);
      var w := WeekBounds(DaysInMonth(2024, 0));
      (forall i :: 0 <= i < 4 ==> FlowWhere([tx], DaysOf(2024, 0, w[i], w[i + 1])) == Flow(0.0, 0.0))
      && MonthFlow([tx], 2024, 0) == Flow(0.0, 50.0)
  {
    var tx := Transaction("t", "c", 50.0, Expense, Date(2024, 0, 31), None, [], 0);
    assert [tx][1..] == [];
  }

  // ---------------------------------------------------------------------
  // Six-month comparison

  /** One point of the six-month chart. */
  datatype MonthPoint = MonthPoint(month: string, income: real, expense: real)

  /** `monthlyData`: the current month and the five before it, oldest first,
      each with its abbreviation and its totals. `new Date(year, month - i, 1)`
      carries a negative month into the previous year. */
  method SixMonthSeries(txs: seq<Transaction>, now: Date) returns (r: seq<MonthPoint>)
    ensures |r| == 6
    ensures forall k :: 0 <= k < 6 ==>
      var t := ShiftMonth(now.year, now.month, k - 5);
      r[k].month == MonthAbbrev(t.1) && Flow(r[k].income, r[k].expense) == MonthFlow(txs, t.0, t.1)
    ensures ValidMonth(now.month) ==>
      var stats := ComputeStats(txs, now);
      r[5].income == stats.monthlyIncome && r[5].expense == stats.monthlyExpense
      && r[4].expense == stats.lastMonthExpense
  {
    r := [];
    var i := 5;
    while i >= 0
      invariant -1 <= i <= 5
      invariant |r| == 5 - i
      invariant forall k :: 0 <= k < |r| ==>
        var t := ShiftMonth(now.year, now.month, k - 5);
        r[k].month == MonthAbbrev(t.1) && Flow(r[k].income, r[k].expense) == MonthFlow(txs, t.0, t.1)
    {
      var target := ShiftMonth(now.year, now.month, -i);
      var income, expense := Tally(txs, InMonthOf(target.0, target.1));
      r := r + [MonthPoint(MonthAbbrev(target.1), income, expense)];
      i := i - 1;
    }
    if ValidMonth(now.month) {
      MonthIndexUnique(ShiftMonth(now.year, now.month, 0), (now.year, now.month));
    }
  }

  // ---------------------------------------------------------------------
  // Upcoming bills

  /** One row of the "Tagihan Mendatang" card. */
  datatype Bill = Bill(name: string, amount: real, dueIn: int, icon: string)

  function BillOf(s: Subscriptions.Subscription, instant: string -> int, nowMs: int): Bill {
    Bill(s.name, s.amount, Subscriptions.DaysUntilBilling(s, instant, nowMs), s.icon)
  }

  predicate DueSoon(b: Bill) {
    0 <= b.dueIn <= 14
  }

  function DueIn(b: Bill): real {
    b.dueIn as real
  }

  /** A subscription's bill as of `nowMs`. */
  function BillAt(instant: string -> int, nowMs: int): Subscriptions.Subscription -> Bill {
    (s: Subscriptions.Subscription) => BillOf(s, instant, nowMs)
  }

  /** The subscriptions whose bill makes the list: active and due within two weeks. */
  function Eligible(instant: string -> int, nowMs: int): Subscriptions.Subscription -> bool {
    (s: Subscriptions.Subscription) => s.isActive && DueSoon(BillOf(s, instant, nowMs))
  }

  /** The bills of the active subscriptions due within two weeks, in list
      order: one bill per eligible subscription, in the subscriptions' order. */
  function EligibleBills(subs: seq<Subscriptions.Subscription>, instant: string -> int, nowMs: int): (r: seq<Bill>)
    ensures forall b :: b in r ==> DueSoon(b)
    ensures forall b :: b in r ==> exists s :: s in subs && s.isActive && b == BillOf(s, instant, nowMs)
    ensures forall s :: s in subs && s.isActive && DueSoon(BillOf(s, instant, nowMs)) ==>
      BillOf(s, instant, nowMs) in r
    ensures |r| == Count(subs, Eligible(instant, nowMs))
    ensures var es := Filter(subs, Eligible(instant, nowMs));
      |r| == |es| && forall i :: 0 <= i < |r| ==> r[i] == BillOf(es[i], instant, nowMs)
  {
    var es := Filter(subs, Eligible(instant, nowMs));
    FilterAfterMap(subs, Subscriptions.IsActive, BillAt(instant, nowMs), DueSoon, Eligible(instant, nowMs));
    CountIsFilterLength(subs, Eligible(instant, nowMs));
    BillsOfEligible(subs, es, Map(es, BillAt(instant, nowMs)), instant, nowMs);
    Filter(Map(Subscriptions.ActiveSubscriptions(subs), BillAt(instant, nowMs)), DueSoon)
  }

  /** The bills of the eligible subscriptions are due soon, each comes from an
      active subscription, and every active subscription due soon has its bill there. */
  lemma BillsOfEligible(subs: seq<Subscriptions.Subscription>, es: seq<Subscriptions.Subscription>, r: seq<Bill>,
                        instant: string -> int, nowMs: int)
    requires es == Filter(subs, Eligible(instant, nowMs))
    requires r == Map(es, BillAt(instant, nowMs))
    ensures forall b :: b in r ==> DueSoon(b)
    ensures forall b :: b in r ==> exists s :: s in subs && s.isActive && b == BillOf(s, instant, nowMs)
    ensures forall s :: s in subs && s.isActive && DueSoon(BillOf(s, instant, nowMs)) ==>
      BillOf(s, instant, nowMs) in r
  {
    forall b | b in r
      ensures DueSoon(b) && exists s :: s in subs && s.isActive && b == BillOf(s, instant, nowMs)
    {
      var i :| 0 <= i < |r| && r[i] == b;
      assert es[i] in es;
      assert Eligible(instant, nowMs)(es[i]);
    }
    forall s | s in subs && s.isActive && DueSoon(BillOf(s, instant, nowMs))
      ensures BillOf(s, instant, nowMs) in r
    {
      assert Eligible(instant, nowMs)(s);
      var i :| 0 <= i < |es| && es[i] == s;
      assert r[i] == BillOf(s, instant, nowMs);
    }
  }

  /** The three nearest of the given bills, nearest first; no bill left out
      is due sooner than one kept. */
  function NearestThree(e: seq<Bill>): (r: seq<Bill>)
    ensures |r| == if |e| < 3 then |e| else 3
    ensures forall b :: b in r ==> b in e
    ensures multiset(r) <= multiset(e)
    ensures forall i, j :: 0 <= i < j < |r| ==> r[i].dueIn <= r[j].dueIn
    ensures forall b, j :: b in multiset(e) - multiset(r) && 0 <= j < |r| ==> r[j].dueIn <= b.dueIn
  {
    var sorted := SortBy(e, DueIn);
    TakeKeeps(e, sorted);
    TakeOrdered(sorted);
    TakeNearest(e, sorted);
    Take(sorted, 3)
  }

  lemma TakeKeeps(e: seq<Bill>, sorted: seq<Bill>)
    requires multiset(sorted) == multiset(e)
    ensures forall b :: b in Take(sorted, 3) ==> b in e
    ensures multiset(Take(sorted, 3)) <= multiset(e)
  {
    var r := Take(sorted, 3);
    assert sorted == r + sorted[|r|..];
    forall b | b in r
      ensures b in e
    {
      var i :| 0 <= i < |r| && r[i] == b;
      assert sorted[i] in multiset(sorted);
    }
  }

  lemma TakeOrdered(sorted: seq<Bill>)
    requires SortedBy(sorted, DueIn)
    ensures var r := Take(sorted, 3); forall i, j :: 0 <= i < j < |r| ==> r[i].dueIn <= r[j].dueIn
  {
    var r := Take(sorted, 3);
    forall i, j | 0 <= i < j < |r|
      ensures r[i].dueIn <= r[j].dueIn
    {
      assert DueIn(sorted[i]) <= DueIn(sorted[j]);
    }
  }

  lemma TakeNearest(e: seq<Bill>, sorted: seq<Bill>)
    requires multiset(sorted) == multiset(e) && SortedBy(sorted, DueIn)
    ensures var r := Take(sorted, 3);
      forall b, j :: b in multiset(e) - multiset(r) && 0 <= j < |r| ==> r[j].dueIn <= b.dueIn
  {
    var r := Take(sorted, 3);
    TakeSortedSmallest(sorted, DueIn, 3);
    forall b, j | b in multiset(e) - multiset(r) && 0 <= j < |r|
      ensures r[j].dueIn <= b.dueIn
    {
      assert DueIn(r[j]) <= DueIn(b);
    }
  }

  /** `upcomingBills`: at most three eligible bills, nearest first; no
      eligible bill left out is due sooner than one shown. */
  function UpcomingBills(subs: seq<Subscriptions.Subscription>, instant: string -> int, nowMs: int): (r: seq<Bill>)
    ensures var e := EligibleBills(subs, instant, nowMs);
      |r| == (if |e| < 3 then |e| else 3)
      && (forall b :: b in r ==> b in e && DueSoon(b))
      && multiset(r) <= multiset(e)
      && (forall i, j :: 0 <= i < j < |r| ==> r[i].dueIn <= r[j].dueIn)
      && (forall b, j :: b in multiset(e) - multiset(r) && 0 <= j < |r| ==> r[j].dueIn <= b.dueIn)
  {
    NearestThree(EligibleBills(subs, instant, nowMs))
  }

  // ---------------------------------------------------------------------
  // Budget panel and shortened lists

  /** What the dashboard shows for one budget. */
  datatype BudgetProgress = BudgetProgress(percentage: int, isWarning: bool, isOver: bool, bar: int)

  /** The dashboard's budget row: the percentage is guarded against a limit
      that is not positive, and the warning flag includes the over case. */
  function ProgressOf(b: Budgets.Budget): (p: BudgetProgress)
    ensures b.limit <= 0.0 ==> p.percentage == 0 && !p.isWarning && !p.isOver
    ensures b.limit > 0.0 ==>
      p.percentage == Budgets.CardOf(b).percentage
      && p.isOver == Budgets.CardOf(b).isOver
      && (p.isWarning && !p.isOver) == Budgets.CardOf(b).isWarning
    ensures p.isOver ==> p.isWarning
    ensures p.bar <= 100 && p.bar <= p.percentage
    ensures p.bar == 100 || p.bar == p.percentage
  {
    var pct := if b.limit > 0.0 then Round(b.spent / b.limit * 100.0) else 0;
    BudgetProgress(pct, pct >= 80, pct >= 100, if pct <= 100 then pct else 100)
  }

  /** `budgets.slice(0, 4)`, each with its progress. */
  function BudgetPanel(bs: seq<Budgets.Budget>): (r: seq<BudgetProgress>)
    ensures |r| == if |bs| < 4 then |bs| else 4
    ensures forall i :: 0 <= i < |r| ==> r[i] == ProgressOf(bs[i])
  {
    Map(Take(bs, 4), ProgressOf)
  }

  /** `transactions.slice(0, 5)`: the five most recently added transactions. */
  function RecentTransactions(txs: seq<Transaction>): (r: seq<Transaction>)
    ensures |r| == if |txs| < 5 then |txs| else 5
    ensures r == txs[..|r|]
  {
    Take(txs, 5)
  }

  /** A transaction just added is the first of the recent ones, and the
      previous recent ones follow it, minus the oldest. */
  lemma RecentAfterAdd(txs: seq<Transaction>, d: TransactionDraft, freshId: string, nowMs: int)
    ensures var r := RecentTransactions(AddTransaction(txs, d, freshId, nowMs));
      |r| >= 1 && r[0].id == freshId && r[1..] == RecentTransactions(txs)[..|r| - 1]
  {
  }

  /** `categoryBreakdown.slice(0, 4)`: the largest categories, at most four;
      no category left out spent more than one shown. */
  function TopCategories(txs: seq<Transaction>, cats: seq<Category>, now: Date): (r: seq<Slice>)
    ensures var all := CategoryBreakdown(txs, cats, now);
      |r| == (if |all| < 4 then |all| else 4)
      && r == all[..|r|]
      && forall i, j :: 0 <= i < |r| <= j < |all| ==> r[i].value >= all[j].value
  {
    Take(CategoryBreakdown(txs, cats, now), 4)
  }
}

=== FILE: forms.dfy ===
/** What the pages' form handlers test before they act. Form fields hold
    the raw input strings; JavaScript treats the empty string as false. */
module Forms {
  import opened Wrappers

  /** `!!field`: the input is not empty. */
  predicate Filled(field: string) {
    |field| > 0
  }

  /** `if (editingId)`, `if (selectedGoalId)`: an id is held and it is not
      the empty string. */
  predicate HoldsId(id: Option<string>) {
    id.Some? && Filled(id.value)
  }
}

=== FILE: goals.dfy ===
/** The savings-goals page: totals, the completed count, what each goal card
    shows, and the add, edit, add-funds and delete handlers. Deadlines are
    the stored date strings; `instant` decodes one into milliseconds, as
    `new Date(deadline).getTime()` does, and `parse` stands for `parseFloat`. */
module Goals {
  import opened Wrappers
  import opened Seqs
  import opened Calendar
  import opened Utils
  import opened Forms

  /** The page's own goal record. */
  datatype Goal = Goal(
    id: string,
    name: string,
    targetAmount: real,
    currentAmount: real,
    deadline: string,
    icon: string,
    color: string)

  function Target(g: Goal): real { g.targetAmount }
  function Saved(g: Goal): real { g.currentAmount }

  /** `totalTarget`. */
  function TotalTarget(gs: seq<Goal>): real { SumBy(gs, Target) }

  /** `totalSaved`. */
  function TotalSaved(gs: seq<Goal>): real { SumBy(gs, Saved) }

  predicate IsReached(g: Goal) {
    g.currentAmount >= g.targetAmount
  }

  /** `completedGoals`. */
  function CompletedGoals(gs: seq<Goal>): nat { Count(gs, IsReached) }

  /** The "Progress" card as the page computes it: the saved total divided
      by the target total, unguarded. With a zero target total the division
      yields NaN or an infinity and the card shows no number; that is `None`. */
  function OverallProgressAsWritten(gs: seq<Goal>): (p: Option<int>)
    ensures p.None? <==> TotalTarget(gs) == 0.0
    ensures p.Some? ==> p.value == CalculatePercentage(TotalSaved(gs), TotalTarget(gs))
  {
    if TotalTarget(gs) == 0.0 then None
    else Some(Round(TotalSaved(gs) / TotalTarget(gs) * 100.0))
  }

  /** Goals whose targets are all zero, and so no goals at all, sum to a
      zero target. */
  lemma {:induction false} ZeroTargetsSumToZero(gs: seq<Goal>)
    requires forall i :: 0 <= i < |gs| ==> gs[i].targetAmount == 0.0
    ensures TotalTarget(gs) == 0.0
  {
    if |gs| > 0 {
      assert forall i :: 0 <= i < |gs[1..]| ==> gs[1..][i].targetAmount == 0.0 by {
        forall i | 0 <= i < |gs[1..]| ensures gs[1..][i].targetAmount == 0.0 {
          assert gs[1..][i] == gs[i + 1];
        }
      }
      ZeroTargetsSumToZero(gs[1..]);
    }
  }

  /** With no goals, or only zero targets, the card as written shows no
      percentage, where the app's shared `calculatePercentage`, which this
      page does not use, gives 0. */
  lemma NoGoalsShowNoProgress(gs: seq<Goal>)
    requires forall i :: 0 <= i < |gs| ==> gs[i].targetAmount == 0.0
    ensures OverallProgressAsWritten(gs) == None
    ensures OverallProgress(gs) == 0
  {
    ZeroTargetsSumToZero(gs);
  }

  /** The "Progress" card through the shared `calculatePercentage`, which guards the
      zero total: 0 for a zero target total and otherwise exactly the
      percentage the page shows. */
  function OverallProgress(gs: seq<Goal>): (p: int)
    ensures TotalTarget(gs) == 0.0 ==> p == 0
    ensures TotalTarget(gs) != 0.0 ==> OverallProgressAsWritten(gs) == Some(p)
    ensures TotalTarget(gs) > 0.0 && 0.0 <= TotalSaved(gs) <= TotalTarget(gs) ==> 0 <= p <= 100
  {
    var v, t := TotalSaved(gs), TotalTarget(gs);
    assert t > 0.0 && 0.0 <= v <= t ==> 0 <= CalculatePercentage(v, t) <= 100 by {
      if t > 0.0 && 0.0 <= v <= t {
        PercentageReaches(v, t, 0);
        PercentageReaches(v, t, 101);
      }
    }
    CalculatePercentage(v, t)
  }

  // ---------------------------------------------------------------------
  // Goal cards

  /** `getDaysRemaining`: whole days from now to the deadline, rounded up. */
  function DaysRemaining(g: Goal, instant: string -> int, nowMs: int): (d: int)
    ensures (d - 1) * MsPerDay < instant(g.deadline) - nowMs <= d * MsPerDay
  {
    DaysUntil(instant(g.deadline), nowMs)
  }

  /** What one goal card shows. */
  datatype GoalCard = GoalCard(
    percentage: int,
    isCompleted: bool,
    daysRemaining: int,
    isUrgent: bool,
    isOverdue: bool,
    bar: int,
    showAddFunds: bool)

  /** The card of a goal. The source divides by the target unguarded, so
      the target must not be zero; a negative target turns the threshold round. */
  function CardOf(g: Goal, instant: string -> int, nowMs: int): (c: GoalCard)
    requires g.targetAmount != 0.0
    ensures c.percentage == CalculatePercentage(g.currentAmount, g.targetAmount)
    ensures g.targetAmount > 0.0 ==> (c.isCompleted <==> 200.0 * g.currentAmount >= 199.0 * g.targetAmount)
    ensures g.targetAmount < 0.0 ==> (c.isCompleted <==> 200.0 * g.currentAmount <= 199.0 * g.targetAmount)
    ensures c.daysRemaining == DaysRemaining(g, instant, nowMs)
    ensures c.isUrgent <==> !c.isCompleted && 0 < c.daysRemaining <= 30
    ensures c.isOverdue <==> !c.isCompleted && c.daysRemaining < 0
    ensures !(c.isUrgent && c.isOverdue)
    ensures c.isCompleted ==> !c.isUrgent && !c.isOverdue
    ensures c.isOverdue <==> !c.isCompleted && instant(g.deadline) - nowMs <= -MsPerDay
    ensures c.bar <= 100 && c.bar <= c.percentage && (c.bar == 100 || c.bar == c.percentage)
    ensures c.showAddFunds <==> !c.isCompleted
  {
    var p := Round(g.currentAmount / g.targetAmount * 100.0);
    PercentageThreshold(g.currentAmount, g.targetAmount, 100);
    var done := p >= 100;
    var days := DaysRemaining(g, instant, nowMs);
    GoalCard(
      p,
      done,
      days,
      days <= 30 && days > 0 && !done,
      days < 0 && !done,
      if p <= 100 then p else 100,
      !done)
  }

  /** The card rounds before it compares and the summary count does not:
      every goal counted as completed shows as completed, and the card also
      shows as completed from 99.5 % of the target on. */
  lemma CardCompletedVersusSummary(g: Goal, instant: string -> int, nowMs: int)
    requires g.targetAmount > 0.0
    ensures IsReached(g) ==> CardOf(g, instant, nowMs).isCompleted
    ensures (CardOf(g, instant, nowMs).isCompleted && !IsReached(g)) <==>
      199.0 * g.targetAmount <= 200.0 * g.currentAmount < 200.0 * g.targetAmount
  {
  }

  /** A concrete disagreement: 995 saved of 1000 shows "Tercapai!" and hides the
      add-funds button, while the completed count stays at zero. */
  lemma CompletedButNotCounted(instant: string -> int, nowMs: int)
    ensures
      var g := Goal("g", "Laptop", 1000.0, 995.0, "2025-12-31", "target", "#10b981");
      var c := CardOf(g, instant, nowMs);
      c.percentage == 100 && c.isCompleted && !c.showAddFunds && CompletedGoals([g]) == 0
  {
    var g := Goal("g", "Laptop", 1000.0, 995.0, "2025-12-31", "target", "#10b981");
    RoundUnique(g.currentAmount / g.targetAmount * 100.0, 100);
  }

  // ---------------------------------------------------------------------
  // Handlers

  /** The goal modal's input fields. */
  datatype GoalForm = GoalForm(name: string, target: string, deadline: string, icon: string, color: string)

  /** A new goal goes at the end with nothing saved yet. */
  function AddGoal(gs: seq<Goal>, form: GoalForm, parse: string -> real, freshId: string): (r: seq<Goal>)
    ensures |r| == |gs| + 1 && r[..|gs|] == gs
    ensures r[|gs|].id == freshId && r[|gs|].currentAmount == 0.0
    ensures r[|gs|].name == form.name && r[|gs|].targetAmount == parse(form.target)
    ensures r[|gs|].deadline == form.deadline && r[|gs|].icon == form.icon && r[|gs|].color == form.color
    ensures TotalSaved(r) == TotalSaved(gs)
    ensures TotalTarget(r) == TotalTarget(gs) + parse(form.target)
  {
    var g := Goal(freshId, form.name, parse(form.target), 0.0, form.deadline, form.icon, form.color);
    SumByAppend(gs, [g], Saved);
    SumByAppend(gs, [g], Target);
    gs + [g]
  }

  /** An edit rewrites name, target, deadline, icon and colour of the goals with
      the id; their id and saved amount stay, and other goals are untouched. */
  function EditGoal(gs: seq<Goal>, id: string, form: GoalForm, parse: string -> real): (r: seq<Goal>)
    ensures |r| == |gs|
    ensures forall i :: 0 <= i < |gs| ==> r[i].id == gs[i].id && r[i].currentAmount == gs[i].currentAmount
    ensures forall i :: 0 <= i < |gs| && gs[i].id != id ==> r[i] == gs[i]
    ensures forall i :: 0 <= i < |gs| && gs[i].id == id ==>
      r[i].name == form.name && r[i].targetAmount == parse(form.target) && r[i].deadline == form.deadline
      && r[i].icon == form.icon && r[i].color == form.color
    ensures TotalSaved(r) == TotalSaved(gs)
  {
    var matches := (g: Goal) => g.id == id;
    var rewrite := (g: Goal) => g.(name := form.name, targetAmount := parse(form.target),
                                   deadline := form.deadline, icon := form.icon, color := form.color);
    SumByMapWhere(gs, matches, rewrite, Saved, 0.0);
    MapWhere(gs, matches, rewrite)
  }

  /** The goals carrying a given id. */
  function HasId(id: string): Goal -> bool {
    (g: Goal) => g.id == id
  }

  /** Adds `amount` to the saved amount of the goals with the id. */
  function Deposit(amount: real): Goal -> Goal {
    (g: Goal) => g.(currentAmount := g.currentAmount + amount)
  }

  /** `handleAddFunds`: nothing happens without an amount or a selected goal;
      otherwise the selected goal's saved amount rises by exactly the parsed
      amount and nothing else changes. */
  function AddFunds(gs: seq<Goal>, selectedId: Option<string>, amount: string, parse: string -> real): (r: seq<Goal>)
    ensures |r| == |gs|
    ensures !Filled(amount) || !HoldsId(selectedId) ==> r == gs
    ensures Filled(amount) && HoldsId(selectedId) ==>
      (forall i :: 0 <= i < |gs| && gs[i].id == selectedId.value ==>
        r[i] == gs[i].(currentAmount := gs[i].currentAmount + parse(amount)))
      && (forall i :: 0 <= i < |gs| && gs[i].id != selectedId.value ==> r[i] == gs[i])
      && TotalSaved(r) == TotalSaved(gs) + parse(amount) * Count(gs, HasId(selectedId.value)) as real
  {
    if !Filled(amount) || !HoldsId(selectedId) then gs
    else
      var p := HasId(selectedId.value);
      var f := Deposit(parse(amount));
      SumByMapWhere(gs, p, f, Saved, parse(amount));
      MapWhere(gs, p, f)
  }

  /** Depositing a non-negative amount never takes a goal off the completed count. */
  lemma {:induction false} DepositKeepsCompleted(gs: seq<Goal>, id: string, amount: real)
    requires amount >= 0.0
    ensures CompletedGoals(MapWhere(gs, HasId(id), Deposit(amount))) >= CompletedGoals(gs)
  {
    if |gs| > 0 {
      DepositKeepsCompleted(gs[1..], id, amount);
      assert MapWhere(gs, HasId(id), Deposit(amount))[1..] == MapWhere(gs[1..], HasId(id), Deposit(amount));
    }
  }

  /** `handleDelete`: after confirmation exactly the goals with the id go, the
      rest keep their order; without it nothing changes. */
  function DeleteGoal(gs: seq<Goal>, id: string, confirmed: bool): (r: seq<Goal>)
    ensures confirmed ==> forall g :: g in r <==> g in gs && g.id != id
    ensures IsSubsequence(r, gs)
    ensures confirmed ==> |r| == Count(gs, (g: Goal) => g.id != id)
    ensures !confirmed ==> r == gs
  {
    if confirmed then
      CountIsFilterLength(gs, (g: Goal) => g.id != id);
      Filter(gs, (g: Goal) => g.id != id)
    else
      SubsequenceRefl(gs);
      gs
  }

  /** `handleSubmit`: nothing happens while the name, target or deadline is
      empty; otherwise the goal being edited is rewritten, or a new one is added. */
  function SubmitGoal(gs: seq<Goal>, editingId: Option<string>, form: GoalForm,
                      parse: string -> real, freshId: string): (r: seq<Goal>)
    ensures !Filled(form.name) || !Filled(form.target) || !Filled(form.deadline) ==> r == gs
    ensures Filled(form.name) && Filled(form.target) && Filled(form.deadline) && HoldsId(editingId) ==>
      r == EditGoal(gs, editingId.value, form, parse)
    ensures Filled(form.name) && Filled(form.target) && Filled(form.deadline) && !HoldsId(editingId) ==>
      r == AddGoal(gs, form, parse, freshId)
      && |r| == |gs| + 1 && r[|gs|].id == freshId && r[|gs|].currentAmount == 0.0
  {
    if !Filled(form.name) || !Filled(form.target) || !Filled(form.deadline) then gs
    else if HoldsId(editingId) then EditGoal(gs, editingId.value, form, parse)
    else AddGoal(gs, form, parse, freshId)
  }
}

=== FILE: ledger.dfy ===
/** The transaction hook: the ledger's list edits, category lookup, the
    monthly statistics and the per-category expense breakdown. The
    reference month is passed in as the decoded local date of "now". */
module Ledger {
  import opened Wrappers
  import opened Calendar
  import opened Types
  import opened Utils
  import opened Seqs

  // ---------------------------------------------------------------------
  // Partitions and sums

  predicate InMonth(tx: Transaction, year: int, month: int) {
    tx.date.year == year && tx.date.month == month
  }

  /** `InMonth` as a value, for filters and one-pass totals. */
  function InMonthOf(year: int, month: int): Transaction -> bool {
    (tx: Transaction) => InMonth(tx, year, month)
  }

  /** The transactions dated in (`year`, `month`), in ledger order. */
  function MonthTxs(txs: seq<Transaction>, year: int, month: int): seq<Transaction> {
    Filter(txs, (tx: Transaction) => InMonth(tx, year, month))
  }

  /** The transactions dated outside (`year`, `month`). */
  function OtherMonthTxs(txs: seq<Transaction>, year: int, month: int): seq<Transaction> {
    Filter(txs, (tx: Transaction) => !InMonth(tx, year, month))
  }

  /** The transactions of one type. */
  function OfKind(txs: seq<Transaction>, kind: TxType): seq<Transaction> {
    Filter(txs, (tx: Transaction) => tx.kind == kind)
  }

  /** `reduce((sum, tx) => sum + tx.amount, 0)`. */
  function SumAmounts(txs: seq<Transaction>): real {
    if |txs| == 0 then 0.0 else txs[0].amount + SumAmounts(txs[1..])
  }

  /** The running balance: income adds its amount, anything else subtracts it. */
  function Balance(txs: seq<Transaction>): real {
    if |txs| == 0 then 0.0
    else (if txs[0].kind == Income then txs[0].amount else -txs[0].amount) + Balance(txs[1..])
  }

  /** Income and expense totals of one period. */
  datatype Flow = Flow(income: real, expense: real) {
    function Plus(other: Flow): Flow {
      Flow(income + other.income, expense + other.expense)
    }
  }

  /** What one transaction adds to the income total of a selection: its
      amount when it is selected income, nothing otherwise. */
  function IncomeShare(tx: Transaction, p: Transaction -> bool): real {
    if p(tx) && tx.kind == Income then tx.amount else 0.0
  }

  /** What one transaction adds to the expense total of a selection: its
      amount when it is selected and not income, nothing otherwise. */
  function ExpenseShare(tx: Transaction, p: Transaction -> bool): real {
    if p(tx) && tx.kind != Income then tx.amount else 0.0
  }

  function IncomeWhere(txs: seq<Transaction>, p: Transaction -> bool): real {
    if |txs| == 0 then 0.0 else IncomeShare(txs[0], p) + IncomeWhere(txs[1..], p)
  }

  function ExpenseWhere(txs: seq<Transaction>, p: Transaction -> bool): real {
    if |txs| == 0 then 0.0 else ExpenseShare(txs[0], p) + ExpenseWhere(txs[1..], p)
  }

  /** One pass over the ledger in the style of the dashboard loops: every
      transaction selected by `p` adds to income when it is income and to
      expense otherwise. */
  function FlowWhere(txs: seq<Transaction>, p: Transaction -> bool): Flow {
    Flow(IncomeWhere(txs, p), ExpenseWhere(txs, p))
  }

  /** Selecting with two exclusive predicates adds up to selecting with either. */
  lemma {:induction false} FlowWhereDisjoint(txs: seq<Transaction>, p: Transaction -> bool,
                                             q: Transaction -> bool, pq: Transaction -> bool)
    requires forall tx :: !(p(tx) && q(tx))
    requires forall tx :: pq(tx) == (p(tx) || q(tx))
    ensures FlowWhere(txs, p).Plus(FlowWhere(txs, q)) == FlowWhere(txs, pq)
  {
    if |txs| > 0 {
      FlowWhereDisjoint(txs[1..], p, q, pq);
      var tx := txs[0];
      assert IncomeShare(tx, p) + IncomeShare(tx, q) == IncomeShare(tx, pq);
      assert ExpenseShare(tx, p) + ExpenseShare(tx, q) == ExpenseShare(tx, pq);
    }
  }

  /** The totals of two stretches of the ledger add up. */
  lemma {:induction false} FlowWhereAppend(a: seq<Transaction>, b: seq<Transaction>, p: Transaction -> bool)
    ensures FlowWhere(a + b, p) == FlowWhere(a, p).Plus(FlowWhere(b, p))
  {
    if |a| == 0 {
      assert a + b == b;
    } else {
      var ab := a + b;
      assert ab[0] == a[0] && ab[1..] == a[1..] + b;
      FlowWhereAppend(a[1..], b, p);
    }
  }

  /** Every amount in the ledger is zero or more. */
  predicate NonNegative(txs: seq<Transaction>) {
    forall tx :: tx in txs ==> tx.amount >= 0.0
  }

  /** With no negative amounts, no selection has negative totals. */
  lemma {:induction false} FlowWhereNonNegative(txs: seq<Transaction>, p: Transaction -> bool)
    requires NonNegative(txs)
    ensures FlowWhere(txs, p).income >= 0.0 && FlowWhere(txs, p).expense >= 0.0
  {
    if |txs| > 0 {
      assert txs[0] in txs;
      assert NonNegative(txs[1..]) by {
        forall tx | tx in txs[1..]
          ensures tx.amount >= 0.0
        {
          assert tx in txs;
        }
      }
      FlowWhereNonNegative(txs[1..], p);
    }
  }

  /** Appending one transaction adds it to the totals when it is selected. */
  lemma FlowWhereSnoc(a: seq<Transaction>, tx: Transaction, p: Transaction -> bool)
    ensures FlowWhere(a + [tx], p) ==
      if !p(tx) then FlowWhere(a, p)
      else if tx.kind == Income then FlowWhere(a, p).Plus(Flow(tx.amount, 0.0))
      else FlowWhere(a, p).Plus(Flow(0.0, tx.amount))
  {
    FlowWhereAppend(a, [tx], p);
    assert [tx][1..] == [];
    assert IncomeWhere([tx], p) == IncomeShare(tx, p);
    assert ExpenseWhere([tx], p) == ExpenseShare(tx, p);
  }

  /** Predicates that agree on the ledger's transactions select the same totals. */
  lemma {:induction false} FlowWhereAgree(txs: seq<Transaction>, p: Transaction -> bool, q: Transaction -> bool)
    requires forall tx :: tx in txs ==> p(tx) == q(tx)
    ensures FlowWhere(txs, p) == FlowWhere(txs, q)
  {
    if |txs| > 0 {
      assert txs[0] in txs;
      assert forall tx :: tx in txs[1..] ==> tx in txs;
      FlowWhereAgree(txs[1..], p, q);
    }
  }

  /** The totals of the transactions dated in (`year`, `month`). */
  function MonthFlow(txs: seq<Transaction>, year: int, month: int): Flow {
    FlowWhere(txs, InMonthOf(year, month))
  }

  /** Filtering by month and then by type and summing gives the one-pass totals. */
  lemma {:induction false} MonthFlowIsFilteredSum(txs: seq<Transaction>, year: int, month: int)
    ensures MonthFlow(txs, year, month).income == SumAmounts(OfKind(MonthTxs(txs, year, month), Income))
    ensures MonthFlow(txs, year, month).expense == SumAmounts(OfKind(MonthTxs(txs, year, month), Expense))
  {
    if |txs| > 0 {
      var tx := txs[0];
      var rest := MonthTxs(txs[1..], year, month);
      MonthFlowIsFilteredSum(txs[1..], year, month);
      if InMonth(tx, year, month) {
        assert MonthTxs(txs, year, month) == [tx] + rest;
        assert ([tx] + rest)[1..] == rest;
        if tx.kind == Income {
          assert OfKind([tx] + rest, Income) == [tx] + OfKind(rest, Income);
          assert ([tx] + OfKind(rest, Income))[1..] == OfKind(rest, Income);
        } else {
          assert OfKind([tx] + rest, Expense) == [tx] + OfKind(rest, Expense);
          assert ([tx] + OfKind(rest, Expense))[1..] == OfKind(rest, Expense);
        }
      }
    }
  }

  /** The running balance is total income minus total expense. */
  lemma {:induction false} BalanceIsIncomeMinusExpense(txs: seq<Transaction>)
    ensures Balance(txs) == SumAmounts(OfKind(txs, Income)) - SumAmounts(OfKind(txs, Expense))
  {
    if |txs| > 0 {
      var tx := txs[0];
      BalanceIsIncomeMinusExpense(txs[1..]);
      if tx.kind == Income {
        assert OfKind(txs, Income) == [tx] + OfKind(txs[1..], Income);
        assert ([tx] + OfKind(txs[1..], Income))[1..] == OfKind(txs[1..], Income);
      } else {
        assert OfKind(txs, Expense) == [tx] + OfKind(txs[1..], Expense);
        assert ([tx] + OfKind(txs[1..], Expense))[1..] == OfKind(txs[1..], Expense);
      }
    }
  }

  /** The balance of the whole ledger is the balance of one month plus the
      balance of every other month, whatever month is chosen. */
  lemma {:induction false} BalanceByMonth(txs: seq<Transaction>, year: int, month: int)
    ensures Balance(txs) == Balance(MonthTxs(txs, year, month)) + Balance(OtherMonthTxs(txs, year, month))
  {
    if |txs| > 0 {
      var tx := txs[0];
      BalanceByMonth(txs[1..], year, month);
      if InMonth(tx, year, month) {
        assert MonthTxs(txs, year, month) == [tx] + MonthTxs(txs[1..], year, month);
        assert ([tx] + MonthTxs(txs[1..], year, month))[1..] == MonthTxs(txs[1..], year, month);
      } else {
        assert OtherMonthTxs(txs, year, month) == [tx] + OtherMonthTxs(txs[1..], year, month);
        assert ([tx] + OtherMonthTxs(txs[1..], year, month))[1..] == OtherMonthTxs(txs[1..], year, month);
      }
    }
  }

  // ---------------------------------------------------------------------
  // Statistics

  /** The dashboard statistics for the month of `now`. */
  function ComputeStats(txs: seq<Transaction>, now: Date): (r: DashboardStats)
    ensures r.monthlyIncome == MonthFlow(txs, now.year, now.month).income
    ensures r.monthlyExpense == MonthFlow(txs, now.year, now.month).expense
    ensures ValidMonth(now.month) ==>
      var last := ShiftMonth(now.year, now.month, -1);
      r.lastMonthExpense == MonthFlow(txs, last.0, last.1).expense
    ensures r.totalBalance == SumAmounts(OfKind(txs, Income)) - SumAmounts(OfKind(txs, Expense))
    ensures r.budgetRemaining == Balance(MonthTxs(txs, now.year, now.month))
    ensures r.lastMonthExpense <= 0.0 ==> r.expenseChange == 0
    ensures r.lastMonthExpense > 0.0 ==>
      r.expenseChange as real - 0.5
        <= (r.monthlyExpense - r.lastMonthExpense) / r.lastMonthExpense * 100.0
        < r.expenseChange as real + 0.5
    ensures |txs| == 0 ==> r == DashboardStats(0.0, 0.0, 0.0, 0.0, 0, 0.0)
  {
    var monthly := MonthTxs(txs, now.year, now.month);
    var monthlyIncome := SumAmounts(OfKind(monthly, Income));
    var monthlyExpense := SumAmounts(OfKind(monthly, Expense));
    var last := PrevMonth(now.year, now.month);
    var lastMonthExpense := SumAmounts(OfKind(MonthTxs(txs, last.0, last.1), Expense));
    MonthFlowIsFilteredSum(txs, now.year, now.month);
    MonthFlowIsFilteredSum(txs, last.0, last.1);
    BalanceIsIncomeMinusExpense(txs);
    BalanceIsIncomeMinusExpense(monthly);
    assert ValidMonth(now.month) ==> last == ShiftMonth(now.year, now.month, -1) by {
      if ValidMonth(now.month) { PrevMonthIsShift(now.year, now.month); }
    }
    DashboardStats(
      Balance(txs),
      monthlyIncome,
      monthlyExpense,
      lastMonthExpense,
      if lastMonthExpense > 0.0 then Round((monthlyExpense - lastMonthExpense) / lastMonthExpense * 100.0) else 0,
      monthlyIncome - monthlyExpense)
  }

  /** A worked example: a salary on 1 March 2024 and an expense on 15 March,
      seen on 20 March 2024. */
  lemma StatsExample()
    ensures
      var txs := [
        Transaction("a", "1", 1000000.0, Income, Date(2024, 2, 1), None, [], 0),
        Transaction("b", "4", 400000.0, Expense, Date(2024, 2, 15), None, [], 0)];
      var r := ComputeStats(txs, Date(2024, 2, 20));
      r.monthlyIncome == 1000000.0 && r.monthlyExpense == 400000.0
      && r.totalBalance == 600000.0 && r.budgetRemaining == 600000.0
      && r.lastMonthExpense == 0.0 && r.expenseChange == 0
  {
    var txs := [
      Transaction("a", "1", 1000000.0, Income, Date(2024, 2, 1), None, [], 0),
      Transaction("b", "4", 400000.0, Expense, Date(2024, 2, 15), None, [], 0)];
    assert txs[1..][1..] == [];
    var r := ComputeStats(txs, Date(2024, 2, 20));
    assert MonthFlow(txs, 2024, 2) == Flow(1000000.0, 400000.0);
    assert MonthFlow(txs, 2024, 1) == Flow(0.0, 0.0);
    assert Balance(txs) == 600000.0;
    BalanceIsIncomeMinusExpense(txs);
  }

  // ---------------------------------------------------------------------
  // Categories

  /** `categories.find((c) => c.id === categoryId)`. */
  function CategoryById(cats: seq<Category>, id: string): (r: Option<Category>)
    ensures r.Some? ==> r.value in cats && r.value.id == id
    ensures r.None? <==> forall c :: c in cats ==> c.id != id
    ensures r.Some? ==> exists i :: FirstWithId(cats, id, i) && cats[i] == r.value
  {
    if |cats| == 0 then None
    else if cats[0].id == id then
      assert FirstWithId(cats, id, 0);
      Some(cats[0])
    else
      var r := CategoryById(cats[1..], id);
      assert r.Some? ==> exists i :: FirstWithId(cats, id, i) && cats[i] == r.value by {
        if r.Some? {
          var i :| FirstWithId(cats[1..], id, i) && cats[1..][i] == r.value;
          assert FirstWithId(cats, id, i + 1);
        }
      }
      r
  }

  /** Index `i` holds the first category with the given id. */
  predicate FirstWithId(cats: seq<Category>, id: string, i: int) {
    0 <= i < |cats| && cats[i].id == id && forall j :: 0 <= j < i ==> cats[j].id != id
  }

  predicate Resolves(cats: seq<Category>, id: string) {
    CategoryById(cats, id).Some?
  }

  /** A transaction together with the category its id resolves to, if any. */
  datatype JoinedTransaction = JoinedTransaction(tx: Transaction, category: Option<Category>)

  /** `transactionsWithCategory`: every transaction, in order, joined with its category. */
  function TransactionsWithCategory(txs: seq<Transaction>, cats: seq<Category>): (r: seq<JoinedTransaction>)
    ensures |r| == |txs|
    ensures forall i :: 0 <= i < |r| ==> r[i].tx == txs[i]
    ensures forall i :: 0 <= i < |r| ==>
      (r[i].category.Some? <==> exists c :: c in cats && c.id == txs[i].categoryId)
    ensures forall i :: 0 <= i < |r| && r[i].category.Some? ==>
      r[i].category.value in cats && r[i].category.value.id == txs[i].categoryId
  {
    seq(|txs|, i requires 0 <= i < |txs| => JoinedTransaction(txs[i], CategoryById(cats, txs[i].categoryId)))
  }

  // ---------------------------------------------------------------------
  // Category breakdown

  /** One pie-chart slice. The category id is the key the source groups by;
      it is kept in the slice so that the slice's contents can be stated. */
  datatype Slice = Slice(categoryId: string, name: string, value: real, color: string)

  /** The current month's expense transactions (one combined filter in the source). */
  function MonthExpenses(txs: seq<Transaction>, year: int, month: int): seq<Transaction> {
    Filter(txs, (tx: Transaction) => tx.kind == Expense && InMonth(tx, year, month))
  }

  function SliceIds(s: seq<Slice>): set<string> {
    set sl | sl in s :: sl.categoryId
  }

  predicate DistinctIds(s: seq<Slice>) {
    forall i, j :: 0 <= i < j < |s| ==> s[i].categoryId != s[j].categoryId
  }

  /** The value of the first slice with id `k`, or 0 when there is none. */
  function SliceValue(s: seq<Slice>, k: string): real {
    if |s| == 0 then 0.0
    else if s[0].categoryId == k then s[0].value
    else SliceValue(s[1..], k)
  }

  function SumValues(s: seq<Slice>): real {
    if |s| == 0 then 0.0 else s[0].value + SumValues(s[1..])
  }

  /** Sum of the amounts of the transactions filed under category id `k`. */
  function CategorySum(txs: seq<Transaction>, k: string): real {
    if |txs| == 0 then 0.0
    else (if txs[0].categoryId == k then txs[0].amount else 0.0) + CategorySum(txs[1..], k)
  }

  /** Sum of the amounts whose category resolves. */
  function ResolvedSum(txs: seq<Transaction>, cats: seq<Category>): real {
    if |txs| == 0 then 0.0
    else (if Resolves(cats, txs[0].categoryId) then txs[0].amount else 0.0) + ResolvedSum(txs[1..], cats)
  }

  /** Sum of the amounts whose category does not resolve. */
  function UnresolvedSum(txs: seq<Transaction>, cats: seq<Category>): real {
    if |txs| == 0 then 0.0
    else (if Resolves(cats, txs[0].categoryId) then 0.0 else txs[0].amount) + UnresolvedSum(txs[1..], cats)
  }

  /** The category ids of `txs` that resolve. */
  function ResolvedIds(txs: seq<Transaction>, cats: seq<Category>): set<string> {
    set tx | tx in txs && Resolves(cats, tx.categoryId) :: tx.categoryId
  }

  lemma SliceIdsCons(s: seq<Slice>)
    requires |s| > 0
    ensures SliceIds(s) == {s[0].categoryId} + SliceIds(s[1..])
  {
    assert forall sl :: sl in s <==> sl == s[0] || sl in s[1..];
  }

  lemma ResolvedIdsCons(txs: seq<Transaction>, cats: seq<Category>)
    requires |txs| > 0
    ensures ResolvedIds(txs, cats) ==
      ResolvedIds(txs[1..], cats) + (if Resolves(cats, txs[0].categoryId) then {txs[0].categoryId} else {})
  {
    assert forall tx :: tx in txs <==> tx == txs[0] || tx in txs[1..];
  }

  /** Distinct ids, one slice at a time: the head's id is not among the tail's. */
  lemma DistinctCons(s: seq<Slice>)
    requires |s| > 0
    ensures DistinctIds(s) <==> s[0].categoryId !in SliceIds(s[1..]) && DistinctIds(s[1..])
  {
    var t := s[1..];
    if DistinctIds(s) {
      forall i, j | 0 <= i < j < |t|
        ensures t[i].categoryId != t[j].categoryId
      {
        assert t[i] == s[i + 1] && t[j] == s[j + 1];
      }
      forall sl | sl in t
        ensures sl.categoryId != s[0].categoryId
      {
        var j :| 0 <= j < |t| && t[j] == sl;
        assert s[j + 1] == sl;
      }
    }
    if s[0].categoryId !in SliceIds(t) && DistinctIds(t) {
      forall i, j | 0 <= i < j < |s|
        ensures s[i].categoryId != s[j].categoryId
      {
        assert s[j] == t[j - 1];
        if i > 0 {
          assert s[i] == t[i - 1];
        }
      }
    }
  }

  /** Lines 148-155: add `amount` to the slice of category `c`, creating the
      slice (with value 0, then the amount) when the category has none yet. */
  function AddToSlices(s: seq<Slice>, c: Category, amount: real): (r: seq<Slice>)
    ensures forall k :: SliceValue(r, k) == SliceValue(s, k) + (if k == c.id then amount else 0.0)
    ensures SumValues(r) == SumValues(s) + amount
  {
    if |s| == 0 then
      [Slice(c.id, c.name, 0.0 + amount, c.color)]
    else if s[0].categoryId == c.id then
      var r := [s[0].(value := s[0].value + amount)] + s[1..];
      assert r[1..] == s[1..];
      r
    else
      var rest := AddToSlices(s[1..], c, amount);
      var r := [s[0]] + rest;
      assert r[1..] == rest;
      r
  }

  /** Adding to the slices adds the category's id, and only that. */
  lemma {:induction false} AddToSlicesIds(s: seq<Slice>, c: Category, amount: real)
    ensures SliceIds(AddToSlices(s, c, amount)) == SliceIds(s) + {c.id}
  {
    var r := AddToSlices(s, c, amount);
    if |s| > 0 {
      SliceIdsCons(s);
      SliceIdsCons(r);
      if s[0].categoryId == c.id {
        assert r[1..] == s[1..];
      } else {
        AddToSlicesIds(s[1..], c, amount);
        assert r[1..] == AddToSlices(s[1..], c, amount);
      }
    }
  }

  /** Adding to the slices never creates a second slice for a category. */
  lemma {:induction false} AddToSlicesDistinct(s: seq<Slice>, c: Category, amount: real)
    requires DistinctIds(s)
    ensures DistinctIds(AddToSlices(s, c, amount))
  {
    var r := AddToSlices(s, c, amount);
    if |s| > 0 {
      DistinctCons(s);
      DistinctCons(r);
      if s[0].categoryId == c.id {
        assert r[1..] == s[1..];
      } else {
        var rest := AddToSlices(s[1..], c, amount);
        assert r[1..] == rest;
        AddToSlicesDistinct(s[1..], c, amount);
        AddToSlicesIds(s[1..], c, amount);
      }
    }
  }

  /** `forEach` over the month's expenses, starting from the slices in `acc`:
      transactions whose category resolves are added to their category's slice. */
  function GroupFrom(acc: seq<Slice>, txs: seq<Transaction>, cats: seq<Category>): (r: seq<Slice>)
    ensures forall k :: (SliceValue(r, k) ==
      SliceValue(acc, k) + (if Resolves(cats, k) then CategorySum(txs, k) else 0.0))
    ensures SumValues(r) == SumValues(acc) + ResolvedSum(txs, cats)
    decreases |txs|
  {
    if |txs| == 0 then acc
    else
      match CategoryById(cats, txs[0].categoryId)
      case None => GroupFrom(acc, txs[1..], cats)
      case Some(c) => GroupFrom(AddToSlices(acc, c, txs[0].amount), txs[1..], cats)
  }

  /** The grouping has one slice for each category id that resolves, and no other. */
  lemma {:induction false} GroupIds(acc: seq<Slice>, txs: seq<Transaction>, cats: seq<Category>)
    ensures SliceIds(GroupFrom(acc, txs, cats)) == SliceIds(acc) + ResolvedIds(txs, cats)
    decreases |txs|
  {
    if |txs| > 0 {
      ResolvedIdsCons(txs, cats);
      match CategoryById(cats, txs[0].categoryId)
      case None =>
        GroupIds(acc, txs[1..], cats);
      case Some(c) =>
        AddToSlicesIds(acc, c, txs[0].amount);
        GroupIds(AddToSlices(acc, c, txs[0].amount), txs[1..], cats);
    }
  }

  /** The grouping keeps slice ids distinct. */
  lemma {:induction false} GroupDistinct(acc: seq<Slice>, txs: seq<Transaction>, cats: seq<Category>)
    requires DistinctIds(acc)
    ensures DistinctIds(GroupFrom(acc, txs, cats))
    decreases |txs|
  {
    if |txs| > 0 {
      match CategoryById(cats, txs[0].categoryId)
      case None =>
        GroupDistinct(acc, txs[1..], cats);
      case Some(c) =>
        AddToSlicesDistinct(acc, c, txs[0].amount);
        GroupDistinct(AddToSlices(acc, c, txs[0].amount), txs[1..], cats);
    }
  }

  /** Every slice carries the name and colour of the category its id resolves to. */
  predicate Labelled(s: seq<Slice>, cats: seq<Category>) {
    forall sl :: sl in s ==> SliceLabelled(sl, cats)
  }

  predicate SliceLabelled(sl: Slice, cats: seq<Category>) {
    var c := CategoryById(cats, sl.categoryId);
    c.Some? && c.value.name == sl.name && c.value.color == sl.color
  }

  lemma {:induction false} AddToSlicesLabelled(s: seq<Slice>, c: Category, amount: real, cats: seq<Category>)
    requires Labelled(s, cats)
    requires CategoryById(cats, c.id) == Some(c)
    ensures Labelled(AddToSlices(s, c, amount), cats)
  {
    var r := AddToSlices(s, c, amount);
    if |s| > 0 {
      if s[0].categoryId == c.id {
        assert r[1..] == s[1..];
        assert s[0] in s;
        assert SliceLabelled(r[0], cats);
        assert forall sl :: sl in r ==> sl == r[0] || sl in s[1..];
      } else {
        AddToSlicesLabelled(s[1..], c, amount, cats);
        assert forall sl :: sl in r ==> sl == s[0] || sl in AddToSlices(s[1..], c, amount);
      }
    }
  }

  lemma {:induction false} GroupLabelled(acc: seq<Slice>, txs: seq<Transaction>, cats: seq<Category>)
    requires Labelled(acc, cats)
    ensures Labelled(GroupFrom(acc, txs, cats), cats)
    decreases |txs|
  {
    if |txs| > 0 {
      match CategoryById(cats, txs[0].categoryId)
      case None =>
        GroupLabelled(acc, txs[1..], cats);
      case Some(c) =>
        AddToSlicesLabelled(acc, c, txs[0].amount, cats);
        GroupLabelled(AddToSlices(acc, c, txs[0].amount), txs[1..], cats);
    }
  }

  /** In slices with distinct ids, a slice's value is the value looked up by its id. */
  lemma {:induction false} SliceValueOfMember(s: seq<Slice>, sl: Slice)
    requires DistinctIds(s)
    requires sl in s
    ensures SliceValue(s, sl.categoryId) == sl.value
  {
    if s[0] != sl {
      DistinctCons(s);
      assert sl in s[1..];
      SliceValueOfMember(s[1..], sl);
    }
  }

  lemma {:induction false} SliceIdsBound(s: seq<Slice>)
    ensures |SliceIds(s)| <= |s|
  {
    if |s| > 0 {
      SliceIdsBound(s[1..]);
      SliceIdsCons(s);
    }
  }

  /** Slices have distinct ids exactly when there are as many ids as slices. */
  lemma {:induction false} DistinctIdsCount(s: seq<Slice>)
    ensures DistinctIds(s) <==> |SliceIds(s)| == |s|
  {
    if |s| > 0 {
      DistinctIdsCount(s[1..]);
      SliceIdsCons(s);
      DistinctCons(s);
      SliceIdsBound(s[1..]);
    }
  }

  lemma {:induction false} SumValuesRemove(s: seq<Slice>, i: int)
    requires 0 <= i < |s|
    ensures SumValues(s) == s[i].value + SumValues(s[..i] + s[i + 1..])
  {
    if i > 0 {
      SumValuesRemove(s[1..], i - 1);
      assert s[1..][..i - 1] + s[1..][i..] == (s[..i] + s[i + 1..])[1..];
    } else {
      assert s[..i] + s[i + 1..] == s[1..];
    }
  }

  /** Rearranging slices does not change their total. */
  lemma {:induction false} SumValuesPermutation(a: seq<Slice>, b: seq<Slice>)
    requires multiset(a) == multiset(b)
    ensures SumValues(a) == SumValues(b)
    decreases |a|
  {
    if |a| > 0 {
      assert a[0] in multiset(b);
      var i :| 0 <= i < |b| && b[i] == a[0];
      var b' := b[..i] + b[i + 1..];
      RemoveMatching(a, b, i);
      SumValuesPermutation(a[1..], b');
      SumValuesRemove(b, i);
    }
  }

  /** Taking the first element off one side and a copy of it off the other
      keeps two permutations permutations. */
  lemma RemoveMatching(a: seq<Slice>, b: seq<Slice>, i: int)
    requires multiset(a) == multiset(b) && |a| > 0 && 0 <= i < |b| && b[i] == a[0]
    ensures multiset(a[1..]) == multiset(b[..i] + b[i + 1..])
  {
    var b' := b[..i] + b[i + 1..];
    assert b == b[..i] + [b[i]] + b[i + 1..];
    assert a == [a[0]] + a[1..];
    assert multiset(b) == multiset(b[..i]) + multiset{b[i]} + multiset(b[i + 1..]);
    assert multiset(a) == multiset{a[0]} + multiset(a[1..]);
    assert multiset(b') == multiset(b[..i]) + multiset(b[i + 1..]);
    assert multiset(b) == multiset{a[0]} + multiset(b');
    assert multiset(a[1..]) == multiset(a) - multiset{a[0]};
  }

  /** `categoryBreakdown`: the month's expenses grouped by resolvable category,
      sorted by decreasing value. */
  function CategoryBreakdown(txs: seq<Transaction>, cats: seq<Category>, now: Date): (r: seq<Slice>)
    ensures forall i, j :: 0 <= i < j < |r| ==> r[i].value >= r[j].value
    ensures DistinctIds(r)
    ensures SliceIds(r) == ResolvedIds(MonthExpenses(txs, now.year, now.month), cats)
    ensures forall sl :: sl in r ==>
      sl.value == CategorySum(MonthExpenses(txs, now.year, now.month), sl.categoryId)
    ensures Labelled(r, cats)
    ensures SumValues(r) == ResolvedSum(MonthExpenses(txs, now.year, now.month), cats)
  {
    var expenses := MonthExpenses(txs, now.year, now.month);
    var groups := GroupFrom([], expenses, cats);
    var r := SortBy(groups, (sl: Slice) => -sl.value);
    BreakdownFacts(groups, r, expenses, cats);
    r
  }

  /** The facts the breakdown's contract needs about the sorted grouping. */
  lemma BreakdownFacts(groups: seq<Slice>, r: seq<Slice>, expenses: seq<Transaction>, cats: seq<Category>)
    requires groups == GroupFrom([], expenses, cats)
    requires multiset(r) == multiset(groups)
    ensures DistinctIds(r)
    ensures SliceIds(r) == ResolvedIds(expenses, cats)
    ensures forall sl :: sl in r ==> sl.value == CategorySum(expenses, sl.categoryId)
    ensures Labelled(r, cats)
    ensures SumValues(r) == ResolvedSum(expenses, cats)
  {
    GroupIds([], expenses, cats);
    GroupDistinct([], expenses, cats);
    GroupLabelled([], expenses, cats);
    assert forall sl :: sl in r <==> sl in groups by {
      assert forall sl :: sl in r <==> sl in multiset(r);
      assert forall sl :: sl in groups <==> sl in multiset(groups);
    }
    assert SliceIds(r) == SliceIds(groups);
    DistinctIdsCount(groups);
    DistinctIdsCount(r);
    SumValuesPermutation(r, groups);
    forall sl | sl in r
      ensures sl.value == CategorySum(expenses, sl.categoryId)
    {
      SliceValueOfMember(groups, sl);
      assert SliceLabelled(sl, cats);
    }
  }

  /** The breakdown's values and the unresolved expenses together make up the
      month's expense figure. */
  lemma BreakdownCoversExpense(txs: seq<Transaction>, cats: seq<Category>, now: Date)
    ensures SumValues(CategoryBreakdown(txs, cats, now))
      + UnresolvedSum(MonthExpenses(txs, now.year, now.month), cats)
      == ComputeStats(txs, now).monthlyExpense
  {
    ResolvedSplit(MonthExpenses(txs, now.year, now.month), cats);
    MonthExpensesSum(txs, now.year, now.month);
  }

  lemma {:induction false} ResolvedSplit(txs: seq<Transaction>, cats: seq<Category>)
    ensures ResolvedSum(txs, cats) + UnresolvedSum(txs, cats) == SumAmounts(txs)
  {
    if |txs| > 0 {
      ResolvedSplit(txs[1..], cats);
    }
  }

  lemma {:induction false} MonthExpensesSum(txs: seq<Transaction>, year: int, month: int)
    ensures SumAmounts(MonthExpenses(txs, year, month)) == MonthFlow(txs, year, month).expense
  {
    if |txs| > 0 {
      var tx := txs[0];
      MonthExpensesSum(txs[1..], year, month);
      if tx.kind == Expense && InMonth(tx, year, month) {
        assert MonthExpenses(txs, year, month) == [tx] + MonthExpenses(txs[1..], year, month);
        assert ([tx] + MonthExpenses(txs[1..], year, month))[1..] == MonthExpenses(txs[1..], year, month);
      }
    }
  }

  // ---------------------------------------------------------------------
  // List edits

  /** The fields a form submission supplies; `{...tx, ...updates}` replaces exactly these. */
  datatype TransactionDraft = TransactionDraft(
    amount: real,
    kind: TxType,
    description: Option<string>,
    categoryId: string,
    date: Date,
    tags: seq<string>)

  function FromDraft(d: TransactionDraft, id: string, createdAt: int): Transaction {
    Transaction(id, d.categoryId, d.amount, d.kind, d.date, d.description, d.tags, createdAt)
  }

  /** `addTransaction`: the new record, with a fresh id and creation time, goes in front. */
  function AddTransaction(txs: seq<Transaction>, d: TransactionDraft, freshId: string, nowMs: int): (r: seq<Transaction>)
    ensures |r| == |txs| + 1
    ensures r[0].id == freshId && r[0].createdAt == nowMs
    ensures r[0].amount == d.amount && r[0].kind == d.kind && r[0].categoryId == d.categoryId
    ensures r[0].date == d.date && r[0].description == d.description && r[0].tags == d.tags
    ensures r[1..] == txs
  {
    [FromDraft(d, freshId, nowMs)] + txs
  }

  /** `{...tx, ...updates}`: the draft's fields over the record's id and creation time. */
  function ApplyDraft(tx: Transaction, d: TransactionDraft): Transaction {
    FromDraft(d, tx.id, tx.createdAt)
  }

  /** `updateTransaction`: records with the id take the draft's fields and keep
      their id and creation time; every other record is unchanged. */
  function UpdateTransaction(txs: seq<Transaction>, id: string, d: TransactionDraft): (r: seq<Transaction>)
    ensures |r| == |txs|
    ensures forall i :: 0 <= i < |r| && txs[i].id != id ==> r[i] == txs[i]
    ensures forall i :: 0 <= i < |r| && txs[i].id == id ==>
      r[i].id == id && r[i].createdAt == txs[i].createdAt
      && FromDraft(d, r[i].id, r[i].createdAt) == r[i]
  {
    seq(|txs|, i requires 0 <= i < |txs| => if txs[i].id == id then ApplyDraft(txs[i], d) else txs[i])
  }

  /** `deleteTransaction`: exactly the records with the id disappear; the
      rest keep their order and every copy of them survives. */
  function DeleteTransaction(txs: seq<Transaction>, id: string): (r: seq<Transaction>)
    ensures forall tx :: tx in r <==> tx in txs && tx.id != id
    ensures IsSubsequence(r, txs)
    ensures |r| == Count(txs, (tx: Transaction) => tx.id != id)
    ensures (forall tx :: tx in txs ==> tx.id != id) ==> r == txs
  {
    var r := Filter(txs, (tx: Transaction) => tx.id != id);
    CountIsFilterLength(txs, (tx: Transaction) => tx.id != id);
    assert (forall tx :: tx in txs ==> tx.id != id) ==> r == txs by {
      if forall tx :: tx in txs ==> tx.id != id {
        FilterAll(txs, (tx: Transaction) => tx.id != id);
      }
    }
    r
  }

  /** Deleting twice is the same as deleting once. */
  lemma DeleteIdempotent(txs: seq<Transaction>, id: string)
    ensures DeleteTransaction(DeleteTransaction(txs, id), id) == DeleteTransaction(txs, id)
  {
  }

  /** Deleting the id of a record just added undoes the add: the new
      record goes, and so does any older record carrying the same id. */
  lemma DeleteJustAdded(txs: seq<Transaction>, d: TransactionDraft, id: string, nowMs: int)
    ensures DeleteTransaction(AddTransaction(txs, d, id, nowMs), id) == DeleteTransaction(txs, id)
  {
    var a := AddTransaction(txs, d, id, nowMs);
    assert a == [a[0]] + txs;
  }
}

=== FILE: seqs.dfy ===
/** Sequence helpers shared by every list the application keeps: filtering,
    order-preserving subsequences and prefixes. */
module Seqs {

  /** `a` can be obtained from `b` by deleting elements, keeping the order of the rest. */
  predicate IsSubsequence<T(==,!new)>(a: seq<T>, b: seq<T>)
    decreases |b|
  {
    if |a| == 0 then true
    else if |b| == 0 then false
    else (a[0] == b[0] && IsSubsequence(a[1..], b[1..])) || IsSubsequence(a, b[1..])
  }

  /** Every sequence is a subsequence of itself. */
  lemma {:induction false} SubsequenceRefl<T(!new)>(s: seq<T>)
    ensures IsSubsequence(s, s)
  {
    if |s| > 0 {
      SubsequenceRefl(s[1..]);
    }
  }

  /** A subsequence of a subsequence is a subsequence. */
  lemma {:induction false} SubsequenceTrans<T(!new)>(a: seq<T>, b: seq<T>, c: seq<T>)
    requires IsSubsequence(a, b) && IsSubsequence(b, c)
    ensures IsSubsequence(a, c)
    decreases |c|
  {
    if |a| > 0 {
      if b[0] == c[0] && IsSubsequence(b[1..], c[1..]) {
        if a[0] == b[0] && IsSubsequence(a[1..], b[1..]) {
          SubsequenceTrans(a[1..], b[1..], c[1..]);
        } else {
          SubsequenceTrans(a, b[1..], c[1..]);
        }
      } else {
        SubsequenceTrans(a, b, c[1..]);
      }
    }
  }

  /** `Array.prototype.filter`: the elements of `s` satisfying `p`, in order. */
  function Filter<T(==,!new)>(s: seq<T>, p: T -> bool): (r: seq<T>)
    ensures |r| <= |s|
    ensures forall x :: x in r <==> x in s && p(x)
    ensures IsSubsequence(r, s)
  {
    if |s| == 0 then []
    else if p(s[0]) then [s[0]] + Filter(s[1..], p)
    else Filter(s[1..], p)
  }

  /** Number of elements of `s` satisfying `p` (`s.filter(p).length`). */
  function Count<T>(s: seq<T>, p: T -> bool): (n: nat)
    ensures n <= |s|
  {
    if |s| == 0 then 0 else (if p(s[0]) then 1 else 0) + Count(s[1..], p)
  }

  /** The count is the length of the filtered sequence. */
  lemma {:induction false} CountIsFilterLength<T(!new)>(s: seq<T>, p: T -> bool)
    ensures Count(s, p) == |Filter(s, p)|
  {
    if |s| > 0 {
      CountIsFilterLength(s[1..], p);
    }
  }

  /** A filter keeps the whole sequence exactly when every element passes. */
  lemma {:induction false} FilterAll<T(!new)>(s: seq<T>, p: T -> bool)
    requires forall x :: x in s ==> p(x)
    ensures Filter(s, p) == s
  {
    if |s| > 0 {
      assert forall x :: x in s[1..] ==> x in s;
      FilterAll(s[1..], p);
    }
  }

  /** Predicates that agree on every element filter alike. */
  lemma {:induction false} FilterAgree<T(!new)>(s: seq<T>, p: T -> bool, q: T -> bool)
    requires forall x :: x in s ==> p(x) == q(x)
    ensures Filter(s, p) == Filter(s, q)
  {
    if |s| > 0 {
      assert s[0] in s;
      assert forall x :: x in s[1..] ==> x in s;
      FilterAgree(s[1..], p, q);
    }
  }

  /** Counting elements that satisfy either of two exclusive predicates adds up. */
  lemma {:induction false} CountDisjoint<T(!new)>(s: seq<T>, p: T -> bool, q: T -> bool, pq: T -> bool)
    requires forall x :: !(p(x) && q(x))
    requires forall x :: pq(x) == (p(x) || q(x))
    ensures Count(s, p) + Count(s, q) == Count(s, pq)
  {
    if |s| > 0 {
      CountDisjoint(s[1..], p, q, pq);
    }
  }

  /** `s.slice(0, n)`: the first `n` elements, or all of `s` when it is shorter. */
  function Take<T>(s: seq<T>, n: nat): (r: seq<T>)
    ensures |r| == if |s| < n then |s| else n
    ensures forall i :: 0 <= i < |r| ==> r[i] == s[i]
  {
    if |s| <= n then s else s[..n]
  }

  /** `Array.prototype.map`. */
  function Map<T, U>(s: seq<T>, f: T -> U): (r: seq<U>)
    ensures |r| == |s|
    ensures forall i :: 0 <= i < |s| ==> r[i] == f(s[i])
  {
    seq(|s|, i requires 0 <= i < |s| => f(s[i]))
  }
  /** Filtering twice is filtering once by both tests, in order. */
  lemma {:induction false} FilterFilter<T(!new)>(s: seq<T>, p: T -> bool, q: T -> bool, pq: T -> bool)
    requires forall x :: pq(x) == (p(x) && q(x))
    ensures Filter(Filter(s, p), q) == Filter(s, pq)
  {
    if |s| > 0 {
      FilterFilter(s[1..], p, q, pq);
      if p(s[0]) {
        assert ([s[0]] + Filter(s[1..], p))[1..] == Filter(s[1..], p);
      }
    }
  }

  /** Mapping distributes over a leading element. */
  lemma MapCons<T, U>(x: T, t: seq<T>, f: T -> U)
    ensures Map([x] + t, f) == [f(x)] + Map(t, f)
  {
    var a, b := Map([x] + t, f), [f(x)] + Map(t, f);
    forall i | 0 <= i < |a|
      ensures a[i] == b[i]
    {
      if i > 0 {
        assert ([x] + t)[i] == t[i - 1];
      }
    }
  }

  /** Filtering after a map keeps the images of exactly the elements whose
      image passes, in order: filter, map, filter is one filter and a map. */
  lemma {:induction false} FilterAfterMap<T(!new), U(!new)>(s: seq<T>, p: T -> bool, f: T -> U, q: U -> bool, pq: T -> bool)
    requires forall x :: pq(x) == (p(x) && q(f(x)))
    ensures Filter(Map(Filter(s, p), f), q) == Map(Filter(s, pq), f)
  {
    if |s| > 0 {
      FilterAfterMap(s[1..], p, f, q, pq);
      var rest := Filter(s[1..], p);
      if p(s[0]) {
        MapCons(s[0], rest, f);
        assert ([f(s[0])] + Map(rest, f))[1..] == Map(rest, f);
        if q(f(s[0])) {
          MapCons(s[0], Filter(s[1..], pq), f);
        }
      }
    }
  }

  /** `s` is ordered by non-decreasing `key`. */
  predicate SortedBy<T>(s: seq<T>, key: T -> real) {
    forall i, j :: 0 <= i < j < |s| ==> key(s[i]) <= key(s[j])
  }

  /** An element no larger than everything in a sorted sequence can go in front. */
  lemma InsertSorted<T>(e: T, s0: T, rest: seq<T>, key: T -> real)
    requires SortedBy(rest, key)
    requires forall x :: x in rest ==> key(s0) <= key(x)
    ensures SortedBy([s0] + rest, key)
  {
    var r := [s0] + rest;
    forall i, j | 0 <= i < j < |r|
      ensures key(r[i]) <= key(r[j])
    {
      if i > 0 {
        assert r[i] == rest[i - 1] && r[j] == rest[j - 1];
      } else {
        assert r[j] in rest;
      }
    }
  }

  /** Inserts `e` into a sorted sequence in front of the first element whose
      key is not smaller, so that earlier equal elements stay in front. */
  function InsertBy<T(==)>(e: T, s: seq<T>, key: T -> real): (r: seq<T>)
    requires SortedBy(s, key)
    ensures |r| == |s| + 1
    ensures multiset(r) == multiset(s) + multiset{e}
    ensures SortedBy(r, key)
  {
    if |s| == 0 || key(e) <= key(s[0]) then
      InsertSorted(e, e, s, key);
      [e] + s
    else
      SortedTail(s, key);
      var rest := InsertBy(e, s[1..], key);
      HeadBelowInserted(e, s, rest, key);
      InsertSorted(e, s[0], rest, key);
      assert s == [s[0]] + s[1..];
      [s[0]] + rest
  }

  /** The tail of a sorted sequence is sorted. */
  lemma SortedTail<T>(s: seq<T>, key: T -> real)
    requires |s| > 0 && SortedBy(s, key)
    ensures SortedBy(s[1..], key)
  {
    forall i, j | 0 <= i < j < |s[1..]|
      ensures key(s[1..][i]) <= key(s[1..][j])
    {
      assert s[1..][i] == s[i + 1] && s[1..][j] == s[j + 1];
    }
  }

  /** The head of a sorted sequence is no larger than anything in its tail
      with a larger element inserted. */
  lemma HeadBelowInserted<T>(e: T, s: seq<T>, rest: seq<T>, key: T -> real)
    requires |s| > 0 && SortedBy(s, key) && key(s[0]) < key(e)
    requires multiset(rest) == multiset(s[1..]) + multiset{e}
    ensures forall x :: x in rest ==> key(s[0]) <= key(x)
  {
    forall x | x in rest
      ensures key(s[0]) <= key(x)
    {
      assert x in multiset(rest);
      if x != e {
        var k :| 0 <= k < |s[1..]| && s[1..][k] == x;
        assert s[k + 1] == x;
      }
    }
  }

  /** A stable sort by ascending `key`, as `Array.prototype.sort` with a
      comparator `(a, b) => key(a) - key(b)` produces: the same elements,
      each as often as before, in key order. */
  function SortBy<T(==)>(s: seq<T>, key: T -> real): (r: seq<T>)
    ensures |r| == |s|
    ensures multiset(r) == multiset(s)
    ensures SortedBy(r, key)
  {
    if |s| == 0 then []
    else
      assert s == [s[0]] + s[1..];
      InsertBy(s[0], SortBy(s[1..], key), key)
  }

  /** The first `n` elements of a sorted sequence are its smallest: every
      element left out has a key no smaller than any element kept. */
  lemma TakeSortedSmallest<T>(s: seq<T>, key: T -> real, n: nat)
    requires SortedBy(s, key)
    ensures forall x, j :: x in multiset(s) - multiset(Take(s, n)) && 0 <= j < |Take(s, n)| ==>
      key(Take(s, n)[j]) <= key(x)
  {
    var t := Take(s, n);
    assert s == t + s[|t|..];
    assert multiset(s) - multiset(t) == multiset(s[|t|..]);
    forall x, j | x in multiset(s) - multiset(t) && 0 <= j < |t|
      ensures key(t[j]) <= key(x)
    {
      assert x in s[|t|..];
      var k :| 0 <= k < |s[|t|..]| && s[|t|..][k] == x;
      assert s[|t| + k] == x;
    }
  }

  /** `s.reduce((sum, x) => sum + f(x), 0)`. */
  function SumBy<T>(s: seq<T>, f: T -> real): real {
    if |s| == 0 then 0.0 else f(s[0]) + SumBy(s[1..], f)
  }

  /** A sum over a concatenation is the sum of the two sums. */
  lemma {:induction false} SumByAppend<T>(a: seq<T>, b: seq<T>, f: T -> real)
    ensures SumBy(a + b, f) == SumBy(a, f) + SumBy(b, f)
  {
    if |a| > 0 {
      SumByAppend(a[1..], b, f);
      assert (a + b)[1..] == a[1..] + b;
    } else {
      assert a + b == b;
    }
  }

  /** A sum of differences is the difference of the sums. */
  lemma {:induction false} SumByDifference<T(!new)>(s: seq<T>, f: T -> real, g: T -> real, h: T -> real)
    requires forall x :: h(x) == f(x) - g(x)
    ensures SumBy(s, h) == SumBy(s, f) - SumBy(s, g)
  {
    if |s| > 0 {
      SumByDifference(s[1..], f, g, h);
      assert SumBy(s, h) == h(s[0]) + SumBy(s[1..], h);
      assert SumBy(s, f) == f(s[0]) + SumBy(s[1..], f);
      assert SumBy(s, g) == g(s[0]) + SumBy(s[1..], g);
      assert h(s[0]) == f(s[0]) - g(s[0]);
    }
  }

  /** `s.map((x) => p(x) ? f(x) : x)`: the elements satisfying `p` are
      replaced by their image under `f`; every other element stays. */
  function MapWhere<T>(s: seq<T>, p: T -> bool, f: T -> T): (r: seq<T>)
    ensures |r| == |s|
    ensures forall i :: 0 <= i < |s| && !p(s[i]) ==> r[i] == s[i]
    ensures forall i :: 0 <= i < |s| && p(s[i]) ==> r[i] == f(s[i])
  {
    seq(|s|, i requires 0 <= i < |s| => if p(s[i]) then f(s[i]) else s[i])
  }

  /** `d` for the elements satisfying `p`, nothing for the others. */
  function Bonus<T>(p: T -> bool, d: real): T -> real {
    (x: T) => if p(x) then d else 0.0
  }

  /** When `f` raises the summed quantity `g` by `d` on every element it
      touches, the total rises by `d` once per element satisfying `p`. */
  lemma SumByMapWhere<T(!new)>(s: seq<T>, p: T -> bool, f: T -> T, g: T -> real, d: real)
    requires forall x :: p(x) ==> g(f(x)) == g(x) + d
    ensures SumBy(MapWhere(s, p, f), g) == SumBy(s, g) + d * Count(s, p) as real
  {
    SumByMapWhereBonus(s, p, f, g, d);
    SumBonus(s, p, d);
  }

  lemma {:induction false} SumByMapWhereBonus<T(!new)>(s: seq<T>, p: T -> bool, f: T -> T, g: T -> real, d: real)
    requires forall x :: p(x) ==> g(f(x)) == g(x) + d
    ensures SumBy(MapWhere(s, p, f), g) == SumBy(s, g) + SumBy(s, Bonus(p, d))
  {
    if |s| > 0 {
      var r := MapWhere(s, p, f);
      SumByMapWhereBonus(s[1..], p, f, g, d);
      assert r[1..] == MapWhere(s[1..], p, f);
      assert g(r[0]) == g(s[0]) + Bonus(p, d)(s[0]);
    }
  }

  /** Summing the bonus gives `d` times the count. */
  lemma {:induction false} SumBonus<T>(s: seq<T>, p: T -> bool, d: real)
    ensures SumBy(s, Bonus(p, d)) == d * Count(s, p) as real
  {
    if |s| > 0 {
      var n := Count(s[1..], p);
      SumBonus(s[1..], p, d);
      if p(s[0]) {
        assert Count(s, p) == n + 1;
        assert d * (n + 1) as real == d * n as real + d;
      }
    }
  }
}

=== FILE: settings.dfy ===
/** The settings page: the per-user storage key, the CSV export of the
    transactions and the clear-data action. Storage is a map from keys to
    stored text; the confirmation dialogs are their answers. */
module Settings {
  import opened Wrappers
  import opened Seqs
  import opened Text
  import opened Calendar
  import opened Types

  // ---------------------------------------------------------------------
  // User key

  /** `.replace(/\s+/g, '-')`: every maximal whitespace run becomes one dash. */
  function CollapseSpaces(s: string): (r: string)
    ensures NoSpace(r)
    ensures |r| <= |s|
    decreases |s|
  {
    if |s| == 0 then ""
    else if IsSpace(s[0]) then "-" + CollapseSpaces(s[LeadingSpaces(s)..])
    else [s[0]] + CollapseSpaces(s[1..])
  }

  /** Collapsing adds no character but the dash. */
  lemma {:induction false} CollapseKeepsChars(s: string)
    ensures forall i :: 0 <= i < |CollapseSpaces(s)| ==> CollapseSpaces(s)[i] == '-' || CollapseSpaces(s)[i] in s
    decreases |s|
  {
    var r := CollapseSpaces(s);
    if |s| > 0 {
      var k := if IsSpace(s[0]) then LeadingSpaces(s) else 1;
      var t := s[k..];
      CollapseKeepsChars(t);
      var rt := CollapseSpaces(t);
      assert r == (if IsSpace(s[0]) then "-" else [s[0]]) + rt;
      forall i | 0 <= i < |r| && r[i] != '-'
        ensures r[i] in s
      {
        if i == 0 {
          assert r[0] == s[0];
        } else {
          assert r[i] == rt[i - 1];
          assert rt[i - 1] == '-' || rt[i - 1] in t;
          var j :| 0 <= j < |t| && t[j] == r[i];
          assert s[k + j] == r[i];
        }
      }
    }
  }

  /** The slug of a name: lower-cased, whitespace runs turned into dashes.
      A name without whitespace is only lower-cased. */
  function Slug(name: string): (r: string)
    ensures NoSpace(r) && |r| <= |name|
    ensures forall i :: 0 <= i < |r| ==> !('A' <= r[i] <= 'Z')
    ensures NoSpace(name) ==> r == ToLower(name)
  {
    var lower := ToLower(name);
    var r := CollapseSpaces(lower);
    CollapseKeepsChars(lower);
    assert NoSpace(name) ==> r == lower by {
      if NoSpace(name) {
        CollapseNoSpace(lower);
      }
    }
    assert forall i :: 0 <= i < |r| ==> !('A' <= r[i] <= 'Z') by {
      forall i | 0 <= i < |r| && r[i] != '-'
        ensures !('A' <= r[i] <= 'Z')
      {
        assert r[i] == '-' || r[i] in lower;
        var j :| 0 <= j < |lower| && lower[j] == r[i];
      }
    }
    r
  }

  /** Lower-casing a string without upper-case letters changes nothing. */
  lemma ToLowerLower(s: string)
    requires forall i :: 0 <= i < |s| ==> !('A' <= s[i] <= 'Z')
    ensures ToLower(s) == s
  {
  }

  /** A slug is its own slug. */
  lemma SlugIdempotent(name: string)
    ensures Slug(Slug(name)) == Slug(name)
  {
    ToLowerLower(Slug(name));
    CollapseNoSpace(Slug(name));
  }

  /** `userKey`: "guest" without a name (an absent or empty name reads as
      false), the slug of the name otherwise; never any whitespace. */
  function UserKey(name: Option<string>): (r: string)
    ensures NoSpace(r)
    ensures name.None? || name.value == "" ==> r == "guest"
    ensures name.Some? && name.value != "" ==> r == Slug(name.value)
  {
    if name.Some? && |name.value| > 0 then Slug(name.value) else "guest"
  }

  /** A whitespace run between a whitespace-free stretch and the rest
      becomes a single dash, whatever its length. */
  lemma CollapseRun(a: string, run: string, b: string)
    requires NoSpace(a) && |run| > 0 && forall i :: 0 <= i < |run| ==> IsSpace(run[i])
    requires |b| == 0 || !IsSpace(b[0])
    ensures CollapseSpaces(a + run + b) == a + "-" + CollapseSpaces(b)
  {
    var t, c := run + b, CollapseSpaces(b);
    assert a + run + b == a + t;
    CollapsePrefix(a, t);
    CollapseLeadingRun(run, b);
    assert CollapseSpaces(a + t) == a + ("-" + c);
    assert a + ("-" + c) == a + "-" + c;
  }

  /** A whitespace-free prefix passes through the collapse unchanged. */
  lemma {:induction false} CollapsePrefix(a: string, t: string)
    requires NoSpace(a)
    ensures CollapseSpaces(a + t) == a + CollapseSpaces(t)
    decreases |a|
  {
    if |a| == 0 {
      assert a + t == t;
    } else {
      var rest := a[1..];
      assert NoSpace(rest) by {
        forall i | 0 <= i < |rest|
          ensures !IsSpace(rest[i])
        {
          assert rest[i] == a[i + 1];
        }
      }
      CollapsePrefix(rest, t);
      CollapseKeep(a[0], rest + t);
      assert a + t == [a[0]] + (rest + t) by {
        assert a == [a[0]] + rest;
      }
      var c := CollapseSpaces(t);
      assert [a[0]] + (rest + c) == a + c by {
        assert a == [a[0]] + rest;
      }
    }
  }

  /** Whitespace-free text is unchanged. */
  lemma CollapseNoSpace(s: string)
    requires NoSpace(s)
    ensures CollapseSpaces(s) == s
  {
    CollapsePrefix(s, "");
    assert s + "" == s;
  }

  /** A non-blank first character is kept in front of the collapsed rest. */
  lemma CollapseKeep(x: char, t: string)
    requires !IsSpace(x)
    ensures CollapseSpaces([x] + t) == [x] + CollapseSpaces(t)
  {
    var s := [x] + t;
    assert s[1..] == t;
    CollapseHead(s);
  }

  /** A leading whitespace run becomes one dash. */
  lemma CollapseLeadingRun(run: string, b: string)
    requires |run| > 0 && forall i :: 0 <= i < |run| ==> IsSpace(run[i])
    requires |b| == 0 || !IsSpace(b[0])
    ensures CollapseSpaces(run + b) == "-" + CollapseSpaces(b)
  {
    var s := run + b;
    assert s[0] == run[0];
    CollapseHead(s);
    LeadingRun(run, b);
    assert s[|run|..] == b;
  }

  /** One step of the collapse: a leading run becomes a dash, any other
      character is kept. */
  lemma CollapseHead(s: string)
    requires |s| > 0
    ensures IsSpace(s[0]) ==> CollapseSpaces(s) == "-" + CollapseSpaces(s[LeadingSpaces(s)..])
    ensures !IsSpace(s[0]) ==> CollapseSpaces(s) == [s[0]] + CollapseSpaces(s[1..])
  {
  }

  /** The leading whitespace of a run followed by a non-space is the run. */
  lemma {:induction false} LeadingRun(run: string, b: string)
    requires forall i :: 0 <= i < |run| ==> IsSpace(run[i])
    requires |b| == 0 || !IsSpace(b[0])
    ensures LeadingSpaces(run + b) == |run|
    decreases |run|
  {
    if |run| > 0 {
      assert (run + b)[1..] == run[1..] + b;
      LeadingRun(run[1..], b);
    } else {
      assert run + b == b;
    }
  }

  // ---------------------------------------------------------------------
  // Storage keys

  /** The stored collections. The settings page addresses every one as
      `dompetku-<entity>-<userKey>`; the pages that write them mostly do not
      (`WrittenKey`). */
  datatype Entity = Transactions | Budgets | Subscriptions | Goals | Categories | Profile

  function EntityName(e: Entity): (r: string)
    ensures |r| > 0 && !HasChar(r, '-')
  {
    match e
    case Transactions => "transactions"
    case Budgets => "budgets"
    case Subscriptions => "subscriptions"
    case Goals => "goals"
    case Categories => "categories"
    case Profile => "profile"
  }

  const KeyPrefix: string := "dompetku-"

  /** `dompetku-<entity>-<userKey>`. */
  function StorageKey(e: Entity, userKey: string): (k: string)
    ensures StartsWith(k, KeyPrefix)
    ensures |k| == |KeyPrefix| + |EntityName(e)| + 1 + |userKey|
    ensures k[|k| - |userKey|..] == userKey && k[|k| - |userKey| - 1] == '-'
  {
    var k := KeyPrefix + EntityName(e) + "-" + userKey;
    assert k[|k| - |userKey|..] == userKey;
    k
  }

  /** The entity names tell each other apart. */
  lemma EntityNameInjective(e1: Entity, e2: Entity)
    ensures EntityName(e1) == EntityName(e2) <==> e1 == e2
  {
  }

  /** Keys of different entities or different users never collide: the
      entity names hold no dash, so the first dash after the prefix ends
      the entity. */
  lemma StorageKeyInjective(e1: Entity, u1: string, e2: Entity, u2: string)
    ensures StorageKey(e1, u1) == StorageKey(e2, u2) <==> e1 == e2 && u1 == u2
  {
    var k1 := StorageKey(e1, u1);
    var k2 := StorageKey(e2, u2);
    var a := EntityName(e1);
    var b := EntityName(e2);
    var p := |KeyPrefix|;
    assert k1 == KeyPrefix + a + "-" + u1;
    assert k2 == KeyPrefix + b + "-" + u2;
    if k1 == k2 && |a| == |b| {
      assert a == k1[p..p + |a|] == k2[p..p + |b|] == b;
      EntityNameInjective(e1, e2);
      assert u1 == k1[p + |a| + 1..] == k2[p + |b| + 1..] == u2;
    }
  }

  /** The keys `handleClearData` removes, one per entity. */
  function ClearedKeys(userKey: string): (ks: set<string>)
    ensures forall e :: StorageKey(e, userKey) in ks
    ensures forall k :: k in ks ==> exists e :: k == StorageKey(e, userKey)
  {
    var ks := {StorageKey(Transactions, userKey), StorageKey(Budgets, userKey), StorageKey(Subscriptions, userKey),
               StorageKey(Goals, userKey), StorageKey(Categories, userKey), StorageKey(Profile, userKey)};
    assert forall e :: StorageKey(e, userKey) in ks by {
      forall e
        ensures StorageKey(e, userKey) in ks
      {
        assert e.Transactions? || e.Budgets? || e.Subscriptions? || e.Goals? || e.Categories? || e.Profile?;
      }
    }
    ks
  }

  /** `handleClearData`: only when both dialogs are accepted are the six
      keys of the user removed; every other key keeps its text. */
  function ClearData(store: map<string, string>, userKey: string, first: bool, second: bool): (r: map<string, string>)
    ensures first && second ==> forall k :: k in r <==> k in store && k !in ClearedKeys(userKey)
    ensures !(first && second) ==> r == store
    ensures forall k :: k in r ==> k in store && r[k] == store[k]
  {
    if first && second then store - ClearedKeys(userKey) else store
  }

  /** Clearing one user's data keeps every key of another user. */
  lemma ClearKeepsOtherUsers(store: map<string, string>, userKey: string, other: string, e: Entity)
    requires other != userKey && StorageKey(e, other) in store
    ensures StorageKey(e, other) in ClearData(store, userKey, true, true)
  {
    forall e2 | true
      ensures StorageKey(e2, userKey) != StorageKey(e, other)
    {
      StorageKeyInjective(e2, userKey, e, other);
    }
  }

  /** The key a collection is actually written under: transactions,
      categories, budgets and goals use the bare `dompetku-<entity>`, while
      subscriptions and the profile carry the user key. */
  function WrittenKey(e: Entity, userKey: string): (k: string)
    ensures StartsWith(k, KeyPrefix)
    ensures e.Subscriptions? || e.Profile? <==> k == StorageKey(e, userKey)
  {
    if e.Subscriptions? || e.Profile? then StorageKey(e, userKey)
    else
      var bare := KeyPrefix + EntityName(e);
      assert bare != StorageKey(e, userKey) by {
        BareKeyNotStorageKey(e, e, userKey);
      }
      bare
  }

  /** A bare key is no user-suffixed key of any entity: after the prefix
      the bare key holds no dash, while a suffixed key has one right after
      its entity name. */
  lemma BareKeyNotStorageKey(e: Entity, e2: Entity, userKey: string)
    ensures KeyPrefix + EntityName(e) != StorageKey(e2, userKey)
  {
  }

  /** As written, clearing the data misses the four collections kept under
      bare keys: each keeps its text. */
  lemma ClearLeavesBareCollections(store: map<string, string>, userKey: string, e: Entity)
    requires !(e.Subscriptions? || e.Profile?)
    requires WrittenKey(e, userKey) in store
    ensures var r := ClearData(store, userKey, true, true);
      WrittenKey(e, userKey) in r && r[WrittenKey(e, userKey)] == store[WrittenKey(e, userKey)]
  {
    forall e2 | true
      ensures StorageKey(e2, userKey) != WrittenKey(e, userKey)
    {
      BareKeyNotStorageKey(e, e2, userKey);
    }
  }

  /** The keys the collections are written under, one per entity. */
  function WrittenKeys(userKey: string): (ks: set<string>)
    ensures forall e :: WrittenKey(e, userKey) in ks
    ensures forall k :: k in ks ==> exists e :: k == WrittenKey(e, userKey)
  {
    var ks := {WrittenKey(Transactions, userKey), WrittenKey(Budgets, userKey), WrittenKey(Subscriptions, userKey),
               WrittenKey(Goals, userKey), WrittenKey(Categories, userKey), WrittenKey(Profile, userKey)};
    assert forall e :: WrittenKey(e, userKey) in ks by {
      forall e
        ensures WrittenKey(e, userKey) in ks
      {
        assert e.Transactions? || e.Budgets? || e.Subscriptions? || e.Goals? || e.Categories? || e.Profile?;
      }
    }
    ks
  }

  /** Clearing as the dialog promises: after both confirmations every
      collection is gone from the keys it is written under, and every other
      key keeps its text. */
  function ClearAllData(store: map<string, string>, userKey: string, first: bool, second: bool): (r: map<string, string>)
    ensures first && second ==> forall e :: WrittenKey(e, userKey) !in r
    ensures first && second ==> forall k :: k in r <==> k in store && k !in WrittenKeys(userKey)
    ensures !(first && second) ==> r == store
    ensures forall k :: k in r ==> k in store && r[k] == store[k]
  {
    if first && second then store - WrittenKeys(userKey) else store
  }

  /** The corrected clear agrees with the page's on the two suffixed
      collections and also removes the four bare ones the page misses. */
  lemma ClearAllDataCoversClearData(store: map<string, string>, userKey: string, e: Entity)
    ensures StorageKey(e, userKey) !in ClearData(store, userKey, true, true)
    ensures WrittenKey(e, userKey) !in ClearAllData(store, userKey, true, true)
    ensures (e.Subscriptions? || e.Profile?) ==> StorageKey(e, userKey) !in ClearAllData(store, userKey, true, true)
  {
  }

  // ---------------------------------------------------------------------
  // CSV export

  /** The column names of the export. */
  const CsvColumns: seq<string> := ["Date", "Description", "Type", "Amount", "Category"]

  /** The header line: the column names joined with commas. */
  const CsvHeader: string := Join(CsvColumns, ",")

  /** The header splits back into the five column names. */
  lemma HeaderColumns()
    ensures Split(CsvHeader, ',') == CsvColumns
  {
    forall k | 0 <= k < |CsvColumns|
      ensures !HasChar(CsvColumns[k], ',')
    {
      var col := CsvColumns[k];
      forall i | 0 <= i < |col|
        ensures col[i] != ','
      {
      }
    }
    SplitJoin(CsvColumns, ',');
  }

  function TypeName(k: TxType): string {
    if k == Income then "income" else "expense"
  }

  /** The five fields of one transaction's row. A missing description is
      joined as the empty string. `showAmount` stands for the number's text
      and `showDate` for the stored date text. */
  function RowFields(tx: Transaction, showAmount: real -> string, showDate: Date -> string): (f: seq<string>)
    ensures |f| == 5
  {
    [showDate(tx.date), tx.description.GetOr(""), TypeName(tx.kind), showAmount(tx.amount), tx.categoryId]
  }

  /** `row.join(",")`: no quoting. */
  function CsvRow(tx: Transaction, showAmount: real -> string, showDate: Date -> string): string {
    Join(RowFields(tx, showAmount, showDate), ",")
  }

  /** The whole file: the header line, then one line per transaction in list order. */
  function Csv(txs: seq<Transaction>, showAmount: real -> string, showDate: Date -> string): (r: string)
    ensures StartsWith(r, CsvHeader)
  {
    var lines := [CsvHeader] + Map(txs, (tx: Transaction) => CsvRow(tx, showAmount, showDate));
    JoinStartsWithFirst(lines, "\n");
    Join(lines, "\n")
  }

  /** A join starts with its first piece. */
  lemma JoinStartsWithFirst(lines: seq<string>, sep: string)
    requires |lines| >= 1
    ensures StartsWith(Join(lines, sep), lines[0])
  {
    var j := Join(lines, sep);
    if |lines| > 1 {
      assert j == lines[0] + (sep + Join(lines[1..], sep));
    }
    assert j[..|lines[0]|] == lines[0];
  }

  /** The file's lines are the header and the rows, one per transaction in
      list order, as long as no field holds a line break. */
  lemma CsvLines(txs: seq<Transaction>, showAmount: real -> string, showDate: Date -> string)
    requires forall tx, k :: tx in txs && 0 <= k < 5 ==> !HasChar(RowFields(tx, showAmount, showDate)[k], '\n')
    ensures Split(Csv(txs, showAmount, showDate), '\n')
      == [CsvHeader] + Map(txs, (tx: Transaction) => CsvRow(tx, showAmount, showDate))
  {
    var lines := [CsvHeader] + Map(txs, (tx: Transaction) => CsvRow(tx, showAmount, showDate));
    HeaderNoBreak();
    forall k | 0 <= k < |lines|
      ensures !HasChar(lines[k], '\n')
    {
      if k > 0 {
        RowNoBreak(txs[k - 1], showAmount, showDate);
      }
    }
    SplitJoin(lines, '\n');
  }

  lemma HeaderNoBreak()
    ensures !HasChar(CsvHeader, '\n')
  {
    forall k | 0 <= k < |CsvColumns|
      ensures !HasChar(CsvColumns[k], '\n')
    {
      var col := CsvColumns[k];
      forall i | 0 <= i < |col|
        ensures col[i] != '\n'
      {
      }
    }
    JoinNoChar(CsvColumns, ",", '\n');
  }

  lemma RowNoBreak(tx: Transaction, showAmount: real -> string, showDate: Date -> string)
    requires forall k :: 0 <= k < 5 ==> !HasChar(RowFields(tx, showAmount, showDate)[k], '\n')
    ensures !HasChar(CsvRow(tx, showAmount, showDate), '\n')
  {
    JoinNoChar(RowFields(tx, showAmount, showDate), ",", '\n');
  }

  /** A five-piece join written out. */
  lemma JoinFive(a: string, b: string, c: string, d: string, e: string, sep: string)
    ensures Join([a, b, c, d, e], sep) == a + sep + (b + sep + (c + sep + (d + sep + e)))
  {
    assert [d, e][1..] == [e];
    assert Join([d, e], sep) == d + sep + e;
    assert [c, d, e][1..] == [d, e];
    assert Join([c, d, e], sep) == c + sep + (d + sep + e);
    assert [b, c, d, e][1..] == [c, d, e];
    assert Join([b, c, d, e], sep) == b + sep + (c + sep + (d + sep + e));
    assert [a, b, c, d, e][1..] == [b, c, d, e];
  }

  /** Splitting a row on commas: the date, the pieces of the description,
      then type, amount and category, when those four hold no comma. */
  lemma RowSplit(tx: Transaction, showAmount: real -> string, showDate: Date -> string)
    requires var f := RowFields(tx, showAmount, showDate);
      !HasChar(f[0], ',') && !HasChar(f[3], ',') && !HasChar(f[4], ',')
    ensures var f := RowFields(tx, showAmount, showDate);
      Split(CsvRow(tx, showAmount, showDate), ',') == [f[0]] + Split(f[1], ',') + [f[2], f[3], f[4]]
  {
    var f := RowFields(tx, showAmount, showDate);
    assert !HasChar(f[2], ',');
    JoinFive(f[0], f[1], f[2], f[3], f[4], ",");
    assert f == [f[0], f[1], f[2], f[3], f[4]];
    RowPieces(f[0], f[1], f[2], f[3], f[4]);
  }

  /** Five comma-joined fields split back into the four comma-free ones
      and the pieces of the second. */
  lemma RowPieces(a: string, b: string, c: string, d: string, e: string)
    requires !HasChar(a, ',') && !HasChar(c, ',') && !HasChar(d, ',') && !HasChar(e, ',')
    ensures Split(a + "," + (b + "," + (c + "," + (d + "," + e))), ',') == [a] + Split(b, ',') + [c, d, e]
  {
    var t2 := c + "," + (d + "," + e);
    SplitThree(c, d, e);
    var t1 := b + "," + t2;
    SplitAppend(b, t2, ',');
    SplitCons(a, t1, ',');
  }

  /** Three comma-free fields joined with commas split back into the three. */
  lemma SplitThree(c: string, d: string, e: string)
    requires !HasChar(c, ',') && !HasChar(d, ',') && !HasChar(e, ',')
    ensures Split(c + "," + (d + "," + e), ',') == [c, d, e]
  {
    SplitCons(d, e, ',');
    assert Split(d + "," + e, ',') == [d, e];
    SplitCons(c, d + "," + e, ',');
  }

  /** Without quoting, a row has exactly five fields when the description
      holds no comma, and more than five when it does. */
  lemma RowFieldCount(tx: Transaction, showAmount: real -> string, showDate: Date -> string)
    requires var f := RowFields(tx, showAmount, showDate);
      !HasChar(f[0], ',') && !HasChar(f[3], ',') && !HasChar(f[4], ',')
    ensures |Split(CsvRow(tx, showAmount, showDate), ',')| == 5 <==> !HasChar(tx.description.GetOr(""), ',')
    ensures |Split(CsvRow(tx, showAmount, showDate), ',')| > 5 <==> HasChar(tx.description.GetOr(""), ',')
    ensures !HasChar(tx.description.GetOr(""), ',') ==>
      Split(CsvRow(tx, showAmount, showDate), ',') == RowFields(tx, showAmount, showDate)
  {
    RowSplit(tx, showAmount, showDate);
    SplitSeveral(tx.description.GetOr(""), ',');
  }
}

=== FILE: sidebar.dfy ===
/** The sidebar's route highlighting: which navigation item, and whether the
    settings link, is shown as active for the current path. */
module Sidebar {
  import opened Text

  datatype NavItem = NavItem(title: string, href: string)

  const DashboardHref: string := "/dashboard"
  const SettingsHref: string := "/dashboard/settings"

  /** `navItems`, in display order. */
  const NavItems: seq<NavItem> := [
    NavItem("Dashboard", "/dashboard"),
    NavItem("Transaksi", "/dashboard/transactions"),
    NavItem("Anggaran", "/dashboard/budgets"),
    NavItem("Langganan", "/dashboard/subscriptions"),
    NavItem("Target", "/dashboard/goals")
  ]

  /** `isActive`: the exact route, or any path under it except for the
      dashboard home, which matches only exactly. The prefix test has no
      segment boundary. */
  predicate IsActive(item: NavItem, pathname: string) {
    pathname == item.href || (item.href != DashboardHref && StartsWith(pathname, item.href))
  }

  /** The settings link matches its route exactly. */
  predicate SettingsActive(pathname: string) {
    pathname == SettingsHref
  }

  /** The dashboard item is active only on the dashboard home itself. */
  lemma DashboardExact(pathname: string)
    ensures IsActive(NavItems[0], pathname) <==> pathname == DashboardHref
  {
  }

  /** Two prefixes of one path: the shorter is a prefix of the longer. */
  lemma PrefixesNest(p: string, a: string, b: string)
    requires StartsWith(p, a) && StartsWith(p, b) && |a| <= |b|
    ensures StartsWith(b, a)
  {
    assert b[..|a|] == p[..|b|][..|a|] == p[..|a|];
  }

  /** No navigation route lies under another one. */
  lemma RoutesDoNotNest(i: int, j: int)
    requires 0 <= i < |NavItems| && 0 <= j < |NavItems| && i != j
    ensures NavItems[i].href != NavItems[j].href
    ensures i != 0 && j != 0 ==> !StartsWith(NavItems[j].href, NavItems[i].href)
  {
    var hi := NavItems[i].href;
    var hj := NavItems[j].href;
    if i != 0 && j != 0 && |hi| <= |hj| {
      assert hj[|hi| - 1] != hi[|hi| - 1] || hj[|hi| - 2] != hi[|hi| - 2] || hj[11] != hi[11];
    }
  }

  /** Whatever the path, at most one navigation item is active. */
  lemma AtMostOneActive(pathname: string, i: int, j: int)
    requires 0 <= i < |NavItems| && 0 <= j < |NavItems|
    requires IsActive(NavItems[i], pathname) && IsActive(NavItems[j], pathname)
    ensures i == j
  {
    if i != j {
      RoutesDoNotNest(i, j);
      RoutesDoNotNest(j, i);
      var hi := NavItems[i].href;
      var hj := NavItems[j].href;
      if i != 0 && j != 0 {
        if |hi| <= |hj| {
          PrefixesNest(pathname, hi, hj);
        } else {
          PrefixesNest(pathname, hj, hi);
        }
      }
    }
  }

  /** On the settings route no navigation item is active, only the settings link. */
  lemma SettingsExclusive(i: int)
    requires 0 <= i < |NavItems|
    ensures !IsActive(NavItems[i], SettingsHref) && SettingsActive(SettingsHref)
  {
    var h := NavItems[i].href;
    if i != 0 {
      assert SettingsHref[11] != h[11] || SettingsHref[12] != h[12];
    }
  }

  /** A path that only shares the letters of a route still activates it:
      "/dashboard/goalsX" highlights "Target". */
  lemma PrefixWithoutBoundary()
    ensures IsActive(NavItems[4], "/dashboard/goalsX")
  {
    assert "/dashboard/goalsX"[..|"/dashboard/goals"|] == "/dashboard/goals";
  }
}

=== FILE: subscriptions.dfy ===
/** The subscriptions page: the monthly and yearly cost of the active
    subscriptions, the payments due within a week, the row flags, and the
    toggle, add, edit and delete handlers. The next billing date is the
    stored date string; `instant` decodes it into milliseconds, as
    `new Date(date).getTime()` does, and `parse` stands for `parseFloat`. */
module Subscriptions {
  import opened Wrappers
  import opened Seqs
  import opened Calendar
  import opened Forms

  datatype Cycle = Monthly | Yearly

  /** The page's own subscription record (the dashboard declares the same shape). */
  datatype Subscription = Subscription(
    id: string,
    name: string,
    amount: real,
    billingCycle: Cycle,
    nextBillingDate: string,
    icon: string,
    category: string,
    isActive: bool)

  predicate IsActive(s: Subscription) { s.isActive }

  /** `activeSubscriptions`. */
  function ActiveSubscriptions(subs: seq<Subscription>): seq<Subscription> {
    Filter(subs, IsActive)
  }

  /** What one subscription costs per month: a yearly price is spread over twelve months. */
  function MonthlyShare(s: Subscription): real {
    if s.billingCycle == Monthly then s.amount else s.amount / 12.0
  }

  /** `monthlyTotal`. */
  function MonthlyTotal(subs: seq<Subscription>): real {
    SumBy(ActiveSubscriptions(subs), MonthlyShare)
  }

  /** `yearlyTotal`. */
  function YearlyTotal(subs: seq<Subscription>): real {
    MonthlyTotal(subs) * 12.0
  }

  /** The amount an active subscription bills monthly, zero otherwise. */
  function BilledMonthly(s: Subscription): real {
    if s.isActive && s.billingCycle == Monthly then s.amount else 0.0
  }

  /** The amount an active subscription bills yearly, zero otherwise. */
  function BilledYearly(s: Subscription): real {
    if s.isActive && s.billingCycle == Yearly then s.amount else 0.0
  }

  /** The monthly total is the active monthly amounts plus a twelfth of the
      active yearly amounts; inactive subscriptions contribute nothing. */
  lemma {:induction false} MonthlyTotalSplit(subs: seq<Subscription>)
    ensures MonthlyTotal(subs) == SumBy(subs, BilledMonthly) + SumBy(subs, BilledYearly) / 12.0
  {
    if |subs| > 0 {
      MonthlyTotalSplit(subs[1..]);
      var s := subs[0];
      if s.isActive {
        assert ActiveSubscriptions(subs) == [s] + ActiveSubscriptions(subs[1..]);
        assert ([s] + ActiveSubscriptions(subs[1..]))[1..] == ActiveSubscriptions(subs[1..]);
      }
    }
  }

  /** In exact arithmetic the yearly total is twelve times the monthly
      amounts plus the yearly amounts. */
  lemma YearlyTotalSplit(subs: seq<Subscription>)
    ensures YearlyTotal(subs) == 12.0 * SumBy(subs, BilledMonthly) + SumBy(subs, BilledYearly)
  {
    MonthlyTotalSplit(subs);
  }

  // ---------------------------------------------------------------------
  // Due dates

  /** `getDaysUntil`: whole days from now to the next billing, rounded up. */
  function DaysUntilBilling(s: Subscription, instant: string -> int, nowMs: int): (d: int)
    ensures (d - 1) * MsPerDay < instant(s.nextBillingDate) - nowMs <= d * MsPerDay
  {
    DaysUntil(instant(s.nextBillingDate), nowMs)
  }

  predicate DueWithinWeek(s: Subscription, instant: string -> int, nowMs: int) {
    0 <= DaysUntilBilling(s, instant, nowMs) <= 7
  }

  /** An active subscription billed within the next seven days. */
  function PaysThisWeek(instant: string -> int, nowMs: int): Subscription -> bool {
    (s: Subscription) => s.isActive && DueWithinWeek(s, instant, nowMs)
  }

  /** `upcomingPayments`: exactly the active subscriptions billed within the
      next seven days, every copy of them, in list order. */
  function UpcomingPayments(subs: seq<Subscription>, instant: string -> int, nowMs: int): (r: seq<Subscription>)
    ensures forall s :: s in r <==> s in subs && s.isActive && DueWithinWeek(s, instant, nowMs)
    ensures forall s :: s in r ==> -MsPerDay < instant(s.nextBillingDate) - nowMs <= 7 * MsPerDay
    ensures IsSubsequence(r, subs)
    ensures |r| == Count(subs, PaysThisWeek(instant, nowMs))
  {
    var active := ActiveSubscriptions(subs);
    var r := Filter(active, (s: Subscription) => DueWithinWeek(s, instant, nowMs));
    SubsequenceTrans(r, active, subs);
    FilterFilter(subs, IsActive, (s: Subscription) => DueWithinWeek(s, instant, nowMs), PaysThisWeek(instant, nowMs));
    CountIsFilterLength(subs, PaysThisWeek(instant, nowMs));
    r
  }

  /** The urgency flags of one row. */
  datatype RowFlags = RowFlags(daysUntil: int, isUrgent: bool, isPast: bool)

  function FlagsOf(s: Subscription, instant: string -> int, nowMs: int): (f: RowFlags)
    ensures f.daysUntil == DaysUntilBilling(s, instant, nowMs)
    ensures f.isUrgent <==> 0 <= f.daysUntil <= 3
    ensures f.isPast <==> f.daysUntil < 0
    ensures !(f.isUrgent && f.isPast)
    ensures f.isPast <==> instant(s.nextBillingDate) - nowMs <= -MsPerDay
  {
    var d := DaysUntilBilling(s, instant, nowMs);
    RowFlags(d, d <= 3 && d >= 0, d < 0)
  }

  // ---------------------------------------------------------------------
  // Handlers

  /** Flips the active flag of a subscription. */
  function Flip(s: Subscription): Subscription {
    s.(isActive := !s.isActive)
  }

  function HasId(id: string): Subscription -> bool {
    (s: Subscription) => s.id == id
  }

  /** `toggleActive`: the subscriptions with the id change their active flag
      and nothing else; every other subscription is untouched. */
  function ToggleActive(subs: seq<Subscription>, id: string): (r: seq<Subscription>)
    ensures |r| == |subs|
    ensures forall i :: 0 <= i < |subs| && subs[i].id == id ==>
      r[i].isActive == !subs[i].isActive && r[i].(isActive := subs[i].isActive) == subs[i]
    ensures forall i :: 0 <= i < |subs| && subs[i].id != id ==> r[i] == subs[i]
  {
    MapWhere(subs, HasId(id), Flip)
  }

  /** Toggling the same id twice restores the list. */
  lemma ToggleTwice(subs: seq<Subscription>, id: string)
    ensures ToggleActive(ToggleActive(subs, id), id) == subs
  {
    var r := ToggleActive(ToggleActive(subs, id), id);
    assert forall i :: 0 <= i < |subs| ==> r[i] == subs[i];
  }

  /** The subscription modal's input fields. */
  datatype SubscriptionForm = SubscriptionForm(
    name: string,
    amount: string,
    cycle: Cycle,
    date: string,
    icon: string,
    category: string)

  /** A new subscription goes at the end and starts active. */
  function AddSubscription(subs: seq<Subscription>, form: SubscriptionForm, parse: string -> real,
                           freshId: string): (r: seq<Subscription>)
    ensures |r| == |subs| + 1 && r[..|subs|] == subs
    ensures r[|subs|].id == freshId && r[|subs|].isActive
    ensures r[|subs|].name == form.name && r[|subs|].amount == parse(form.amount)
    ensures r[|subs|].billingCycle == form.cycle && r[|subs|].nextBillingDate == form.date
    ensures r[|subs|].icon == form.icon && r[|subs|].category == form.category
  {
    subs + [Subscription(freshId, form.name, parse(form.amount), form.cycle, form.date, form.icon, form.category, true)]
  }

  /** An edit rewrites every field of the subscriptions with the id except
      the id and the active flag; other subscriptions are untouched. */
  function EditSubscription(subs: seq<Subscription>, id: string, form: SubscriptionForm,
                            parse: string -> real): (r: seq<Subscription>)
    ensures |r| == |subs|
    ensures forall i :: 0 <= i < |subs| ==> r[i].id == subs[i].id && r[i].isActive == subs[i].isActive
    ensures forall i :: 0 <= i < |subs| && subs[i].id != id ==> r[i] == subs[i]
    ensures forall i :: 0 <= i < |subs| && subs[i].id == id ==>
      r[i].name == form.name && r[i].amount == parse(form.amount) && r[i].billingCycle == form.cycle
      && r[i].nextBillingDate == form.date && r[i].icon == form.icon && r[i].category == form.category
  {
    MapWhere(subs, HasId(id), (s: Subscription) => s.(name := form.name, amount := parse(form.amount),
      billingCycle := form.cycle, nextBillingDate := form.date, icon := form.icon, category := form.category))
  }

  /** `handleDelete`: after confirmation exactly the subscriptions with the id
      go, the rest keep their order; without it nothing changes. */
  function DeleteSubscription(subs: seq<Subscription>, id: string, confirmed: bool): (r: seq<Subscription>)
    ensures confirmed ==> forall s :: s in r <==> s in subs && s.id != id
    ensures IsSubsequence(r, subs)
    ensures confirmed ==> |r| == Count(subs, (s: Subscription) => s.id != id)
    ensures !confirmed ==> r == subs
  {
    if confirmed then
      CountIsFilterLength(subs, (s: Subscription) => s.id != id);
      Filter(subs, (s: Subscription) => s.id != id)
    else
      SubsequenceRefl(subs);
      subs
  }

  /** `handleSubmit`: nothing happens while the name, amount or date is
      empty; otherwise the subscription being edited is rewritten, or a new
      active one is added. */
  function SubmitSubscription(subs: seq<Subscription>, editingId: Option<string>, form: SubscriptionForm,
                              parse: string -> real, freshId: string): (r: seq<Subscription>)
    ensures !Filled(form.name) || !Filled(form.amount) || !Filled(form.date) ==> r == subs
    ensures Filled(form.name) && Filled(form.amount) && Filled(form.date) && HoldsId(editingId) ==>
      r == EditSubscription(subs, editingId.value, form, parse)
    ensures Filled(form.name) && Filled(form.amount) && Filled(form.date) && !HoldsId(editingId) ==>
      r == AddSubscription(subs, form, parse, freshId)
      && |r| == |subs| + 1 && r[|subs|].id == freshId && r[|subs|].isActive
  {
    if !Filled(form.name) || !Filled(form.amount) || !Filled(form.date) then subs
    else if HoldsId(editingId) then EditSubscription(subs, editingId.value, form, parse)
    else AddSubscription(subs, form, parse, freshId)
  }
}

=== FILE: text.dfy ===
/** String operations the application borrows from JavaScript, restricted to
    ASCII: whitespace tests, `toLowerCase`, `trim`, `split`, `join`,
    `includes`, `startsWith` and the decimal rendering of a count. */
module Text {

  /** The ASCII members of JavaScript's whitespace class `\s`: space, tab,
      line feed, vertical tab, form feed and carriage return. */
  predicate IsSpace(c: char) {
    c == ' ' || (9 <= c as int <= 13)
  }

  predicate NoSpace(s: string) {
    forall i :: 0 <= i < |s| ==> !IsSpace(s[i])
  }

  /** ASCII `toLowerCase` of one character. */
  function LowerChar(c: char): (r: char)
    ensures 'A' <= c <= 'Z' ==> r as int == c as int + 32
    ensures !('A' <= c <= 'Z') ==> r == c
    ensures IsSpace(r) <==> IsSpace(c)
  {
    if 'A' <= c <= 'Z' then (c as int + 32) as char else c
  }

  /** ASCII `toLowerCase`: the string keeps its length, each upper-case
      letter becomes its lower-case partner, every other character stays,
      and so no upper-case letter remains. */
  function ToLower(s: string): (r: string)
    ensures |r| == |s|
    ensures forall i :: 0 <= i < |s| ==>
      ('A' <= s[i] <= 'Z' ==> r[i] as int == s[i] as int + 32) && (!('A' <= s[i] <= 'Z') ==> r[i] == s[i])
    ensures forall i :: 0 <= i < |r| ==> !('A' <= r[i] <= 'Z')
    ensures forall i :: 0 <= i < |r| ==> (IsSpace(r[i]) <==> IsSpace(s[i]))
  {
    seq(|s|, i requires 0 <= i < |s| => LowerChar(s[i]))
  }

  /** Number of whitespace characters at the start of `s`. */
  function LeadingSpaces(s: string): (n: nat)
    ensures n <= |s|
    ensures forall k :: 0 <= k < n ==> IsSpace(s[k])
    ensures n == |s| || !IsSpace(s[n])
  {
    if |s| > 0 && IsSpace(s[0]) then 1 + LeadingSpaces(s[1..]) else 0
  }

  /** Number of whitespace characters at the end of `s`. */
  function TrailingSpaces(s: string): (n: nat)
    ensures n <= |s|
    ensures forall k :: |s| - n <= k < |s| ==> IsSpace(s[k])
    ensures n == |s| || !IsSpace(s[|s| - n - 1])
  {
    if |s| > 0 && IsSpace(s[|s| - 1]) then 1 + TrailingSpaces(s[..|s| - 1]) else 0
  }

  /** No whitespace at either end. */
  predicate IsTrimmed(s: string) {
    |s| == 0 || (!IsSpace(s[0]) && !IsSpace(s[|s| - 1]))
  }

  /** `String.prototype.trim`: `s` without its leading and trailing whitespace. */
  function Trim(s: string): (r: string)
    ensures IsTrimmed(r)
    ensures exists i :: OccursAt(s, r, i) && Blank(s[..i]) && Blank(s[i + |r|..])
  {
    var i := LeadingSpaces(s);
    var n := TrailingSpaces(s[i..]);
    TrailingOfSuffix(s, i);
    TrimShape(s, i, n);
    s[i..|s| - n]
  }

  /** The trailing blanks of a suffix, counted in the whole string. */
  lemma TrailingOfSuffix(s: string, i: nat)
    requires i <= |s|
    ensures var n := TrailingSpaces(s[i..]);
      i + n <= |s| && (forall k :: |s| - n <= k < |s| ==> IsSpace(s[k]))
      && (n == |s| - i || !IsSpace(s[|s| - n - 1]))
  {
    var t := s[i..];
    var n := TrailingSpaces(t);
    forall k | |s| - n <= k < |s|
      ensures IsSpace(s[k])
    {
      assert s[k] == t[k - i];
    }
    if n < |s| - i {
      assert s[|s| - n - 1] == t[|t| - n - 1];
    }
  }

  /** Cutting `i` blanks off the front and `n` off the back, stopping at
      the first non-blank on each side, leaves a trimmed middle. */
  lemma TrimShape(s: string, i: nat, n: nat)
    requires i + n <= |s|
    requires forall k :: 0 <= k < i ==> IsSpace(s[k])
    requires i == |s| || !IsSpace(s[i])
    requires forall k :: |s| - n <= k < |s| ==> IsSpace(s[k])
    requires n == |s| - i || !IsSpace(s[|s| - n - 1])
    ensures IsTrimmed(s[i..|s| - n])
    ensures OccursAt(s, s[i..|s| - n], i) && Blank(s[..i]) && Blank(s[|s| - n..])
  {
    var r := s[i..|s| - n];
    if |r| > 0 {
      assert r[0] == s[i];
      assert r[|r| - 1] == s[|s| - n - 1];
    }
    var tail := s[|s| - n..];
    forall k | 0 <= k < |tail|
      ensures IsSpace(tail[k])
    {
      assert tail[k] == s[|s| - n + k];
    }
  }

  /** Nothing but whitespace. */
  predicate Blank(s: string) {
    forall k :: 0 <= k < |s| ==> IsSpace(s[k])
  }

  /** `needle` occurs in `haystack` starting at offset `i`. */
  predicate OccursAt(haystack: string, needle: string, i: int) {
    0 <= i <= |haystack| - |needle| && haystack[i..i + |needle|] == needle
  }

  /** A string with no whitespace at either end is its own trim. */
  lemma TrimTrimmed(s: string)
    requires IsTrimmed(s)
    ensures Trim(s) == s
  {
    assert LeadingSpaces(s) == 0;
    assert TrailingSpaces(s) == 0;
  }

  /** Trimming a trimmed string with one space in front of it gives the string back. */
  lemma TrimAfterSpace(s: string)
    requires IsTrimmed(s)
    ensures Trim(" " + s) == s
  {
    var u := " " + s;
    assert u[1..] == s;
    if |s| == 0 {
      assert LeadingSpaces(u) == 1;
    } else {
      assert LeadingSpaces(u[1..]) == 0;
      assert LeadingSpaces(u) == 1;
      assert TrailingSpaces(s) == 0;
    }
  }

  /** `s` contains the character `c`. */
  predicate HasChar(s: string, c: char) {
    exists i :: 0 <= i < |s| && s[i] == c
  }

  /** Position of the first `c` in `s`. */
  function IndexOf(s: string, c: char): (i: nat)
    requires HasChar(s, c)
    ensures i < |s| && s[i] == c
    ensures !HasChar(s[..i], c)
  {
    if s[0] == c then 0
    else
      assert HasChar(s[1..], c) by {
        var k :| 0 <= k < |s| && s[k] == c;
        assert s[1..][k - 1] == c;
      }
      var j := IndexOf(s[1..], c);
      assert s[..j + 1] == [s[0]] + s[1..][..j];
      1 + j
  }

  /** `String.prototype.split` on a one-character separator: the maximal
      separator-free pieces, always at least one (`"".split(",")` is `[""]`). */
  function Split(s: string, c: char): (r: seq<string>)
    ensures |r| >= 1
    ensures forall k :: 0 <= k < |r| ==> !HasChar(r[k], c)
    decreases |s|
  {
    if HasChar(s, c) then
      var i := IndexOf(s, c);
      [s[..i]] + Split(s[i + 1..], c)
    else
      [s]
  }

  /** `Array.prototype.join`: the pieces with `sep` between neighbours. */
  function Join(parts: seq<string>, sep: string): string
  {
    if |parts| == 0 then ""
    else if |parts| == 1 then parts[0]
    else parts[0] + sep + Join(parts[1..], sep)
  }

  /** Splitting at the first separator: the prefix before it and the rest after it. */
  lemma SplitCons(a: string, b: string, c: char)
    requires !HasChar(a, c)
    ensures Split(a + [c] + b, c) == [a] + Split(b, c)
  {
    var s := a + [c] + b;
    assert s[|a|] == c;
    var i := IndexOf(s, c);
    assert i == |a|;
    assert s[..i] == a;
    assert s[i + 1..] == b;
  }

  /** Joining separator-free pieces and splitting again gives the pieces back. */
  lemma {:induction false} SplitJoin(parts: seq<string>, c: char)
    requires |parts| >= 1
    requires forall k :: 0 <= k < |parts| ==> !HasChar(parts[k], c)
    ensures Split(Join(parts, [c]), c) == parts
  {
    if |parts| == 1 {
    } else {
      SplitJoin(parts[1..], c);
      assert Join(parts, [c]) == parts[0] + [c] + Join(parts[1..], [c]);
      SplitCons(parts[0], Join(parts[1..], [c]), c);
      assert parts == [parts[0]] + parts[1..];
    }
  }

  /** Splitting and joining again with the same separator gives the string back. */
  lemma {:induction false} JoinSplit(s: string, c: char)
    ensures Join(Split(s, c), [c]) == s
    decreases |s|
  {
    if HasChar(s, c) {
      var i := IndexOf(s, c);
      var rest := Split(s[i + 1..], c);
      JoinSplit(s[i + 1..], c);
      assert Split(s, c) == [s[..i]] + rest;
      assert Join(Split(s, c), [c]) == s[..i] + [c] + Join(rest, [c]);
      assert s == s[..i] + [c] + s[i + 1..];
    }
  }

  /** Splitting at a separator splits both sides independently. */
  lemma SplitAppend(a: string, b: string, c: char)
    ensures Split(a + [c] + b, c) == Split(a, c) + Split(b, c)
  {
    var p, q := Split(a, c), Split(b, c);
    JoinSplit(a, c);
    JoinSplit(b, c);
    JoinAppend(p, q, [c]);
    assert a + [c] + b == Join(p + q, [c]);
    assert forall k :: 0 <= k < |p + q| ==> !HasChar((p + q)[k], c) by {
      forall k | 0 <= k < |p + q|
        ensures !HasChar((p + q)[k], c)
      {
        if k < |p| {
          assert (p + q)[k] == p[k];
        } else {
          assert (p + q)[k] == q[k - |p|];
        }
      }
    }
    SplitJoin(p + q, c);
  }

  /** Joining two non-empty lists of pieces puts one separator between their joins. */
  lemma {:induction false} JoinAppend(p: seq<string>, q: seq<string>, sep: string)
    requires |p| >= 1 && |q| >= 1
    ensures Join(p + q, sep) == Join(p, sep) + sep + Join(q, sep)
  {
    assert (p + q)[0] == p[0];
    if |p| == 1 {
      assert (p + q)[1..] == q;
    } else {
      JoinAppend(p[1..], q, sep);
      assert (p + q)[1..] == p[1..] + q;
    }
  }

  /** Joining pieces free of `c` with a separator free of `c` gives a string free of `c`. */
  lemma {:induction false} JoinNoChar(parts: seq<string>, sep: string, c: char)
    requires forall k :: 0 <= k < |parts| ==> !HasChar(parts[k], c)
    requires !HasChar(sep, c)
    ensures !HasChar(Join(parts, sep), c)
  {
    if |parts| > 1 {
      JoinNoChar(parts[1..], sep, c);
      var rest := Join(parts[1..], sep);
      var j := parts[0] + sep + rest;
      forall i | 0 <= i < |j|
        ensures j[i] != c
      {
        if i < |parts[0]| {
          assert j[i] == parts[0][i];
        } else if i < |parts[0]| + |sep| {
          assert j[i] == sep[i - |parts[0]|];
        } else {
          assert j[i] == rest[i - |parts[0]| - |sep|];
        }
      }
    }
  }

  /** A string holding the separator splits into at least two pieces. */
  lemma SplitSeveral(s: string, c: char)
    ensures |Split(s, c)| >= 2 <==> HasChar(s, c)
  {
  }

  /** `haystack.startsWith(prefix)`. */
  predicate StartsWith(haystack: string, prefix: string) {
    |prefix| <= |haystack| && haystack[..|prefix|] == prefix
  }

  /** `haystack.includes(needle)`: some suffix of `haystack` starts with `needle`. */
  predicate Contains(haystack: string, needle: string)
    decreases |haystack|
  {
    StartsWith(haystack, needle) || (|haystack| > 0 && Contains(haystack[1..], needle))
  }

  /** `includes` agrees with the usual definition: `needle` occurs at some offset. */
  lemma {:induction false} ContainsAt(haystack: string, needle: string)
    ensures Contains(haystack, needle) <==> exists i :: OccursAt(haystack, needle, i)
    decreases |haystack|
  {
    if StartsWith(haystack, needle) {
      assert OccursAt(haystack, needle, 0);
    }
    if |haystack| > 0 {
      ContainsAt(haystack[1..], needle);
      if Contains(haystack[1..], needle) {
        var i :| OccursAt(haystack[1..], needle, i);
        assert haystack[i + 1..i + 1 + |needle|] == needle;
        assert OccursAt(haystack, needle, i + 1);
      }
      if exists i :: OccursAt(haystack, needle, i) {
        var i :| OccursAt(haystack, needle, i);
        if i > 0 {
          assert haystack[1..][i - 1..i - 1 + |needle|] == needle;
          assert OccursAt(haystack[1..], needle, i - 1);
        } else {
          assert StartsWith(haystack, needle);
        }
      }
    }
  }

  /** The empty string is found in every string. */
  lemma ContainsEmpty(haystack: string)
    ensures Contains(haystack, "")
  {
  }

  function DigitChar(d: nat): (c: char)
    requires d < 10
    ensures '0' <= c <= '9'
  {
    ('0' as int + d) as char
  }

  /** Decimal rendering of a natural number, as JavaScript's template
      literals print a non-negative integer. */
  function ShowNat(n: nat): (r: string)
    ensures |r| >= 1
    ensures forall i :: 0 <= i < |r| ==> '0' <= r[i] <= '9'
    ensures |r| > 1 ==> r[0] != '0'
  {
    if n < 10 then [DigitChar(n)] else ShowNat(n / 10) + [DigitChar(n % 10)]
  }

  /** Value of a string of decimal digits. */
  function DigitsValue(s: string): nat
    requires forall i :: 0 <= i < |s| ==> '0' <= s[i] <= '9'
  {
    if |s| == 0 then 0
    else 10 * DigitsValue(s[..|s| - 1]) + (s[|s| - 1] as int - '0' as int)
  }

  /** Reading the decimal rendering back gives the number. */
  lemma {:induction false} ShowNatValue(n: nat)
    ensures DigitsValue(ShowNat(n)) == n
  {
    if n >= 10 {
      ShowNatValue(n / 10);
      var s := ShowNat(n);
      assert s[..|s| - 1] == ShowNat(n / 10);
    }
  }
}

=== FILE: transactions_page.dfy ===
/** The transactions page: the search, type and category filters, the totals
    of what is shown, the category pills, the tag field and the submit
    handler that adds or updates a record. `parse` stands for `parseFloat`
    and `decode` for reading the date field into a calendar date. */
module TransactionsPage {
  import opened Wrappers
  import opened Seqs
  import opened Text
  import opened Calendar
  import opened Types
  import opened Ledger
  import opened Forms

  /** The type buttons: every type, or one. */
  datatype TypeFilter = All | Only(kind: TxType)

  /** The category pill that shows every category. */
  const AllCategories: string := "Semua"

  /** The page's three filters. */
  datatype Criteria = Criteria(query: string, kind: TypeFilter, category: string)

  /** A record without a description never matches, whatever the query;
      otherwise the query must occur in it, ignoring case. */
  predicate MatchesSearch(tx: Transaction, query: string) {
    tx.description.Some? && Contains(ToLower(tx.description.value), ToLower(query))
  }

  predicate MatchesType(tx: Transaction, f: TypeFilter) {
    f.All? || tx.kind == f.kind
  }

  /** The pill matches the category name found for the record, if any. */
  predicate MatchesCategory(name: Option<string>, pill: string) {
    pill == AllCategories || (name.Some? && name.value == pill)
  }

  // ---------------------------------------------------------------------
  // The filter

  /** The name of the record's category. The page's records come joined
      with the category found by their id, so this is that lookup. */
  function CategoryNameOf(cats: seq<Category>, tx: Transaction): Option<string> {
    match CategoryById(cats, tx.categoryId)
    case None => None
    case Some(cat) => Some(cat.name)
  }

  function Shown(cats: seq<Category>, c: Criteria): Transaction -> bool {
    (tx: Transaction) => MatchesSearch(tx, c.query) && MatchesType(tx, c.kind)
      && MatchesCategory(CategoryNameOf(cats, tx), c.category)
  }

  /** The filtered list with the category looked up by id: exactly the
      records that pass all three filters, in ledger order. */
  function FilterTransactions(txs: seq<Transaction>, cats: seq<Category>, c: Criteria): (r: seq<Transaction>)
    ensures forall tx :: tx in r <==>
      tx in txs && MatchesSearch(tx, c.query) && MatchesType(tx, c.kind)
      && (c.category == AllCategories
          || (CategoryById(cats, tx.categoryId).Some? && CategoryById(cats, tx.categoryId).value.name == c.category))
    ensures IsSubsequence(r, txs)
    ensures |r| == Count(txs, Shown(cats, c))
  {
    CountIsFilterLength(txs, Shown(cats, c));
    Filter(txs, Shown(cats, c))
  }

  /** The category pills at work: a food expense shows under "Makanan" and
      under "Semua", and not under "Transportasi". */
  lemma CategoryPillExample()
    ensures
      var food := Category("food", "Makanan", "utensils", "#ef4444", Expense, None);
      var tx := Transaction("t", "food", 25000.0, Expense, Date(2024, 2, 5), Some("Makan siang"), [], 0);
      FilterTransactions([tx], [food], Criteria("", All, "Makanan")) == [tx]
      && FilterTransactions([tx], [food], Criteria("", All, AllCategories)) == [tx]
      && FilterTransactions([tx], [food], Criteria("", All, "Transportasi")) == []
  {
    var tx := Transaction("t", "food", 25000.0, Expense, Date(2024, 2, 5), Some("Makan siang"), [], 0);
    ContainsEmpty(ToLower("Makan siang"));
    assert [tx][1..] == [];
  }

  /** With no query, every type and the "Semua" pill, the page lists
      exactly the records that have a description. */
  lemma EmptyQueryShowsDescribed(txs: seq<Transaction>, cats: seq<Category>)
    ensures forall tx :: tx in FilterTransactions(txs, cats, Criteria("", All, AllCategories)) <==>
      tx in txs && tx.description.Some?
  {
    forall tx | tx in txs && tx.description.Some?
      ensures MatchesSearch(tx, "")
    {
      ContainsEmpty(ToLower(tx.description.value));
    }
  }

  // ---------------------------------------------------------------------
  // Totals and pills

  /** The three summary figures above the list. */
  datatype PageTotals = PageTotals(income: real, expense: real, balance: real)

  /** `totalIncome`, `totalExpense` and `balance` of the shown records: the
      balance is the running balance of the list. */
  function Totals(shown: seq<Transaction>): (t: PageTotals)
    ensures t.income == SumAmounts(OfKind(shown, Income))
    ensures t.expense == SumAmounts(OfKind(shown, Expense))
    ensures t.balance == Balance(shown)
  {
    BalanceIsIncomeMinusExpense(shown);
    var income := SumAmounts(OfKind(shown, Income));
    var expense := SumAmounts(OfKind(shown, Expense));
    PageTotals(income, expense, income - expense)
  }

  /** With one type selected, the other type's total is zero. */
  lemma OneTypeTotals(txs: seq<Transaction>, cats: seq<Category>, c: Criteria)
    requires c.kind.Only?
    ensures var t := Totals(FilterTransactions(txs, cats, c));
      (c.kind.kind == Income ==> t.expense == 0.0 && t.balance == t.income)
      && (c.kind.kind == Expense ==> t.income == 0.0 && t.balance == -t.expense)
  {
    var shown := FilterTransactions(txs, cats, c);
    var other := if c.kind.kind == Income then Expense else Income;
    var none := OfKind(shown, other);
    if |none| > 0 {
      assert none[0] in none;
    }
  }

  /** `categoryNames.slice(0, 8)`: "Semua" first, then the category names in
      order, at most eight pills in all. */
  function CategoryPills(cats: seq<Category>): (r: seq<string>)
    ensures |r| == if |cats| + 1 < 8 then |cats| + 1 else 8
    ensures r[0] == AllCategories
    ensures forall i :: 1 <= i < |r| ==> r[i] == cats[i - 1].name
  {
    Take([AllCategories] + Map(cats, (cat: Category) => cat.name), 8)
  }

  // ---------------------------------------------------------------------
  // Tags

  predicate NonEmpty(t: string) { |t| > 0 }

  /** A tag as the page stores it: non-empty, trimmed and without a comma. */
  predicate WellFormedTags(tags: seq<string>) {
    forall t :: t in tags ==> NonEmpty(t) && IsTrimmed(t) && !HasChar(t, ',')
  }

  /** A piece of a comma-free string is comma-free. */
  lemma PieceHasNoChar(s: string, piece: string, i: int, c: char)
    requires OccursAt(s, piece, i) && !HasChar(s, c)
    ensures !HasChar(piece, c)
  {
  }

  /** `formTags.split(",").map(t => t.trim()).filter(Boolean)`. */
  function ParseTags(field: string): (tags: seq<string>)
    ensures WellFormedTags(tags)
  {
    var pieces := Split(field, ',');
    var trimmed := Map(pieces, Trim);
    assert forall k :: 0 <= k < |trimmed| ==> !HasChar(trimmed[k], ',') by {
      forall k | 0 <= k < |trimmed|
        ensures !HasChar(trimmed[k], ',')
      {
        var i :| OccursAt(pieces[k], trimmed[k], i);
        PieceHasNoChar(pieces[k], trimmed[k], i, ',');
      }
    }
    Filter(trimmed, NonEmpty)
  }

  /** Every tag with a space in front. */
  function Spaced(tags: seq<string>): (r: seq<string>)
    ensures |r| == |tags| && forall i :: 0 <= i < |r| ==> r[i] == " " + tags[i]
  {
    Map(tags, (t: string) => " " + t)
  }

  /** Joining with ", " is joining the spaced tags with ",". */
  lemma {:induction false} JoinSpaced(tags: seq<string>)
    requires |tags| >= 1
    ensures " " + Join(tags, ", ") == Join(Spaced(tags), ",")
  {
    if |tags| > 1 {
      JoinSpaced(tags[1..]);
      assert Spaced(tags)[1..] == Spaced(tags[1..]);
      assert " " + Join(tags, ", ") == (" " + tags[0]) + "," + (" " + Join(tags[1..], ", "));
    }
  }

  /** The pieces that splitting `Join(tags, ", ")` on commas gives: the
      first tag, then every other tag with a space in front. */
  function TagPieces(tags: seq<string>): (r: seq<string>)
    requires |tags| >= 1
    ensures |r| == |tags| && r[0] == tags[0]
    ensures forall k :: 1 <= k < |r| ==> r[k] == " " + tags[k]
  {
    [tags[0]] + Spaced(tags[1..])
  }

  lemma JoinTagPieces(tags: seq<string>)
    requires |tags| >= 1
    ensures Join(tags, ", ") == Join(TagPieces(tags), ",")
  {
    if |tags| > 1 {
      var pieces := TagPieces(tags);
      var rest := Join(tags[1..], ", ");
      JoinSpaced(tags[1..]);
      assert pieces[1..] == Spaced(tags[1..]);
      assert Join(pieces, ",") == tags[0] + "," + Join(pieces[1..], ",");
      assert Join(pieces, ",") == tags[0] + "," + (" " + rest);
      assert Join(tags, ", ") == tags[0] + ", " + rest;
      Regroup(tags[0], rest);
    }
  }

  lemma Regroup(a: string, b: string)
    ensures a + "," + (" " + b) == a + ", " + b
  {
    assert "," + " " == ", ";
    assert a + "," + (" " + b) == a + ("," + " ") + b;
  }

  lemma SplitTagPieces(tags: seq<string>)
    requires |tags| >= 1 && WellFormedTags(tags)
    ensures Split(Join(tags, ", "), ',') == TagPieces(tags)
  {
    var pieces := TagPieces(tags);
    JoinTagPieces(tags);
    forall k | 0 <= k < |pieces|
      ensures !HasChar(pieces[k], ',')
    {
      assert tags[k] in tags;
      if k > 0 {
        assert pieces[k][1..] == tags[k];
      }
    }
    SplitJoin(pieces, ',');
  }

  lemma TrimTagPieces(tags: seq<string>)
    requires |tags| >= 1 && WellFormedTags(tags)
    ensures Map(TagPieces(tags), Trim) == tags
  {
    var pieces := TagPieces(tags);
    var trimmed := Map(pieces, Trim);
    forall k | 0 <= k < |tags|
      ensures trimmed[k] == tags[k]
    {
      assert tags[k] in tags;
      if k == 0 {
        TrimTrimmed(tags[0]);
      } else {
        TrimAfterSpace(tags[k]);
      }
    }
  }

  /** The edit modal shows the tags joined by ", " and saving parses them
      back: well-formed tags survive the round trip unchanged. */
  lemma ParseTagsJoin(tags: seq<string>)
    requires WellFormedTags(tags)
    ensures ParseTags(Join(tags, ", ")) == tags
  {
    if |tags| == 0 {
      assert !HasChar("", ',');
      assert Map([""], Trim) == [""];
    } else {
      SplitTagPieces(tags);
      TrimTagPieces(tags);
      FilterAll(tags, NonEmpty);
    }
  }

  /** Parsing what the edit modal shows gives the same tags again. */
  lemma ParseTagsIdempotent(field: string)
    ensures ParseTags(Join(ParseTags(field), ", ")) == ParseTags(field)
  {
    ParseTagsJoin(ParseTags(field));
  }

  // ---------------------------------------------------------------------
  // Submit

  /** The modal's input fields; the date field holds text. */
  datatype TransactionForm = TransactionForm(
    kind: TxType,
    amount: string,
    description: string,
    categoryId: string,
    date: string,
    tags: string)

  /** `transactionData`: the record fields the form stands for. */
  function DraftOf(form: TransactionForm, parse: string -> real, decode: string -> Date): TransactionDraft {
    TransactionDraft(parse(form.amount), form.kind, Some(form.description), form.categoryId,
                     decode(form.date), ParseTags(form.tags))
  }

  /** `handleSubmit`: nothing happens while the amount, description or
      category is empty; otherwise the record being edited takes the form's
      fields, or a new record goes in front. */
  function SubmitTransaction(txs: seq<Transaction>, editingId: Option<string>, form: TransactionForm,
                             parse: string -> real, decode: string -> Date,
                             freshId: string, nowMs: int): (r: seq<Transaction>)
    ensures !Filled(form.amount) || !Filled(form.description) || !Filled(form.categoryId) ==> r == txs
    ensures Filled(form.amount) && Filled(form.description) && Filled(form.categoryId) && HoldsId(editingId) ==>
      |r| == |txs|
      && (forall i :: 0 <= i < |txs| && txs[i].id != editingId.value ==> r[i] == txs[i])
      && (forall i :: 0 <= i < |txs| && txs[i].id == editingId.value ==>
            r[i] == FromDraft(DraftOf(form, parse, decode), txs[i].id, txs[i].createdAt))
    ensures Filled(form.amount) && Filled(form.description) && Filled(form.categoryId) && !HoldsId(editingId) ==>
      r == [FromDraft(DraftOf(form, parse, decode), freshId, nowMs)] + txs
    ensures forall i :: 0 <= i < |r| ==> r[i] in txs || WellFormedTags(r[i].tags)
  {
    if !Filled(form.amount) || !Filled(form.description) || !Filled(form.categoryId) then txs
    else if HoldsId(editingId) then UpdateTransaction(txs, editingId.value, DraftOf(form, parse, decode))
    else
      var r := AddTransaction(txs, DraftOf(form, parse, decode), freshId, nowMs);
      assert r == [r[0]] + r[1..];
      r
  }

  /** `openEditModal`: the form filled from a record. `showAmount` stands for
      `amount.toString()` and `showDate` for the stored date text. */
  function EditFormOf(tx: Transaction, showAmount: real -> string, showDate: Date -> string): TransactionForm {
    TransactionForm(tx.kind, showAmount(tx.amount), tx.description.GetOr(""), tx.categoryId,
                    showDate(tx.date), Join(tx.tags, ", "))
  }

  /** Opening a record for editing and saving without a change leaves the
      ledger as it was, provided the amount and date texts read back to the
      same values, the record's tags are well formed and its id is unique. */
  lemma ResubmitUnchanged(txs: seq<Transaction>, i: int, showAmount: real -> string, parse: string -> real,
                          showDate: Date -> string, decode: string -> Date, freshId: string, nowMs: int)
    requires 0 <= i < |txs| && |txs[i].id| > 0
    requires forall j :: 0 <= j < |txs| && txs[j].id == txs[i].id ==> j == i
    requires parse(showAmount(txs[i].amount)) == txs[i].amount
    requires decode(showDate(txs[i].date)) == txs[i].date
    requires WellFormedTags(txs[i].tags)
    ensures SubmitTransaction(txs, Some(txs[i].id), EditFormOf(txs[i], showAmount, showDate),
                              parse, decode, freshId, nowMs) == txs
  {
    var tx := txs[i];
    var form := EditFormOf(tx, showAmount, showDate);
    ParseTagsJoin(tx.tags);
    var r := SubmitTransaction(txs, Some(tx.id), form, parse, decode, freshId, nowMs);
    if Filled(form.amount) && Filled(form.description) && Filled(form.categoryId) {
      assert tx.description == Some(form.description);
      assert FromDraft(DraftOf(form, parse, decode), tx.id, tx.createdAt) == tx;
      assert forall j :: 0 <= j < |txs| ==> r[j] == txs[j];
    }
  }
}

=== FILE: types.dfy ===
/** The records of the shared type definitions: transactions, categories
    and the dashboard statistics. */
module Types {
  import opened Wrappers
  import opened Calendar

  datatype TxType = Income | Expense

  /** A ledger entry. The stored ISO date string is kept here already decoded
      into its local calendar date; `createdAt` is the creation instant in ms. */
  datatype Transaction = Transaction(
    id: string,
    categoryId: string,
    amount: real,
    kind: TxType,
    date: Date,
    description: Option<string>,
    tags: seq<string>,
    createdAt: int)

  datatype Category = Category(
    id: string,
    name: string,
    icon: string,
    color: string,
    kind: TxType,
    budgetLimit: Option<real>)

  /** The summary figures shown on the dashboard cards. */
  datatype DashboardStats = DashboardStats(
    totalBalance: real,
    monthlyIncome: real,
    monthlyExpense: real,
    lastMonthExpense: real,
    expenseChange: int,
    budgetRemaining: real)
}

=== FILE: utils.dfy ===
/** The arithmetic helpers of the shared utility file: `Math.round`,
    the zero-guarded percentage and the relative-time phrase. */
module Utils {
  import opened Text
  import opened Calendar

  /** `Math.round`: the nearest integer, halves rounded towards +infinity. */
  function Round(x: real): (r: int)
    ensures r as real - 0.5 <= x < r as real + 0.5
  {
    (x + 0.5).Floor
  }

  /** An integer within half a unit below (inclusive) or above (exclusive) of `x` is its rounding. */
  lemma RoundUnique(x: real, r: int)
    requires r as real - 0.5 <= x < r as real + 0.5
    ensures Round(x) == r
  {
  }

  /** Rounding is monotonic. */
  lemma RoundMonotonic(x: real, y: real)
    requires x <= y
    ensures Round(x) <= Round(y)
  {
  }

  /** `calculatePercentage(value, total)`: 0 for a zero total, otherwise
      `value / total` as a rounded whole percentage. */
  function CalculatePercentage(value: real, total: real): (p: int)
    ensures total == 0.0 ==> p == 0
    ensures total != 0.0 ==> p as real - 0.5 <= value / total * 100.0 < p as real + 0.5
  {
    if total == 0.0 then 0 else Round(value / total * 100.0)
  }

  /** The whole of a non-zero total is 100 percent, and nothing is 0 percent of anything. */
  lemma PercentageOfWhole(v: real, t: real)
    requires v != 0.0
    ensures CalculatePercentage(v, v) == 100
    ensures CalculatePercentage(0.0, t) == 0
  {
    assert v / v == 1.0;
    RoundUnique(100.0, 100);
    RoundUnique(0.0, 0);
  }

  /** A percentage at or above 100 exactly when the value reaches 99.5 % of a positive total. */
  lemma PercentageReaches(value: real, total: real, k: int)
    requires total > 0.0
    ensures CalculatePercentage(value, total) >= k <==> 200.0 * value >= (2 * k - 1) as real * total
  {
    var q := value / total;
    assert q * total == value;
    var p := CalculatePercentage(value, total);
    if p >= k {
      assert q * 100.0 + 0.5 >= k as real;
      assert 200.0 * q >= (2 * k - 1) as real;
      assert 200.0 * q * total >= (2 * k - 1) as real * total;
    } else {
      assert q * 100.0 + 0.5 < k as real;
      assert 200.0 * q < (2 * k - 1) as real;
      assert 200.0 * q * total < (2 * k - 1) as real * total;
    }
  }

  /** With a negative total the comparison turns round: the percentage
      reaches `k` exactly when the value is at or below (k - 0.5) % of the total. */
  lemma PercentageReachesNegative(value: real, total: real, k: int)
    requires total < 0.0
    ensures CalculatePercentage(value, total) >= k <==> 200.0 * value <= (2 * k - 1) as real * total
  {
    var q := value / total;
    assert q * total == value;
    var p := CalculatePercentage(value, total);
    if p >= k {
      assert q * 100.0 + 0.5 >= k as real;
      assert 200.0 * q >= (2 * k - 1) as real;
      assert 200.0 * q * total <= (2 * k - 1) as real * total;
    } else {
      assert q * 100.0 + 0.5 < k as real;
      assert 200.0 * q < (2 * k - 1) as real;
      assert 200.0 * q * total > (2 * k - 1) as real * total;
    }
  }

  /** Both signs of the total at once: which way the threshold faces
      depends on the sign of the divisor. */
  lemma PercentageThreshold(value: real, total: real, k: int)
    requires total != 0.0
    ensures total > 0.0 ==> (CalculatePercentage(value, total) >= k <==> 200.0 * value >= (2 * k - 1) as real * total)
    ensures total < 0.0 ==> (CalculatePercentage(value, total) >= k <==> 200.0 * value <= (2 * k - 1) as real * total)
  {
    if total > 0.0 {
      PercentageReaches(value, total, k);
    } else {
      PercentageReachesNegative(value, total, k);
    }
  }

  /** The nested floors of the source: seconds to minutes to hours to days,
      each equal to one floor division of the millisecond count. */
  lemma FloorSteps(ms: int)
    ensures (ms / 1000) / 60 == ms / 60000
    ensures (ms / 60000) / 60 == ms / 3600000
    ensures (ms / 3600000) / 24 == ms / 86400000
  {
  }

  const MsPerMinute: int := 60000
  const MsPerHour: int := 3600000

  /** `formatRelativeTime`: the Indonesian phrase for the time elapsed from
      `thenMs` to `nowMs`. The source floors the difference to seconds,
      minutes, hours and days in turn; the contract states each phrase with
      one floor division of the millisecond difference. */
  function FormatRelativeTime(thenMs: int, nowMs: int): (r: string)
    ensures nowMs - thenMs >= MsPerDay ==>
      r == ShowNat((nowMs - thenMs) / MsPerDay) + " hari lalu"
    ensures MsPerHour <= nowMs - thenMs < MsPerDay ==>
      r == ShowNat((nowMs - thenMs) / MsPerHour) + " jam lalu"
    ensures MsPerMinute <= nowMs - thenMs < MsPerHour ==>
      r == ShowNat((nowMs - thenMs) / MsPerMinute) + " menit lalu"
    ensures nowMs - thenMs < MsPerMinute ==> r == "Baru saja"
  {
    var diffMs := nowMs - thenMs;
    var diffSecs := diffMs / 1000;
    var diffMins := diffSecs / 60;
    var diffHours := diffMins / 60;
    var diffDays := diffHours / 24;
    FloorSteps(diffMs);
    if diffDays > 0 then ShowNat(diffDays) + " hari lalu"
    else if diffHours > 0 then ShowNat(diffHours) + " jam lalu"
    else if diffMins > 0 then ShowNat(diffMins) + " menit lalu"
    else "Baru saja"
  }
}

=== FILE: wrappers.dfy ===
/** The optional value used wherever the source has `T | null` or `T | undefined`. */
module Wrappers {

  datatype Option<+T> = None | Some(value: T) {

    /** Returns the value held in Some, or `default` for None. */
    function GetOr(default: T): T {
      match this
      case Some(v) => v
      case None => default
    }
  }
}
